=== FILE: README.md ===
# costar_plan: task-template compiler and dataset tooling, in Dafny

This project models, as pure functions over immutable data, five pieces of
the costar_plan repository:

- **The task-template compiler.** Its behaviour comes from the repository's
  unit tests. A client builds a template with `add(name, deps, spec)`
  calls. `compile(domains)` enumerates the bindings of every referenced
  variable and expands the template into a graph of option instances.
  `nodeSummary()` renders that graph one line per instance, in the form
  `sig --> [child sigs]`.
- **`NpzGeneratorDataset`:**
  - `load` reads a directory listing in sorted order, filters it, and splits
    it into validation and training files;
  - `loadTest` has an index guard;
  - `write` always refuses.
- **`ctp_transform.py`:** the split of the data-file name into a root and
  a data type, and the dispatch on that data type to a dataset generator.
- **`view_convert_dataset.py`:** which listed files are converted, the
  name each one is opened under, and where the converted clip is written.
- **`DmpOption`:** validation of the policy type, and `makePolicy`.

Modules:

| module | contents |
|---|---|
| `Outcomes` | Option, Result and the Python exceptions raised |
| `Strings` | the `str` operations used: `startswith`, `in`, `split`, `join`, `replace`, `os.path.join`, sorting |
| `PyRepr` | Python 2 `repr` of a `str`, and a reader that undoes it |
| `TaskTemplate` | templates and `add` |
| `Combinator` | the ordered cross product of domains |
| `Expander` | instance expansion and registration |
| `Renderer` | `nodeSummary` and a parser proving it loses nothing |
| `Task` | `compile` |
| `GoldenText`, `TaskTests` | the two test templates worked out against their golden summaries |
| `NpyGenerator` | `NpzGeneratorDataset.load`, `loadTest` and `write` |
| `CtpTransform` | `ctp_transform.py` |
| `ViewConvert` | `view_convert_dataset.py` |
| `DmpOptions` | `dmp_option.py` |

Decisions the tests leave open:

- **Compiler source.** The compiler's own source (`costar_task_plan.abstract.Task`) is not part of this
  model. Its contract is taken from `costar_task_plan/tests/task_test.py`.
- **Edge binding.** The golden outputs fix how child lists are kept when
  bindings share an instance:
  - `task_test.py:64` lists only `pick('obj=orange')` under ROOT, although
    both bindings yield a `pick` below ROOT.
  - Line 61 lists only `pick('obj=orange')` under `drop()`.
  - Lines 63 and 65 show that each `pick` instance keeps its own `move` child.

  The model therefore computes each instance's child list, for every
  binding, from all template edges in registration order. Registering an
  instance again replaces its child list. An instance ends up with the
  children of the last binding that produced it. This fits both golden
  outputs.
- **Binding order.** The variable referenced first varies slowest, like
  the leading digit of a mixed-radix counter. The tests do not fix this
  order, because `goal` has a single value.
- **Checks.** `compile` reports a variable with no domain before an edge
  that names a node with no spec.
- **Argument quoting.** Each argument of a signature is shown as the Python 2
  `repr` of its `key=value` text. Text holding a single quote and no double
  quote goes in double quotes. Backslashes, the chosen quote, control
  characters and bytes from 0x7f up are escaped. The golden outputs hold only
  word arguments, so they fix the single quotes but not the rest of this
  rule.
- **Childless instances.** Every registered instance gets a summary line,
  including one whose child list is empty (`name() --> []`). Every instance
  in both tests has a child, so the golden outputs do not decide whether a
  childless instance that is also some instance's child would be listed.
- **Line order.** The golden summaries list their lines in Python 2
  dictionary order, which follows no rule of the compiler. A summary is
  therefore compared with its golden text as a multiset of lines. The
  model's own line order is registration order.

## Model

| member | source | states |
|---|---|---|
| TaskTemplate.Add | costar_task_plan/tests/task_test.py:46-52 | `add` keeps the earlier edges and appends one edge from ROOT (no deps) or one per dependency in list order. The first spec given for a name is kept for good. A spec-less re-add changes only the edges. |
| TaskTemplate.RefVars | costar_task_plan/tests/task_test.py:46-52 | the referenced variables are listed once each, exactly those some spec names, in the order of their first mention (nodes in the order their specs were given, arguments in declared order) |
| Combinator.Product | costar_task_plan/tests/task_test.py:83-85 | the number of bindings is the product of the referenced domains' sizes |
| Combinator.ProductIndex | costar_task_plan/tests/task_test.py:86-89 | bindings come in mixed-radix order: binding `i*S+j` gives the first variable its `i`-th value and extends binding `j` of the remaining variables |
| Combinator.ProductMembers | costar_task_plan/tests/task_test.py:79-89 | soundness and completeness: the bindings are exactly the maps giving each referenced variable a value of its domain |
| Combinator.ProductIgnoresOtherDomains | costar_task_plan/tests/task_test.py:96-100 | a domain for a variable outside the referenced ones leaves the bindings unchanged |
| Expander.Expand | costar_task_plan/tests/task_test.py:61-67 | the instance graph is a registry: instances are listed once each, and exactly the listed ones have a child list |
| Expander.ExpandInstances | costar_task_plan/tests/task_test.py:61-73 | an instance is in the graph exactly when some binding yields it, so identical instances merge |
| Expander.LastBindingWins | costar_task_plan/tests/task_test.py:61-66 | an instance's recorded children are those computed under the last binding that yields it |
| Task.Compile | costar_task_plan/tests/task_test.py:83-85 | `compile` succeeds exactly when every referenced variable has a domain and every edge names spec'd nodes. It names the offending variable or node otherwise. On success it returns the bindings and their expansion. |
| Task.CompileBindings | costar_task_plan/tests/task_test.py:85-89 | a map is among the returned bindings exactly when it binds each referenced variable to one value of its domain |
| Task.UnreferencedDomainIgnored | costar_task_plan/tests/task_test.py:96-102 | a domain for a variable no spec references changes neither bindings, nor instances, nor errors |
| Task.ArgumentFreeSingleInstance | costar_task_plan/tests/task_test.py:40-44 | a node with an empty argument list has the single instance `name()`, however many bindings there are |
| Task.InstanceIffBinding | costar_task_plan/tests/task_test.py:61-73 | an instance of a node exists exactly for the argument values some binding gives it |
| Task.RootKeepsLastBinding | costar_task_plan/tests/task_test.py:64 | ROOT always exists, and its children are those computed under the last binding |
| Task.ReAddKeepsInstances | costar_task_plan/tests/task_test.py:51 | re-adding a name with no spec leaves every instance, and its signature, as it was |
| PyRepr.ReprRoundTrip | costar_task_plan/tests/task_test.py:61-67 | reading a `repr` literal back gives the original string and leaves the following text untouched |
| PyRepr.ReprInjective | costar_task_plan/tests/task_test.py:61-67 | distinct strings never have the same `repr` |
| PyRepr.ReprSingleQuoted | costar_task_plan/tests/task_test.py:62 | printable text without quotes or backslashes is shown unchanged between single quotes |
| PyRepr.ReprDoubleQuoted | costar_task_plan/tests/task_test.py:61 | printable text holding a single quote but no double quote or backslash is shown unchanged between double quotes |
| Renderer.KeyValueRepr | costar_task_plan/tests/task_test.py:62 | an argument made of identifier words is shown as `'key=value'` |
| Renderer.WordSigRepr | costar_task_plan/tests/task_test.py:63 | a child signature with arguments is listed in double quotes, and one without arguments in single quotes |
| Renderer.NodeSummaryLines | costar_task_plan/tests/task_test.py:91-92 | the summary is one line per instance in registration order, each ended by a newline |
| Renderer.ParseLiteralsRoundTrip | costar_task_plan/tests/task_test.py:63 | a rendered `, `-separated list of literals is read back into exactly its items |
| Renderer.SigRoundTrip | costar_task_plan/tests/task_test.py:62 | every readable signature is read back into its instance: name, keys and values in order |
| Renderer.LineRoundTrip | costar_task_plan/tests/task_test.py:63 | a summary line is read back into its instance and its child list |
| Renderer.SummaryRoundTrip | costar_task_plan/tests/task_test.py:61-67 | a whole summary is read back into every instance with its children, in order, so rendering loses nothing |
| Renderer.SigInjective | costar_task_plan/tests/task_test.py:61-67 | distinct readable instances never share a signature |
| TaskTests.MakeTemplateIs | costar_task_plan/tests/task_test.py:46-52 | `make_template` gives three spec'd nodes and five edges, the last one from `drop` back to `pick` |
| TaskTests.MakeTemplate2Is | costar_task_plan/tests/task_test.py:54-59 | `make_template_test2` gives `pick2` with its rename, `drop`, and three edges |
| TaskTests.RefVars1 | costar_task_plan/tests/task_test.py:46-52 | test1's template references `obj` and then `goal` |
| TaskTests.Compile1 | costar_task_plan/tests/task_test.py:77-83 | compiling test1 gives its two bindings and a six-instance graph |
| TaskTests.Compile2 | costar_task_plan/tests/task_test.py:94-100 | compiling test2 gives its two bindings and a four-instance graph |
| TaskTests.Test1Bindings | costar_task_plan/tests/task_test.py:85-89 | test1 has two bindings: `obj=apple, goal=basket`, then `obj=orange, goal=basket` |
| TaskTests.Test1Summary | costar_task_plan/tests/task_test.py:91-92 | test1's summary holds exactly the six golden lines |
| TaskTests.Test2 | costar_task_plan/tests/task_test.py:94-102 | test2's renamed argument shows as `obj`, the unused `goal` domain adds no binding, and the summary holds exactly the four golden lines |
| Strings.Sort | costar_models/python/costar_models/datasets/npy_generator.py:40 | `files.sort()` gives a sorted permutation of the listing |
| Strings.SortedUnique | costar_models/python/costar_models/datasets/npy_generator.py:40 | there is only one sorted arrangement of a list |
| Strings.ContainsIff | costar_models/python/costar_models/datasets/npy_generator.py:48 | `p in s` holds exactly when `p` occurs in `s` at some position |
| NpyGenerator.Write | costar_models/python/costar_models/datasets/npy_generator.py:31-32 | `write` always raises NotImplementedError |
| NpyGenerator.Accepted | costar_models/python/costar_models/datasets/npy_generator.py:44-49 | the kept files are the listed names that are not hidden and, with `success_only`, mention `success`, each as often as it is listed. Listing order and distinctness are kept. An empty name raises IndexError. |
| NpyGenerator.ValidationCount | costar_models/python/costar_models/datasets/npy_generator.py:72 | the held-out count is `max(1, int(split*n))`: at least one and at least the truncated share, and equal to one of the two |
| NpyGenerator.ValidationCountBounds | costar_models/python/costar_models/datasets/npy_generator.py:72 | for a non-negative split, the count `r` satisfies `r <= max(split*n, 1) < r + 1`, and with `split <= 1` it never exceeds the files (or one) |
| NpyGenerator.FirstShared | costar_models/python/costar_models/datasets/npy_generator.py:80-84 | finds a file in both parts exactly when one exists |
| NpyGenerator.Load | costar_models/python/costar_models/datasets/npy_generator.py:39-84 | validation and training together hold exactly the accepted files, each as often as it is listed, in sorted order. The validation part is the first `ValidationCount` of them. The parts are disjoint, and over a listing without repeats neither part holds a repeat. IndexError is raised exactly when some listed name is empty. A RuntimeError is possible only with a repeated listing entry. |
| NpyGenerator.LoadSucceedsOnListing | costar_models/python/costar_models/datasets/npy_generator.py:80-84 | on a real directory listing (distinct, non-empty names) `load` never raises |
| NpyGenerator.LoadFailsOnSharedFile | costar_models/python/costar_models/datasets/npy_generator.py:76-84 | with no empty name, `load` fails exactly when some accepted file lies on both sides of the cut. The RuntimeError then names the first validation file found in training. |
| NpyGenerator.LoadRepeatedListing | costar_models/python/costar_models/datasets/npy_generator.py:38-84 | a repeated name is no error when the cut keeps both copies in training: `["a", "b", "b"]` loads as validation `["a"]` and training `["b", "b"]` |
| NpyGenerator.LoadEmptyName | costar_models/python/costar_models/datasets/npy_generator.py:45 | an empty name makes `load` raise IndexError |
| NpyGenerator.ValidationNeverEmpty | costar_models/python/costar_models/datasets/npy_generator.py:72-78 | whenever a file is accepted, at least one is held out for validation |
| NpyGenerator.ShuffleKeepsSplit | costar_models/python/costar_models/datasets/npy_generator.py:85-86 | any shuffle of the two lists keeps them a disjoint division of the accepted files |
| NpyGenerator.PyIndex | costar_models/python/costar_models/datasets/npy_generator.py:116 | Python list indexing, negative indices counting from the end, defined exactly on `-len <= i < len` |
| NpyGenerator.LoadTestAsWritten | costar_models/python/costar_models/datasets/npy_generator.py:113-117 | the guard raises RuntimeError exactly when `i > len(test)`. Any index from `len(test)` on, or below `-len(test)`, fails. Any other index gives the file at `test[i]`, counted from the end (`test[len(test)+i]`) when `i` is negative: its joined path and whether its name mentions `success`. |
| NpyGenerator.LoadTest | costar_models/python/costar_models/datasets/npy_generator.py:113-117 | the intended guard raises RuntimeError exactly when `i >= len(test)`. A valid index `i` gives the file at `test[i]`, or at `test[len(test)+i]` when `i` is negative: its joined path and whether its name mentions `success`. |
| NpyGenerator.LoadTestOffByOne | costar_models/python/costar_models/datasets/npy_generator.py:114-116 | at `i == len(test)` the written guard lets the call through to an IndexError |
| NpyGenerator.LoadTestAgrees | costar_models/python/costar_models/datasets/npy_generator.py:113-117 | at every other index the written and intended guards behave the same |
| CtpTransform.SplitDataFile | costar_models/scripts/ctp_transform.py:26-32 | the loop computes the rejoined root. The data type holds no `.`. Root, `.` and data type spell the file name again, and a name without `.` is all data type. |
| CtpTransform.RootRoundTrip | costar_models/scripts/ctp_transform.py:26-32 | the root, a `.` and the data type give back any name holding a `.` |
| Strings.JoinSplit | costar_models/scripts/ctp_transform.py:26-32 | joining the pieces of a split with its separator gives back the text |
| Strings.SplitPiecesFree | costar_models/scripts/ctp_transform.py:26-27 | no piece of a split on one character holds that character |
| CtpTransform.SelectGenerator | costar_models/scripts/ctp_transform.py:33-40 | `npz` and `h5f` select their generator over the root; any other data type raises NotImplementedError naming it |
| CtpTransform.LoadDataset | costar_models/scripts/ctp_transform.py:33-38 | an npz dataset's load succeeds exactly when `load` does and returns what it left |
| CtpTransform.VisualizeHidden | costar_models/scripts/ctp_transform.py:26-99 | the data type is checked first, then the dataset is loaded, then a model is required. An unknown data type raises NotImplementedError. An npz load that fails raises its own error whatever the model argument. A load that succeeds, with a missing or `None` model, raises RuntimeError. A known data type whose load succeeds, with a model given, always succeeds. On success the result carries exactly what `load` returned, which goes on to `model.load(**data)`. |
| CtpTransform.NpzNeedsOnlyModel | costar_models/scripts/ctp_transform.py:42-99 | for an npz file over a real directory listing, the tool proceeds exactly when a model is given |
| ViewConvert.Filenames | ctp_integration/scripts/view_convert_dataset.py:92-95 | a path holding `.h5f` is the one file to process; otherwise the directory listing is used |
| ViewConvert.Classify | ctp_integration/scripts/view_convert_dataset.py:101-111 | hidden names and names without `.h5` are skipped, then errors, failures and successes when asked, in that order. A name is processed exactly when no rule applies. |
| ViewConvert.SkipNote | ctp_integration/scripts/view_convert_dataset.py:103-111 | every skip except a hidden or non-data name writes a note naming the file |
| ViewConvert.ExampleNameMentions | ctp_integration/scripts/view_convert_dataset.py:113-117 | a name already mentioning the path is kept as is; otherwise the opened name mentions both path and name (unless the name is absolute) |
| ViewConvert.SaveNameSwapsExtension | ctp_integration/scripts/view_convert_dataset.py:171 | a name ending in its only `.h5f` gets `.` plus the conversion in its place |
| ViewConvert.SaveNameWithoutExtension | ctp_integration/scripts/view_convert_dataset.py:171 | a name without `.h5f` keeps its name |
| Strings.ReplaceIsJoinOfSplit | ctp_integration/scripts/view_convert_dataset.py:171 | `replace` replaces every occurrence: it is the split on the pattern joined with the replacement |
| ViewConvert.MainWriteAsWritten | ctp_integration/scripts/view_convert_dataset.py:171-175 | an empty conversion writes nothing, one mentioning `gif` writes a gif to the derived save name, and any other writes a video to the bare listed name |
| ViewConvert.MainWrite | ctp_integration/scripts/view_convert_dataset.py:171-175 | the same format choice, with both formats written to the derived save name |
| ViewConvert.ExampleOfListedName | ctp_integration/scripts/view_convert_dataset.py:113-117 | `a.h5f` listed under `data` is opened as `data/a.h5f` |
| ViewConvert.VideoTargetIsListedName | ctp_integration/scripts/view_convert_dataset.py:175 | as written, converting `data/a.h5f` to mp4 writes to `a.h5f` |
| ViewConvert.VideoTargetIsDerivedName | ctp_integration/scripts/view_convert_dataset.py:171-175 | with the derived name, it writes to `data/a.mp4` |
| ViewConvert.MainWriteNeverOverwrites | ctp_integration/scripts/view_convert_dataset.py:171-175 | with the derived name, a converted clip never lands on the `.h5f` file it was read from |
| ViewConvert.NpyToVideo | ctp_integration/scripts/view_convert_dataset.py:56-59 | `npy_to_video` writes a gif only for exactly `gif`, a video for any other non-empty conversion, and nothing for an empty one |
| ViewConvert.FormatTestsDiffer | ctp_integration/scripts/view_convert_dataset.py:56-59 | a conversion mentioning but not equal to `gif` is a gif for `main` and a video for `npy_to_video` |
| ViewConvert.StepFor | ctp_integration/scripts/view_convert_dataset.py:99-175 | a listed name is processed exactly when selected: opened under its example name, and written as `main` writes it (a video to the bare listed name). Otherwise it is skipped with the matching note. |
| ViewConvert.IntendedStep | ctp_integration/scripts/view_convert_dataset.py:171-175 | the step with the derived save name used for both formats: processed exactly when selected, written as `MainWrite` decides |
| ViewConvert.StepDiffersOnlyInVideoTarget | ctp_integration/scripts/view_convert_dataset.py:171-175 | the step as written and the step with the derived name agree on skips, opened names, gifs and format, and differ only in a video's target: the listed name versus the save name |
| ViewConvert.MainPlanWritesListedName | ctp_integration/scripts/view_convert_dataset.py:92-175 | `main` over `data` listing `a.h5f` with mp4 conversion opens `data/a.h5f` and writes the video to `a.h5f` |
| ViewConvert.Plan | ctp_integration/scripts/view_convert_dataset.py:92-99 | `main` takes one step per name gone through, in order, each step as written |
| ViewConvert.PlanOpens | ctp_integration/scripts/view_convert_dataset.py:92-117 | `main` opens exactly the selected names, in listing order, each under its example name, and a `.h5f` path is the only name |
| DmpOptions.New | costar_task_plan/python/costar_task_plan/robotics/core/dmp_option.py:8-22 | `joint` raises NotImplementedError, `cartesian` gives the Cartesian policy, any other name raises RuntimeError, and a non-class value raises RuntimeError. On success the instances are always empty. |
| DmpOptions.MakePolicy | costar_task_plan/python/costar_task_plan/robotics/core/dmp_option.py:24-25 | `makePolicy` always raises |
| DmpOptions.RebuildFromClass | costar_task_plan/python/costar_task_plan/robotics/core/dmp_option.py:18-22 | rebuilding an option from the class it holds gives the same option, whatever instances and frame are passed |
| DmpOptions.JointOnlyAsClass | costar_task_plan/python/costar_task_plan/robotics/core/dmp_option.py:11-19 | the joint policy is refused by name but accepted as a class |

## Left out

- The compiler's own source is not part of this model. Its behaviour is the one both golden outputs fix, with the choices stated above.
- The option constructor a spec names: instances are compared by name and bound arguments only.
- TaskTests.Test1Summary: compares the summary with the golden text as a multiset of lines, because the golden line order follows Python 2 dictionary iteration.
- TaskTests.Test2: compares lines as a multiset, for the same reason.
- NpyGenerator.Load: returns the two lists before `np.random.shuffle`. `ShuffleKeepsSplit` covers any shuffle as some permutation.
- NpyGenerator.Load: does not return the first file's arrays.
- `np.load`, the preload cache and the arrays `loadTest` returns are file I/O; a file is represented by its name.
- The float `split` is a rational `num/den`, and `int()` truncates it toward zero. Floating-point rounding is not modelled.
- `sampleTrain`, `sampleTest`, `sampleTrainFilename` and `sampleTestFilename` draw random indices; they are not modelled.
- `testFiles`, `trainFiles` and `numTest` only read fields.
- CtpTransform.LoadDataset: the h5f generator's `load` belongs to another file and is not part of this model, so it stands for a successful load with nothing recorded.
- `ConfigureGPU`, `MakeModel`, the model's predictions and the matplotlib plots after line 42 of ctp_transform.py are left out. They are GPU setup, neural network code and plotting.
- In view_convert_dataset.py, these are left out:
  - opening the HDF5 file and its IOError skip;
  - the depth and RGB channel checks, clip building, previews, matplotlib drawing, printing of data channels, the progress bar, and the KeyboardInterrupt and exception handlers.

  They are I/O with h5py, moviepy, pygame and matplotlib.
- `ExampleName` uses `os.path.join` for POSIX paths: an absolute second name replaces the path, and a `/` is inserted unless the path ends in one.
- Argument text is taken to be byte text, with every character at most 0xff, as in a Python 2 `str`. A wider character is rendered unescaped. A Python 2 `unicode` value, which `repr` shows as `u'...'`, is not modelled.
- DmpOptions.New: `isinstance(policy_type, type)` is modelled by the argument's kind, as a name, a class or another value. Python's class hierarchy is not modelled.

## Findings

| source | as written | input that shows it | evidently intended | confidence | as-written member | corrected member |
|---|---|---|---|---|---|---|
| costar_models/python/costar_models/datasets/npy_generator.py:114 | `if i > len(self.test)` lets `i == len(test)` past the guard, and the list lookup then raises IndexError | `loadTest(len(test))` | the guard rejects every index from `len(test)` on with its own RuntimeError (`>=`) | not executed | NpyGenerator.LoadTestAsWritten | NpyGenerator.LoadTest |
| ctp_integration/scripts/view_convert_dataset.py:175 | a non-gif conversion writes the video to `filename`, the bare listed name, instead of the derived `save_filename`. This is a relative name, not under the data path, and it still has the `.h5f` extension. | path `data`, listed name `a.h5f`, convert `mp4` writes to `a.h5f` | write to `save_filename` (`data/a.mp4`), as the gif branch does | not executed | ViewConvert.MainWriteAsWritten | ViewConvert.MainWrite |

=== FILE: combinator.dfy ===
/** The bindings `compile` enumerates: the ordered cross product of the
    domains of the referenced variables. The variable named first varies
    slowest and the one named last varies fastest, like the digits of a
    mixed-radix counter. */
module Combinator {
  import opened Outcomes
  import opened TaskTemplate

  type Value = string

  /** One binding: a value for each referenced variable. */
  type Combo = map<Var, Value>

  /** The candidate values supplied for each variable, in order. */
  type Domains = map<Var, seq<Value>>

  /** The product of the domain sizes of `vars`. */
  function Size(vars: seq<Var>, d: Domains): nat
    requires forall v :: v in vars ==> v in d
  {
    if |vars| == 0 then 1 else |d[vars[0]]| * Size(vars[1..], d)
  }

  /** For each value `x` of `xs` in turn, every binding of `cs` extended
      with `v := x`. */
  function Extend(v: Var, xs: seq<Value>, cs: seq<Combo>): (r: seq<Combo>)
    ensures |r| == |xs| * |cs|
  {
    if |xs| == 0 then []
    else
      var rest := Extend(v, xs[1..], cs);
      assert |xs| * |cs| == |cs| + (|xs| - 1) * |cs|;
      seq(|cs|, i requires 0 <= i < |cs| => cs[i][v := xs[0]]) + rest
  }

  /** Every binding of `vars` to values of their domains. */
  function Product(vars: seq<Var>, d: Domains): (r: seq<Combo>)
    requires forall v :: v in vars ==> v in d
    ensures |r| == Size(vars, d)
  {
    if |vars| == 0 then [map[]]
    else Extend(vars[0], d[vars[0]], Product(vars[1..], d))
  }

  /** The binding at position `i * |cs| + j` of `Extend` is binding `j` of
      `cs` extended with value `i` of `xs`. */
  lemma {:induction false} ExtendIndex(v: Var, xs: seq<Value>, cs: seq<Combo>, i: nat, j: nat)
    requires i < |xs| && j < |cs|
    ensures i * |cs| + j < |Extend(v, xs, cs)|
    ensures Extend(v, xs, cs)[i * |cs| + j] == cs[j][v := xs[i]]
    decreases i
  {
    var n := |cs|;
    if i > 0 {
      ExtendIndex(v, xs[1..], cs, i - 1, j);
      assert i * n + j == n + ((i - 1) * n + j);
    }
  }

  /** The mixed-radix order of `compile`'s bindings: with `S` the number of
      bindings of the remaining variables, binding `i * S + j` gives the
      first variable value `i` of its domain and extends binding `j` of the
      remaining variables. */
  lemma ProductIndex(vars: seq<Var>, d: Domains, i: nat, j: nat)
    requires forall v :: v in vars ==> v in d
    requires |vars| > 0 && i < |d[vars[0]]| && j < Size(vars[1..], d)
    ensures i * Size(vars[1..], d) + j < |Product(vars, d)|
    ensures Product(vars, d)[i * Size(vars[1..], d) + j] ==
              Product(vars[1..], d)[j][vars[0] := d[vars[0]][i]]
  {
    ExtendIndex(vars[0], d[vars[0]], Product(vars[1..], d), i, j);
  }

  /** `c` binds exactly `vars`, each to a value of its domain. */
  ghost predicate Binds(vars: seq<Var>, d: Domains, c: Combo)
    requires forall v :: v in vars ==> v in d
  {
    (forall v :: v in c <==> v in vars) && (forall v :: v in vars ==> c[v] in d[v])
  }

  lemma {:induction false} ExtendMembers(v: Var, xs: seq<Value>, cs: seq<Combo>, c: Combo)
    ensures c in Extend(v, xs, cs) <==> exists x, b :: x in xs && b in cs && c == b[v := x]
    decreases |xs|
  {
    if |xs| > 0 {
      ExtendMembers(v, xs[1..], cs, c);
      var front := seq(|cs|, i requires 0 <= i < |cs| => cs[i][v := xs[0]]);
      var rest := Extend(v, xs[1..], cs);
      assert Extend(v, xs, cs) == front + rest;
      if c in front + rest {
        if c in front {
          var i :| 0 <= i < |cs| && front[i] == c;
          assert xs[0] in xs && cs[i] in cs && c == cs[i][v := xs[0]];
        } else {
          var x, b :| x in xs[1..] && b in cs && c == b[v := x];
          assert x in xs;
        }
      }
      if exists x, b :: x in xs && b in cs && c == b[v := x] {
        var x, b :| x in xs && b in cs && c == b[v := x];
        if x == xs[0] {
          var i :| 0 <= i < |cs| && cs[i] == b;
          assert front[i] == c;
        } else {
          assert x in xs[1..];
          assert c in rest;
        }
      }
    }
  }

  lemma BindsExtend(v: Var, rest: seq<Var>, d: Domains, b: Combo, x: Value)
    requires forall w :: w in [v] + rest ==> w in d
    requires Binds(rest, d, b) && x in d[v]
    ensures Binds([v] + rest, d, b[v := x])
  {
  }

  lemma BindsRestrict(v: Var, rest: seq<Var>, d: Domains, c: Combo)
    requires forall w :: w in [v] + rest ==> w in d
    requires v !in rest && Binds([v] + rest, d, c)
    ensures Binds(rest, d, c - {v})
    ensures c == (c - {v})[v := c[v]]
  {
  }

  /** Soundness and completeness: with each variable listed once, the
      bindings enumerated are exactly the maps binding every variable to a
      value of its domain. */
  lemma {:induction false} ProductMembers(vars: seq<Var>, d: Domains, c: Combo)
    requires forall v :: v in vars ==> v in d
    requires Distinct(vars)
    ensures c in Product(vars, d) <==> Binds(vars, d, c)
    decreases |vars|
  {
    if |vars| == 0 {
      if Binds(vars, d, c) {
        assert c == map[];
      }
    } else {
      var v, rest := vars[0], vars[1..];
      assert vars == [v] + rest;
      assert forall k :: 0 <= k < |rest| ==> rest[k] == vars[k + 1];
      assert v !in rest;
      assert Distinct(rest) by {
        forall i, j | 0 <= i < j < |rest| ensures rest[i] != rest[j] {
          assert rest[i] == vars[i + 1] && rest[j] == vars[j + 1];
        }
      }
      ExtendMembers(v, d[v], Product(rest, d), c);
      if c in Product(vars, d) {
        var x, b :| x in d[v] && b in Product(rest, d) && c == b[v := x];
        ProductMembers(rest, d, b);
        BindsExtend(v, rest, d, b, x);
      }
      if Binds(vars, d, c) {
        BindsRestrict(v, rest, d, c);
        ProductMembers(rest, d, c - {v});
      }
    }
  }

  /** A domain supplied for a variable outside `vars` has no effect. */
  lemma {:induction false} ProductIgnoresOtherDomains(vars: seq<Var>, d: Domains, g: Var, xs: seq<Value>)
    requires forall v :: v in vars ==> v in d
    requires g !in vars
    ensures Product(vars, d[g := xs]) == Product(vars, d)
    decreases |vars|
  {
    if |vars| > 0 {
      assert vars[0] != g;
      ProductIgnoresOtherDomains(vars[1..], d, g, xs);
    }
  }
}

=== FILE: ctp_transform.dfy ===
/** `visualizeHiddenMain`: the data file named on the command line is cut
    at its last `.` into a dataset root and a data type, the data type picks
    the dataset generator, and a model must be supplied. Model building,
    prediction and plotting are not modelled. */
module CtpTransform {
  import opened Outcomes
  import opened Strings
  import opened NpyGenerator

  /** `data_file.split('.')` */
  function Tokens(dataFile: string): (r: seq<string>)
    ensures |r| >= 1
  {
    SplitOn(dataFile, ".")
  }

  /** The data type: the last `.`-separated token. */
  function DataType(dataFile: string): string
  {
    var info := Tokens(dataFile);
    info[|info| - 1]
  }

  /** The root: the other tokens, rejoined with `.`. */
  function Root(dataFile: string): string
  {
    var info := Tokens(dataFile);
    Join(info[..|info| - 1], ".")
  }

  /** The loop that builds the root: a `.` goes before every token but the
      first (the bound check in its guard always holds inside the loop). It
      computes the rejoined tokens, and the root and the data type spell the
      file name again. */
  method SplitDataFile(dataFile: string) returns (root: string, dataType: string)
    ensures root == Root(dataFile) && dataType == DataType(dataFile)
    ensures '.' !in dataType
    ensures Contains(dataFile, ".") ==> root + "." + dataType == dataFile
    ensures !Contains(dataFile, ".") ==> root == "" && dataType == dataFile
  {
    var info := SplitOn(dataFile, ".");
    dataType := info[|info| - 1];
    root := "";
    var i := 0;
    while i < |info| - 1
      invariant 0 <= i <= |info| - 1
      invariant root == Join(info[..i], ".")
    {
      if i < |info| - 1 && i > 0 {
        root := root + ".";
      }
      root := root + info[i];
      assert info[..i + 1] == info[..i] + [info[i]];
      if i > 0 {
        JoinSnoc(info[..i], info[i], ".");
      }
      i := i + 1;
    }
    SplitPiecesFree(dataFile, ".");
    RootRoundTrip(dataFile);
  }

  /** The root, a `.` and the data type give back a file name holding a
      `.`; a name without one is all data type. */
  lemma RootRoundTrip(dataFile: string)
    ensures Contains(dataFile, ".") ==> Root(dataFile) + "." + DataType(dataFile) == dataFile
    ensures !Contains(dataFile, ".") ==> Root(dataFile) == "" && DataType(dataFile) == dataFile
  {
    var info := Tokens(dataFile);
    var n := |info|;
    JoinSplit(dataFile, ".");
    SplitSeveralIffContains(dataFile, ".");
    if n >= 2 {
      var front := info[..n - 1];
      assert info == front + [info[n - 1]];
      JoinSnoc(front, info[n - 1], ".");
      assert Join(info, ".") == Join(front, ".") + "." + info[n - 1];
    } else {
      assert info[..n - 1] == [];
      assert Join(info, ".") == info[0];
    }
  }

  /** The dataset class chosen for a data type. */
  datatype Generator = NpzGenerator(root: string) | H5fGenerator(root: string)

  /** The arguments the tool reads; `model` is `None` when the key is
      absent and `Some(None)` when it is present but `None`. */
  datatype Args = Args(dataFile: string, successOnly: bool, model: Option<Option<string>>)

  /** How far the tool gets: the dataset it opened, what an npz dataset's
      `load` left, and the model it goes on to build. */
  datatype Visualization = Visualization(dataset: Generator, loaded: Option<Loaded>, model: string)

  /** `npz` and `h5f` name a generator; anything else is not implemented. */
  function SelectGenerator(dataType: string, root: string): (r: Result<Generator, Exception>)
    ensures r.Ok? <==> dataType == "npz" || dataType == "h5f"
    ensures r.Ok? ==> r.value.root == root
    ensures r.Ok? ==> (r.value.NpzGenerator? <==> dataType == "npz")
    ensures r.Err? ==> r.error == NotImplementedError("data type not implemented: " + dataType)
  {
    if dataType == "npz" then Ok(NpzGenerator(root))
    else if dataType == "h5f" then Ok(H5fGenerator(root))
    else Err(NotImplementedError("data type not implemented: " + dataType))
  }

  /** `dataset.load(success_only)` for the chosen generator, given the
      listing of its directory. */
  function LoadDataset(g: Generator, listing: seq<string>, successOnly: bool): (r: Result<Option<Loaded>, Exception>)
    ensures g.H5fGenerator? ==> r == Ok(None)
    ensures g.NpzGenerator? ==> (r.Ok? <==> Load(DefaultSplit, listing, successOnly).Ok?)
    ensures g.NpzGenerator? && r.Ok? ==> r.value == Some(Load(DefaultSplit, listing, successOnly).value)
  {
    match g
    case H5fGenerator(_) => Ok(None)
    case NpzGenerator(_) =>
      match Load(DefaultSplit, listing, successOnly)
      case Ok(l) => Ok(Some(l))
      case Err(e) => Err(e)
  }

  /** `visualizeHiddenMain(args)` up to the point where the model is built:
      the data type is checked first, then the dataset loaded, then the model
      argument required. What `load` returned is handed on, as `loaded`, to
      the model's own `load`. */
  function VisualizeHidden(args: Args, listing: seq<string>): (r: Result<Visualization, Exception>)
    ensures r.Ok? ==> args.model == Some(Some(r.value.model))
    ensures r.Ok? ==> r.value.dataset.root == Root(args.dataFile)
    ensures r.Ok? ==> (r.value.dataset.NpzGenerator? <==> DataType(args.dataFile) == "npz")
    ensures r.Ok? ==> LoadDataset(r.value.dataset, listing, args.successOnly) == Ok(r.value.loaded)
    ensures DataType(args.dataFile) != "npz" && DataType(args.dataFile) != "h5f" ==>
              r == Err(NotImplementedError("data type not implemented: " + DataType(args.dataFile)))
    // an npz load that fails stops the tool before the model is looked at
    ensures DataType(args.dataFile) == "npz" &&
            LoadDataset(NpzGenerator(Root(args.dataFile)), listing, args.successOnly).Err? ==>
              r == Err(LoadDataset(NpzGenerator(Root(args.dataFile)), listing, args.successOnly).error)
    ensures DataType(args.dataFile) == "npz" &&
            LoadDataset(NpzGenerator(Root(args.dataFile)), listing, args.successOnly).Ok? &&
            (args.model.None? || args.model.value.None?) ==>
              r == Err(RuntimeError("Must provide a model to load"))
    ensures DataType(args.dataFile) == "h5f" && (args.model.None? || args.model.value.None?) ==>
              r == Err(RuntimeError("Must provide a model to load"))
    // a known data type whose load succeeds, with a model given, goes on to build it
    ensures (DataType(args.dataFile) == "npz" || DataType(args.dataFile) == "h5f") &&
            LoadDataset(SelectGenerator(DataType(args.dataFile), Root(args.dataFile)).value, listing, args.successOnly).Ok? &&
            args.model.Some? && args.model.value.Some? ==>
              r.Ok?
  {
    match SelectGenerator(DataType(args.dataFile), Root(args.dataFile))
    case Err(e) => Err(e)
    case Ok(g) =>
      match LoadDataset(g, listing, args.successOnly)
      case Err(e) => Err(e)
      case Ok(loaded) =>
        match args.model
        case Some(Some(m)) => Ok(Visualization(g, loaded, m))
        case _ => Err(RuntimeError("Must provide a model to load"))
  }

  /** For an npz dataset whose directory lists each file once, the only
      remaining failure is a missing model. */
  lemma NpzNeedsOnlyModel(args: Args, listing: seq<string>)
    requires DataType(args.dataFile) == "npz"
    requires Distinct(listing)
    requires forall i :: 0 <= i < |listing| ==> |listing[i]| > 0
    ensures VisualizeHidden(args, listing).Ok? <==> args.model.Some? && args.model.value.Some?
    ensures VisualizeHidden(args, listing).Err? ==>
              VisualizeHidden(args, listing).error == RuntimeError("Must provide a model to load")
  {
    LoadSucceedsOnListing(DefaultSplit, listing, args.successOnly);
  }
}

=== FILE: dmp_option.dfy ===
/** `DmpOption`: an option whose policy is a dynamic movement primitive,
    chosen by name or given as a policy class. */
module DmpOptions {
  import opened Outcomes

  /** The policy classes an option can hold. */
  datatype PolicyClass = JointDmpPolicy | CartesianDmpPolicy | OtherClass(name: string)

  /** What `policy_type` may be: a name, a class, or some other value. */
  datatype PolicyArg = PolicyName(s: string) | PolicyType(cls: PolicyClass) | OtherValue

  /** A constructed option: its policy class and its (always empty) list of
      instances. The frame it was given is not kept. */
  datatype DmpOption = DmpOption(policyType: PolicyClass, instances: seq<string>)

  /** `DmpOption(policy_type, instances, attached_frame)` */
  function New(policyType: PolicyArg, instances: seq<string>, attachedFrame: Option<string>): (r: Result<DmpOption, Exception>)
    ensures r.Ok? <==> policyType == PolicyName("cartesian") || policyType.PolicyType?
    ensures r.Ok? ==> r.value.instances == []
    ensures policyType == PolicyName("cartesian") ==> r == Ok(DmpOption(CartesianDmpPolicy, []))
    ensures policyType.PolicyType? ==> r == Ok(DmpOption(policyType.cls, []))
    ensures policyType == PolicyName("joint") ==> r.Err? && r.error.NotImplementedError?
    ensures policyType.PolicyName? && policyType.s != "joint" && policyType.s != "cartesian" ==>
              r == Err(RuntimeError("invalid option for DMP policy type: " + policyType.s))
    ensures policyType.OtherValue? ==> r == Err(RuntimeError("invalid data type for DMP policy"))
  {
    match policyType
    case PolicyName(s) =>
      if s == "joint" then Err(NotImplementedError("Joint space skills not currently implemented."))
      else if s == "cartesian" then Ok(DmpOption(CartesianDmpPolicy, []))
      else Err(RuntimeError("invalid option for DMP policy type: " + s))
    case PolicyType(c) => Ok(DmpOption(c, []))
    case OtherValue => Err(RuntimeError("invalid data type for DMP policy"))
  }

  /** `makePolicy()` is not implemented. */
  function MakePolicy(o: DmpOption): (r: Result<(), Exception>)
    ensures r.Err? && r.error.PlainException?
  {
    Err(PlainException("option.makePolicy not implemented!"))
  }

  /** Building an option again from the class an option holds gives the
      same option, whatever instances and frame are passed. */
  lemma RebuildFromClass(a: PolicyArg, instances: seq<string>, frame: Option<string>,
                         instances': seq<string>, frame': Option<string>)
    requires New(a, instances, frame).Ok?
    ensures New(PolicyType(New(a, instances, frame).value.policyType), instances', frame') == New(a, instances, frame)
  {
  }

  /** The joint policy can be given as a class, though not by its name. */
  lemma JointOnlyAsClass(instances: seq<string>, frame: Option<string>)
    ensures New(PolicyName("joint"), instances, frame).Err?
    ensures New(PolicyType(JointDmpPolicy), instances, frame) == Ok(DmpOption(JointDmpPolicy, []))
  {
  }
}

=== FILE: expander.dfy ===
/** Instance expansion. For each binding in turn, every node that holds a
    spec (and the ROOT sentinel) is projected to an instance, each instance
    is given the child list its template edges lead to under that binding,
    and the instance is registered: identical instances merge into one, and
    a later registration replaces the child list an earlier one recorded. */
module Expander {
  import opened Outcomes
  import opened TaskTemplate
  import opened Combinator

  /** One bound argument: the (possibly renamed) key and its value. */
  datatype Binding = Binding(key: string, value: Value)

  /** A node instance: the ROOT sentinel, or a node name with its bound
      arguments in declared order. Instances are equal exactly when name and
      bindings are, which is how identical instances merge. */
  datatype Node = RootNode | Inst(name: Name, args: seq<Binding>)

  /** The instance registry: instances in first-registration order, and the
      child list last recorded for each. */
  datatype Graph = Graph(order: seq<Node>, children: map<Node, seq<Node>>)

  /** One registration: an instance and the child list computed for it. */
  datatype Entry = Entry(node: Node, kids: seq<Node>)

  ghost predicate Registry(g: Graph) {
    Distinct(g.order) && (forall x :: x in g.children <==> x in g.order)
  }

  const NoInstances: Graph := Graph([], map[])

  /** Every edge runs between nodes that hold a spec (or from ROOT). */
  ghost predicate Closed(t: Template) {
    && Valid(t)
    && forall e :: e in t.edges ==> e.tgt in t.specs && (e.src.Named? ==> e.src.name in t.specs)
  }

  /** `c` binds every variable some spec of `t` names. */
  ghost predicate Covers(t: Template, c: Combo) {
    forall n, v :: n in t.specs && v in t.specs[n].args ==> v in c
  }

  /** The bound arguments of a node with spec `s` under binding `c`, in the
      spec's declared order, each under its renamed key. */
  function Bind(s: Spec, c: Combo): seq<Binding>
    requires forall v :: v in s.args ==> v in c
  {
    seq(|s.args|, i requires 0 <= i < |s.args| => Binding(Key(s, s.args[i]), c[s.args[i]]))
  }

  /** The instance of `p` under binding `c`. */
  function Project(t: Template, p: Parent, c: Combo): Node
    requires p.Named? ==> p.name in t.specs
    requires Covers(t, c)
  {
    match p
    case Root => RootNode
    case Named(n) => Inst(n, Bind(t.specs[n], c))
  }

  /** The instances that the edges out of `p` lead to under `c`, in edge
      registration order, repeats kept. */
  function Kids(t: Template, p: Parent, edges: seq<Edge>, c: Combo): seq<Node>
    requires forall e :: e in edges ==> e.tgt in t.specs
    requires Covers(t, c)
  {
    if |edges| == 0 then []
    else
      (if edges[0].src == p then [Project(t, Named(edges[0].tgt), c)] else [])
      + Kids(t, p, edges[1..], c)
  }

  /** ROOT followed by the nodes holding a spec. */
  function Sources(t: Template): seq<Parent>
  {
    [Root] + seq(|t.nodes|, i requires 0 <= i < |t.nodes| => Named(t.nodes[i]))
  }

  /** The registrations one binding makes. */
  function EntriesOf(t: Template, c: Combo): seq<Entry>
    requires Closed(t) && Covers(t, c)
  {
    var ps := Sources(t);
    assert forall i :: 0 <= i < |ps| && ps[i].Named? ==> ps[i].name in t.specs by {
      forall i | 0 < i < |ps| ensures ps[i] == Named(t.nodes[i - 1]) {
      }
    }
    seq(|ps|, i requires 0 <= i < |ps| => Entry(Project(t, ps[i], c), Kids(t, ps[i], t.edges, c)))
  }

  /** Registers one instance: it joins the order the first time it is seen,
      and its child list replaces whatever was recorded before. */
  function Register(g: Graph, e: Entry): Graph
  {
    Graph(if e.node in g.children then g.order else g.order + [e.node], g.children[e.node := e.kids])
  }

  function RegisterAll(g: Graph, es: seq<Entry>): Graph
    decreases |es|
  {
    if |es| == 0 then g else RegisterAll(Register(g, es[0]), es[1..])
  }

  /** The instance graph `compile` leaves behind after processing `cs`. */
  function Expand(t: Template, cs: seq<Combo>): (g: Graph)
    requires Closed(t)
    requires forall c :: c in cs ==> Covers(t, c)
    ensures Registry(g)
    decreases |cs|
  {
    if |cs| == 0 then NoInstances
    else
      var prev := Expand(t, cs[..|cs| - 1]);
      var es := EntriesOf(t, cs[|cs| - 1]);
      RegisterAllRegistry(prev, es);
      RegisterAll(prev, es)
  }

  /** Binding `c` yields instance `x`. */
  ghost predicate Produces(t: Template, c: Combo, x: Node)
    requires Covers(t, c)
  {
    x == RootNode || (x.Inst? && x.name in t.specs && x.args == Bind(t.specs[x.name], c))
  }

  function ParentOf(x: Node): Parent
  {
    match x
    case RootNode => Root
    case Inst(n, _) => Named(n)
  }

  /** The child list binding `c` computes for instance `x`. */
  function KidsFor(t: Template, x: Node, c: Combo): seq<Node>
    requires Closed(t) && Covers(t, c)
  {
    Kids(t, ParentOf(x), t.edges, c)
  }

  /** The instances a sequence of registrations names, in order. */
  function NodesOf(es: seq<Entry>): (r: seq<Node>)
    ensures |r| == |es| && forall i :: 0 <= i < |es| ==> r[i] == es[i].node
  {
    seq(|es|, i requires 0 <= i < |es| => es[i].node)
  }

  /** One binding registers each instance it yields exactly once, with the
      child list it computes for it. */
  lemma EntriesFacts(t: Template, c: Combo)
    requires Closed(t) && Covers(t, c)
    ensures Distinct(NodesOf(EntriesOf(t, c)))
    ensures forall x :: Produces(t, c, x) <==> x in NodesOf(EntriesOf(t, c))
    ensures forall i :: 0 <= i < |EntriesOf(t, c)| ==>
              EntriesOf(t, c)[i].kids == KidsFor(t, EntriesOf(t, c)[i].node, c)
  {
    var es := EntriesOf(t, c);
    var ps := Sources(t);
    assert |es| == |ps| == |t.nodes| + 1;
    assert forall i :: 0 < i < |ps| ==> ps[i] == Named(t.nodes[i - 1]);
    assert es[0].node == RootNode;
    assert forall i :: 0 < i < |es| ==> es[i].node == Inst(t.nodes[i - 1], Bind(t.specs[t.nodes[i - 1]], c));
    forall x | Produces(t, c, x)
      ensures x in NodesOf(es)
    {
      if x != RootNode {
        var i :| 0 <= i < |t.nodes| && t.nodes[i] == x.name;
        assert NodesOf(es)[i + 1] == x;
      }
    }
  }

  lemma RegisterFacts(g: Graph, e: Entry)
    requires Registry(g)
    ensures Registry(Register(g, e))
    ensures |Register(g, e).order| >= |g.order| && Register(g, e).order[..|g.order|] == g.order
  {
    var r := Register(g, e);
    if e.node !in g.children {
      assert r.order == g.order + [e.node];
      assert r.order[..|g.order|] == g.order;
    }
  }

  lemma NodesOfTail(es: seq<Entry>)
    requires |es| > 0
    ensures NodesOf(es) == [es[0].node] + NodesOf(es[1..])
  {
  }

  /** Registration keeps the registry well formed and only ever appends to
      the order. */
  lemma {:induction false} RegisterAllRegistry(g: Graph, es: seq<Entry>)
    requires Registry(g)
    ensures Registry(RegisterAll(g, es))
    ensures |RegisterAll(g, es).order| >= |g.order|
    ensures RegisterAll(g, es).order[..|g.order|] == g.order
    decreases |es|
  {
    if |es| > 0 {
      var g' := Register(g, es[0]);
      RegisterFacts(g, es[0]);
      RegisterAllRegistry(g', es[1..]);
      var r := RegisterAll(g', es[1..]);
      assert r.order[..|g.order|] == r.order[..|g'.order|][..|g.order|];
    }
  }

  /** After registering `es`, the instances known are the earlier ones and
      those of `es`. */
  lemma {:induction false} RegisterAllKeys(g: Graph, es: seq<Entry>, x: Node)
    ensures x in RegisterAll(g, es).children <==> x in g.children || x in NodesOf(es)
    decreases |es|
  {
    if |es| > 0 {
      RegisterAllKeys(Register(g, es[0]), es[1..], x);
      NodesOfTail(es);
    }
  }

  /** An instance outside `es` keeps the child list it had. */
  lemma {:induction false} RegisterAllUntouched(g: Graph, es: seq<Entry>, x: Node)
    requires x in g.children && x !in NodesOf(es)
    ensures x in RegisterAll(g, es).children
    ensures RegisterAll(g, es).children[x] == g.children[x]
    decreases |es|
  {
    if |es| > 0 {
      NodesOfTail(es);
      RegisterAllUntouched(Register(g, es[0]), es[1..], x);
    }
  }

  /** Among pairwise distinct registrations, each instance keeps the child
      list registered with it. */
  lemma {:induction false} RegisterAllAt(g: Graph, es: seq<Entry>, i: nat)
    requires Distinct(NodesOf(es)) && i < |es|
    ensures es[i].node in RegisterAll(g, es).children
    ensures RegisterAll(g, es).children[es[i].node] == es[i].kids
    decreases |es|
  {
    NodesOfTail(es);
    var g' := Register(g, es[0]);
    if i == 0 {
      assert es[0].node !in NodesOf(es[1..]) by {
        forall j | 0 <= j < |es[1..]| ensures NodesOf(es[1..])[j] != es[0].node {
          assert NodesOf(es[1..])[j] == NodesOf(es)[j + 1];
        }
      }
      RegisterAllUntouched(g', es[1..], es[0].node);
    } else {
      assert Distinct(NodesOf(es[1..])) by {
        forall a, b | 0 <= a < b < |es[1..]| ensures NodesOf(es[1..])[a] != NodesOf(es[1..])[b] {
          assert NodesOf(es[1..])[a] == NodesOf(es)[a + 1];
          assert NodesOf(es[1..])[b] == NodesOf(es)[b + 1];
        }
      }
      RegisterAllAt(g', es[1..], i - 1);
      assert es[1..][i - 1] == es[i];
    }
  }

  /** The instances registered are exactly those some binding yields. */
  lemma {:induction false} ExpandInstances(t: Template, cs: seq<Combo>, x: Node)
    requires Closed(t)
    requires forall c :: c in cs ==> Covers(t, c)
    ensures x in Expand(t, cs).children <==> exists k :: 0 <= k < |cs| && Produces(t, cs[k], x)
    decreases |cs|
  {
    if |cs| > 0 {
      var n := |cs|;
      var front := cs[..n - 1];
      ExpandLast(t, cs);
      ExpandInstances(t, front, x);
      EntriesFacts(t, cs[n - 1]);
      RegisterAllKeys(Expand(t, front), EntriesOf(t, cs[n - 1]), x);
      ProducedByLastOrEarlier(t, cs, front, x);
    }
  }

  /** Some binding yields `x` exactly when the last one does or an earlier
      one does. */
  lemma ProducedByLastOrEarlier(t: Template, cs: seq<Combo>, front: seq<Combo>, x: Node)
    requires |cs| > 0 && forall c :: c in cs ==> Covers(t, c)
    requires front == cs[..|cs| - 1]
    ensures forall c :: c in front ==> Covers(t, c)
    ensures Covers(t, cs[|cs| - 1])
    ensures (exists k :: 0 <= k < |cs| && Produces(t, cs[k], x)) <==>
              (exists k :: 0 <= k < |front| && Produces(t, front[k], x)) || Produces(t, cs[|cs| - 1], x)
  {
    var n := |cs|;
    assert forall c :: c in front ==> c in cs;
    assert cs[n - 1] in cs;
    assert forall k :: 0 <= k < n - 1 ==> front[k] == cs[k];
    if exists k :: 0 <= k < n && Produces(t, cs[k], x) {
      var k :| 0 <= k < n && Produces(t, cs[k], x);
      if k < n - 1 {
        assert Produces(t, front[k], x);
      }
    }
  }

  /** The child list recorded for an instance is the one computed under the
      last binding that yields it: an instance only one binding yields keeps
      that binding's children, while an instance many bindings share ends up
      with the children of the last of them. */
  lemma {:induction false} LastBindingWins(t: Template, cs: seq<Combo>, k: nat, x: Node)
    requires Closed(t)
    requires forall c :: c in cs ==> Covers(t, c)
    requires k < |cs| && Produces(t, cs[k], x)
    requires forall j :: k < j < |cs| ==> !Produces(t, cs[j], x)
    ensures x in Expand(t, cs).children
    ensures Expand(t, cs).children[x] == KidsFor(t, x, cs[k])
    decreases |cs|
  {
    var n := |cs|;
    var front := cs[..n - 1];
    assert forall c :: c in front ==> c in cs;
    ExpandLast(t, cs);
    if k == n - 1 {
      LastRegistrationWins(t, Expand(t, front), cs[n - 1], x);
    } else {
      FrontKeeps(t, cs, front, k, x);
      LastBindingWins(t, front, k, x);
      UntouchedByLast(t, Expand(t, front), cs[n - 1], x);
    }
  }

  lemma FrontKeeps(t: Template, cs: seq<Combo>, front: seq<Combo>, k: nat, x: Node)
    requires forall c :: c in cs ==> Covers(t, c)
    requires k < |cs| - 1 && Produces(t, cs[k], x)
    requires forall j :: k < j < |cs| ==> !Produces(t, cs[j], x)
    requires front == cs[..|cs| - 1]
    ensures forall c :: c in front ==> Covers(t, c)
    ensures Produces(t, front[k], x)
    ensures forall j :: k < j < |front| ==> !Produces(t, front[j], x)
    ensures !Produces(t, cs[|cs| - 1], x)
  {
    assert forall c :: c in front ==> c in cs;
    assert front[k] == cs[k];
    forall j | k < j < |front| ensures !Produces(t, front[j], x) {
      assert front[j] == cs[j];
    }
  }

  /** A binding that does not yield `x` leaves its child list alone. */
  lemma UntouchedByLast(t: Template, g: Graph, c: Combo, x: Node)
    requires Closed(t) && Covers(t, c) && !Produces(t, c, x)
    requires x in g.children
    ensures x in RegisterAll(g, EntriesOf(t, c)).children
    ensures RegisterAll(g, EntriesOf(t, c)).children[x] == g.children[x]
  {
    EntriesFacts(t, c);
    RegisterAllUntouched(g, EntriesOf(t, c), x);
  }

  lemma ExpandLast(t: Template, cs: seq<Combo>)
    requires Closed(t) && |cs| > 0
    requires forall c :: c in cs ==> Covers(t, c)
    ensures forall c :: c in cs[..|cs| - 1] ==> Covers(t, c)
    ensures Covers(t, cs[|cs| - 1])
    ensures Expand(t, cs) == RegisterAll(Expand(t, cs[..|cs| - 1]), EntriesOf(t, cs[|cs| - 1]))
  {
    assert forall c :: c in cs[..|cs| - 1] ==> c in cs;
    assert cs[|cs| - 1] in cs;
  }

  /** An instance the binding yields takes the child list that binding
      computes for it, whatever was registered before. */
  lemma LastRegistrationWins(t: Template, g: Graph, c: Combo, x: Node)
    requires Closed(t) && Covers(t, c) && Produces(t, c, x)
    ensures x in RegisterAll(g, EntriesOf(t, c)).children
    ensures RegisterAll(g, EntriesOf(t, c)).children[x] == KidsFor(t, x, c)
  {
    var es := EntriesOf(t, c);
    EntriesFacts(t, c);
    var i :| 0 <= i < |es| && NodesOf(es)[i] == x;
    RegisterAllAt(g, es, i);
  }
}

=== FILE: golden_text.dfy ===
/** The golden summaries of the task tests, as literal text, and the
    concatenations of rendered pieces that spell each line. Kept apart from
    the compiler so that checking literal text does not drag in its
    definitions. Each line is spelled out in a few short steps rather than
    one concatenation: the steps carry no meaning of their own and only keep
    the cost of checking the literal text small and steady. */
module GoldenText {
  /** `test1_res`, line by line, in the order the test writes them. */
  const Test1Lines: seq<string> := [
    "drop() --> [\"pick('obj=orange')\"]",
    "move('obj=orange', 'goal=basket') --> ['drop()']",
    "pick('obj=orange') --> [\"move('obj=orange', 'goal=basket')\", 'drop()']",
    "ROOT() --> [\"pick('obj=orange')\"]",
    "pick('obj=apple') --> [\"move('obj=apple', 'goal=basket')\", 'drop()']",
    "move('obj=apple', 'goal=basket') --> ['drop()']"]

  /** `test2_res`, line by line. */
  const Test2Lines: seq<string> := [
    "drop() --> [\"pick2('obj=this_one')\"]",
    "pick2('obj=that_one') --> ['drop()']",
    "pick2('obj=this_one') --> ['drop()']",
    "ROOT() --> [\"pick2('obj=this_one')\"]"]

  lemma TextRoot1Step1()
    ensures "ROOT()" + " --> [\"" == "ROOT() --> [\""
  {
  }

  lemma TextRoot1Step2()
    ensures "ROOT() --> [\"" + "pick('obj=orange')" == "ROOT() --> [\"pick('obj=orange')"
  {
  }

  lemma TextRoot1Step3()
    ensures "ROOT() --> [\"pick('obj=orange')" + "\"]" == "ROOT() --> [\"pick('obj=orange')\"]"
  {
  }

  lemma TextRoot1()
    ensures "ROOT()" + " --> [\"" + "pick('obj=orange')" + "\"]" == Test1Lines[3]
  {
    TextRoot1Step1();
    TextRoot1Step2();
    TextRoot1Step3();
  }

  lemma TextPickAppleStep1()
    ensures "pick('obj=apple')" + " --> [\"" == "pick('obj=apple') --> [\""
  {
  }

  lemma TextPickAppleStep2()
    ensures "pick('obj=apple') --> [\"" + "move('obj=apple', 'goal=basket')" == "pick('obj=apple') --> [\"move('obj=apple', 'goal=basket')"
  {
  }

  lemma TextPickAppleStep3()
    ensures "pick('obj=apple') --> [\"move('obj=apple', 'goal=basket')" + "\", 'drop()']" == "pick('obj=apple') --> [\"move('obj=apple', 'goal=basket')\", 'drop()']"
  {
  }

  lemma TextPickApple()
    ensures "pick('obj=apple')" + " --> [\"" + "move('obj=apple', 'goal=basket')" + "\", 'drop()']" == Test1Lines[4]
  {
    TextPickAppleStep1();
    TextPickAppleStep2();
    TextPickAppleStep3();
  }

  lemma TextMoveApple()
    ensures "move('obj=apple', 'goal=basket')" + " --> ['drop()']" == Test1Lines[5]
  {
  }

  lemma TextDrop1Step1()
    ensures "drop()" + " --> [\"" == "drop() --> [\""
  {
  }

  lemma TextDrop1Step2()
    ensures "drop() --> [\"" + "pick('obj=orange')" == "drop() --> [\"pick('obj=orange')"
  {
  }

  lemma TextDrop1Step3()
    ensures "drop() --> [\"pick('obj=orange')" + "\"]" == "drop() --> [\"pick('obj=orange')\"]"
  {
  }

  lemma TextDrop1()
    ensures "drop()" + " --> [\"" + "pick('obj=orange')" + "\"]" == Test1Lines[0]
  {
    TextDrop1Step1();
    TextDrop1Step2();
    TextDrop1Step3();
  }

  lemma TextPickOrangeStep1()
    ensures "pick('obj=orange')" + " --> [\"" == "pick('obj=orange') --> [\""
  {
  }

  lemma TextPickOrangeStep2()
    ensures "pick('obj=orange') --> [\"" + "move('obj=orange', 'goal=basket')" == "pick('obj=orange') --> [\"move('obj=orange', 'goal=basket')"
  {
  }

  lemma TextPickOrangeStep3()
    ensures "pick('obj=orange') --> [\"move('obj=orange', 'goal=basket')" + "\", 'drop()']" == "pick('obj=orange') --> [\"move('obj=orange', 'goal=basket')\", 'drop()']"
  {
  }

  lemma TextPickOrange()
    ensures "pick('obj=orange')" + " --> [\"" + "move('obj=orange', 'goal=basket')" + "\", 'drop()']" == Test1Lines[2]
  {
    TextPickOrangeStep1();
    TextPickOrangeStep2();
    TextPickOrangeStep3();
  }

  lemma TextMoveOrange()
    ensures "move('obj=orange', 'goal=basket')" + " --> ['drop()']" == Test1Lines[1]
  {
  }

  lemma TextRoot2Step1()
    ensures "ROOT()" + " --> [\"" == "ROOT() --> [\""
  {
  }

  lemma TextRoot2Step2()
    ensures "ROOT() --> [\"" + "pick2('obj=this_one')" == "ROOT() --> [\"pick2('obj=this_one')"
  {
  }

  lemma TextRoot2Step3()
    ensures "ROOT() --> [\"pick2('obj=this_one')" + "\"]" == "ROOT() --> [\"pick2('obj=this_one')\"]"
  {
  }

  lemma TextRoot2()
    ensures "ROOT()" + " --> [\"" + "pick2('obj=this_one')" + "\"]" == Test2Lines[3]
  {
    TextRoot2Step1();
    TextRoot2Step2();
    TextRoot2Step3();
  }

  lemma TextPick2That()
    ensures "pick2('obj=that_one')" + " --> ['drop()']" == Test2Lines[1]
  {
  }

  lemma TextDrop2Step1()
    ensures "drop()" + " --> [\"" == "drop() --> [\""
  {
  }

  lemma TextDrop2Step2()
    ensures "drop() --> [\"" + "pick2('obj=this_one')" == "drop() --> [\"pick2('obj=this_one')"
  {
  }

  lemma TextDrop2Step3()
    ensures "drop() --> [\"pick2('obj=this_one')" + "\"]" == "drop() --> [\"pick2('obj=this_one')\"]"
  {
  }

  lemma TextDrop2()
    ensures "drop()" + " --> [\"" + "pick2('obj=this_one')" + "\"]" == Test2Lines[0]
  {
    TextDrop2Step1();
    TextDrop2Step2();
    TextDrop2Step3();
  }

  lemma TextPick2This()
    ensures "pick2('obj=this_one')" + " --> ['drop()']" == Test2Lines[2]
  {
  }

  lemma TextMoveSigApple()
    ensures "move('obj=" + "apple" + "', 'goal=" + "basket" + "')" == "move('obj=apple', 'goal=basket')"
  {
    TextMoveSigAppleStep1();
    TextMoveSigAppleStep2();
    TextMoveSigAppleStep3();
    TextMoveSigAppleStep4();
  }

  lemma TextMoveSigAppleStep1()
    ensures "move('obj=" + "apple" == "move('obj=apple"
  {
  }

  lemma TextMoveSigAppleStep2()
    ensures "move('obj=apple" + "', 'goal=" == "move('obj=apple', 'goal="
  {
  }

  lemma TextMoveSigAppleStep3()
    ensures "move('obj=apple', 'goal=" + "basket" == "move('obj=apple', 'goal=basket"
  {
  }

  lemma TextMoveSigAppleStep4()
    ensures "move('obj=apple', 'goal=basket" + "')" == "move('obj=apple', 'goal=basket')"
  {
  }

  lemma TextMoveSigOrange()
    ensures "move('obj=" + "orange" + "', 'goal=" + "basket" + "')" == "move('obj=orange', 'goal=basket')"
  {
    TextMoveSigOrangeStep1();
    TextMoveSigOrangeStep2();
    TextMoveSigOrangeStep3();
    TextMoveSigOrangeStep4();
  }

  lemma TextMoveSigOrangeStep1()
    ensures "move('obj=" + "orange" == "move('obj=orange"
  {
  }

  lemma TextMoveSigOrangeStep2()
    ensures "move('obj=orange" + "', 'goal=" == "move('obj=orange', 'goal="
  {
  }

  lemma TextMoveSigOrangeStep3()
    ensures "move('obj=orange', 'goal=" + "basket" == "move('obj=orange', 'goal=basket"
  {
  }

  lemma TextMoveSigOrangeStep4()
    ensures "move('obj=orange', 'goal=basket" + "')" == "move('obj=orange', 'goal=basket')"
  {
  }

  /** The fixed pieces of a `move` signature. */
  lemma TextMoveKeys()
    ensures "move" + "('" + "obj" + "=" == "move('obj="
    ensures "', '" + "goal" + "=" == "', 'goal="
  {
  }

  /** The quotes around the `key=value` literals of a signature. */
  lemma QuotePieces()
    ensures "(" + "'" == "('"
    ensures "'" + ", " + "'" == "', '"
    ensures "'" + ")" == "')"
  {
  }

  /** The brackets and quotes around a one-element list of a signature. */
  lemma BracketPieces()
    ensures "[" + "\"" == "[\""
    ensures "\"" + "]" == "\"]"
  {
  }

  /** The arrow between a signature and its child list. */
  lemma ArrowPieces()
    ensures " --> " + "[\"" == " --> [\""
    ensures " --> " + "['drop()']" == " --> ['drop()']"
  {
  }
}

=== FILE: npy_generator.dfy ===
/** `NpzGeneratorDataset`: a directory of `.npz` example files, read in
    sorted order, filtered, and split into a validation (`test`) part and a
    training part; `loadTest(i)` names the i-th validation file. Reading the
    arrays themselves is not modelled: a file is represented by its name. */
module NpyGenerator {
  import opened Outcomes
  import opened Strings

  /** The fraction of files held out for validation, `num / den`. */
  datatype Ratio = Ratio(num: int, den: int)

  /** The default `split=0.1`. */
  const DefaultSplit: Ratio := Ratio(1, 10)

  /** What `load` leaves in the dataset, before the two lists are shuffled. */
  datatype Loaded = Loaded(test: seq<string>, train: seq<string>)

  /** What `loadTest(i)` reports besides the arrays: the file it reads and
      whether the example succeeded. */
  datatype TestExample = TestExample(path: string, success: bool)

  /** `write(...)`: this dataset cannot save. */
  function Write(): (r: Result<(), Exception>)
    ensures r.Err? && r.error.NotImplementedError?
  {
    Err(NotImplementedError("this dataset does not save things"))
  }

  // ----- load -----

  /** A listing entry `load` keeps: not hidden and, when only successes are
      wanted, one whose name mentions `success`. */
  predicate Acceptable(f: string, successOnly: bool)
  {
    |f| > 0 && f[0] != '.' && (successOnly ==> Contains(f, "success"))
  }

  /** The accepted entries, in listing order. `f[0]` on an empty name raises
      IndexError. */
  function Accepted(files: seq<string>, successOnly: bool): (r: Result<seq<string>, Exception>)
    ensures r.Err? <==> exists i :: 0 <= i < |files| && |files[i]| == 0
    ensures r.Err? ==> r.error.IndexError?
    ensures r.Ok? ==> forall x :: x in r.value <==> x in files && Acceptable(x, successOnly)
    ensures r.Ok? ==> forall x :: multiset(r.value)[x] == if Acceptable(x, successOnly) then multiset(files)[x] else 0
    ensures r.Ok? && Sorted(files) ==> Sorted(r.value)
    ensures r.Ok? && Distinct(files) ==> Distinct(r.value)
  {
    if |files| == 0 then Ok([])
    else if |files[0]| == 0 then Err(IndexError("string index out of range"))
    else
      var rest := Accepted(files[1..], successOnly);
      EmptyNameStep(files);
      if rest.Ok? then
        KeepMembers(files, successOnly, rest.value);
        KeepCounts(files, successOnly, rest.value);
        KeepSorted(files, successOnly, rest.value);
        KeepDistinct(files, successOnly, rest.value);
        KeepFirst(files[0], successOnly, rest)
      else KeepFirst(files[0], successOnly, rest)
  }

  /** One step of the filter: the first name is kept in front of what the
      rest gave, or dropped. */
  function KeepFirst(f: string, successOnly: bool, rest: Result<seq<string>, Exception>): Result<seq<string>, Exception>
  {
    if !Acceptable(f, successOnly) then rest
    else
      match rest
      case Err(e) => Err(e)
      case Ok(acc) => Ok([f] + acc)
  }

  /** A listing whose first name is not empty has an empty name exactly when
      the rest does. */
  lemma EmptyNameStep(files: seq<string>)
    requires |files| > 0 && |files[0]| > 0
    ensures (exists i :: 0 <= i < |files| && |files[i]| == 0) <==>
            (exists i :: 0 <= i < |files[1..]| && |files[1..][i]| == 0)
  {
    if exists i :: 0 <= i < |files[1..]| && |files[1..][i]| == 0 {
      var i :| 0 <= i < |files[1..]| && |files[1..][i]| == 0;
      assert |files[i + 1]| == 0;
    }
    if exists i :: 0 <= i < |files| && |files[i]| == 0 {
      var i :| 0 <= i < |files| && |files[i]| == 0;
      assert i > 0 && |files[1..][i - 1]| == 0;
    }
  }

  lemma KeepMembers(files: seq<string>, successOnly: bool, acc: seq<string>)
    requires |files| > 0
    requires forall x :: x in acc <==> x in files[1..] && Acceptable(x, successOnly)
    ensures KeepFirst(files[0], successOnly, Ok(acc)).Ok?
    ensures forall x :: x in KeepFirst(files[0], successOnly, Ok(acc)).value <==> x in files && Acceptable(x, successOnly)
  {
    assert forall x :: x in files <==> x == files[0] || x in files[1..];
  }

  lemma KeepCounts(files: seq<string>, successOnly: bool, acc: seq<string>)
    requires |files| > 0
    requires forall x :: multiset(acc)[x] == if Acceptable(x, successOnly) then multiset(files[1..])[x] else 0
    ensures KeepFirst(files[0], successOnly, Ok(acc)).Ok?
    ensures forall x :: multiset(KeepFirst(files[0], successOnly, Ok(acc)).value)[x] ==
                        if Acceptable(x, successOnly) then multiset(files)[x] else 0
  {
    assert files == [files[0]] + files[1..];
    assert multiset(files) == multiset{files[0]} + multiset(files[1..]);
    assert multiset([files[0]] + acc) == multiset{files[0]} + multiset(acc);
  }

  lemma KeepSorted(files: seq<string>, successOnly: bool, acc: seq<string>)
    requires |files| > 0
    requires forall x :: x in acc ==> x in files[1..]
    requires Sorted(files[1..]) ==> Sorted(acc)
    ensures KeepFirst(files[0], successOnly, Ok(acc)).Ok?
    ensures Sorted(files) ==> Sorted(KeepFirst(files[0], successOnly, Ok(acc)).value)
  {
    if Sorted(files) {
      assert Sorted(files[1..]);
      if Acceptable(files[0], successOnly) {
        forall k | 0 <= k < |acc| ensures LexLe(files[0], acc[k]) {
          assert acc[k] in files[1..];
          var j :| 0 <= j < |files[1..]| && files[1..][j] == acc[k];
          assert files[j + 1] == acc[k];
        }
        PrependSorted(files[0], acc);
      }
    }
  }

  lemma KeepDistinct(files: seq<string>, successOnly: bool, acc: seq<string>)
    requires |files| > 0
    requires forall x :: x in acc ==> x in files[1..]
    requires Distinct(files[1..]) ==> Distinct(acc)
    ensures KeepFirst(files[0], successOnly, Ok(acc)).Ok?
    ensures Distinct(files) ==> Distinct(KeepFirst(files[0], successOnly, Ok(acc)).value)
  {
    if Distinct(files) {
      assert Distinct(files[1..]);
      assert files[0] !in files[1..] by {
        forall j | 0 <= j < |files[1..]| ensures files[1..][j] != files[0] {
          assert files[1..][j] == files[j + 1];
        }
      }
    }
  }

  /** `int(x)` on a float: truncation toward zero, here of `a / b`. */
  function Truncate(a: int, b: int): int
    requires b > 0
  {
    if a >= 0 then a / b else -((-a) / b)
  }

  /** `max(1, int(split * n))`: how many files are held out. */
  function ValidationCount(split: Ratio, n: nat): (r: nat)
    requires split.den > 0
    ensures r >= 1 && r >= Truncate(split.num * n, split.den)
    ensures r == 1 || r == Truncate(split.num * n, split.den)
  {
    var t := Truncate(split.num * n, split.den);
    if t > 1 then t else 1
  }

  /** The first file of `test` that also occurs in `train`. */
  function FirstShared(test: seq<string>, train: seq<string>): (r: Option<string>)
    ensures r.None? <==> forall x :: x in test ==> x !in train
    ensures r.Some? ==> r.value in test && r.value in train
  {
    if |test| == 0 then None
    else if test[0] in train then Some(test[0])
    else
      assert forall x :: x in test <==> x == test[0] || x in test[1..];
      FirstShared(test[1..], train)
  }

  /** `load(success_only)`: the listing is sorted, filtered, and cut after
      the first `ValidationCount` accepted files; a file in both parts is an
      error. */
  function Load(split: Ratio, listing: seq<string>, successOnly: bool): (r: Result<Loaded, Exception>)
    requires split.den > 0
    ensures r.Ok? ==> forall x :: x in r.value.test + r.value.train <==> x in listing && Acceptable(x, successOnly)
    ensures r.Ok? ==> forall x :: multiset(r.value.test + r.value.train)[x] ==
                                 if Acceptable(x, successOnly) then multiset(listing)[x] else 0
    ensures r.Ok? && Distinct(listing) ==> Distinct(r.value.test + r.value.train)
    ensures r.Ok? ==> Sorted(r.value.test + r.value.train)
    ensures r.Ok? ==> |r.value.test| == Min(ValidationCount(split, |r.value.test + r.value.train|),
                                            |r.value.test + r.value.train|)
    ensures r.Ok? ==> forall x :: x in r.value.test ==> x !in r.value.train
    ensures r.Err? ==> r.error.IndexError? || r.error.RuntimeError?
    ensures r.Err? && r.error.IndexError? <==> exists i :: 0 <= i < |listing| && |listing[i]| == 0
    ensures r.Err? && r.error.RuntimeError? ==> !Distinct(listing)
  {
    var files := Sort(listing);
    EmptyNameSorted(listing, files);
    match Accepted(files, successOnly)
    case Err(e) => Err(e)
    case Ok(acc) =>
      var k := Min(ValidationCount(split, |acc|), |acc|);
      var test, train := acc[..k], acc[k..];
      SplitFacts(listing, files, acc, k, successOnly);
      match FirstShared(test, train)
      case Some(f) =>
        if Distinct(listing) then
          DistinctPermutation(listing, files);
          DistinctHalves(acc, k, f);
          assert false;
          Err(RuntimeError("error with test/train setup! " + f + " in training!"))
        else
          Err(RuntimeError("error with test/train setup! " + f + " in training!"))
      case None => Ok(Loaded(test, train))
  }

  /** What the cut of the sorted, accepted listing keeps. */
  lemma SplitFacts(listing: seq<string>, files: seq<string>, acc: seq<string>, k: int, successOnly: bool)
    requires Sorted(files) && multiset(files) == multiset(listing)
    requires forall x :: x in acc <==> x in files && Acceptable(x, successOnly)
    requires forall x :: multiset(acc)[x] == if Acceptable(x, successOnly) then multiset(files)[x] else 0
    requires Distinct(files) ==> Distinct(acc)
    requires Sorted(acc)
    requires 0 <= k <= |acc|
    ensures acc == acc[..k] + acc[k..]
    ensures forall x :: x in acc[..k] + acc[k..] <==> x in listing && Acceptable(x, successOnly)
    ensures forall x :: multiset(acc[..k] + acc[k..])[x] == if Acceptable(x, successOnly) then multiset(listing)[x] else 0
    ensures Distinct(listing) ==> Distinct(acc[..k] + acc[k..])
  {
    if Distinct(listing) {
      DistinctPermutation(listing, files);
    }
    assert acc == acc[..k] + acc[k..];
    forall x ensures x in files <==> x in listing {
      assert x in files <==> x in multiset(files);
    }
  }

  /** Sorting neither adds nor removes an empty name. */
  lemma EmptyNameSorted(listing: seq<string>, files: seq<string>)
    requires multiset(files) == multiset(listing)
    ensures (exists i :: 0 <= i < |listing| && |listing[i]| == 0) <==>
            (exists i :: 0 <= i < |files| && |files[i]| == 0)
  {
    EmptyNameIn(listing);
    EmptyNameIn(files);
    assert "" in listing <==> "" in multiset(listing);
    assert "" in files <==> "" in multiset(files);
  }

  lemma EmptyNameIn(s: seq<string>)
    ensures (exists i :: 0 <= i < |s| && |s[i]| == 0) <==> "" in s
  {
    if "" in s {
      var i :| 0 <= i < |s| && s[i] == "";
      assert |s[i]| == 0;
    }
  }

  /** Once every name is non-empty, `load` fails exactly when some accepted
      file lands on both sides of the cut, and the error names the first
      validation file that does; a repeated name the cut keeps on one side
      is no error. */
  lemma LoadFailsOnSharedFile(split: Ratio, listing: seq<string>, successOnly: bool)
    requires split.den > 0
    requires forall i :: 0 <= i < |listing| ==> |listing[i]| > 0
    ensures Accepted(Sort(listing), successOnly).Ok?
    ensures var acc := Accepted(Sort(listing), successOnly).value;
            var k := Min(ValidationCount(split, |acc|), |acc|);
            && (Load(split, listing, successOnly).Ok? <==> forall x :: x in acc[..k] ==> x !in acc[k..])
            && (Load(split, listing, successOnly).Ok? <==> FirstShared(acc[..k], acc[k..]).None?)
            && (Load(split, listing, successOnly).Err? ==>
                  Load(split, listing, successOnly).error ==
                    RuntimeError("error with test/train setup! " + FirstShared(acc[..k], acc[k..]).value + " in training!"))
  {
    var files := Sort(listing);
    EmptyNameSorted(listing, files);
  }

  /** A listing with a repeated name still loads when the cut keeps both
      copies in training: `["a", "b", "b"]` at the default split. */
  lemma LoadRepeatedListing()
    ensures Load(DefaultSplit, ["a", "b", "b"], false) == Ok(Loaded(["a"], ["b", "b"]))
  {
    var listing := ["a", "b", "b"];
    SortRepeated();
    AcceptedRepeated();
    assert ValidationCount(DefaultSplit, 3) == 1;
    assert listing[..1] == ["a"] && listing[1..] == ["b", "b"];
    assert FirstShared(["a"], ["b", "b"]) == None;
  }

  lemma SortRepeated()
    ensures Sort(["a", "b", "b"]) == ["a", "b", "b"]
  {
    var listing := ["a", "b", "b"];
    assert LexLe("a", "b") && LexLe("b", "b");
    assert Sorted(listing);
    SortedUnique(Sort(listing), listing);
  }

  lemma AcceptedRepeated()
    ensures Accepted(["a", "b", "b"], false) == Ok(["a", "b", "b"])
  {
    assert Acceptable("a", false) && Acceptable("b", false);
    AcceptedCons("b", [], false);
    assert ["b"] + [] == ["b"];
    AcceptedCons("b", ["b"], false);
    assert ["b"] + ["b"] == ["b", "b"];
    AcceptedCons("a", ["b", "b"], false);
    assert ["a"] + ["b", "b"] == ["a", "b", "b"];
  }

  /** The filter takes one name at a time. */
  lemma AcceptedCons(f: string, rest: seq<string>, successOnly: bool)
    requires |f| > 0
    ensures Accepted([f] + rest, successOnly) == KeepFirst(f, successOnly, Accepted(rest, successOnly))
  {
    assert ([f] + rest)[1..] == rest;
  }

  function Max(a: int, b: int): int
  {
    if a >= b then a else b
  }

  function Min(a: int, b: int): int
  {
    if a < b then a else b
  }

  // ----- distinct names -----

  lemma {:induction false} DistinctCount(s: seq<string>, x: string)
    requires Distinct(s)
    ensures multiset(s)[x] <= 1
    decreases |s|
  {
    if |s| > 0 {
      assert s == [s[0]] + s[1..];
      assert Distinct(s[1..]);
      DistinctCount(s[1..], x);
      if x == s[0] {
        assert x !in s[1..] by {
          forall j | 0 <= j < |s[1..]| ensures s[1..][j] != x {
            assert s[1..][j] == s[j + 1];
          }
        }
      }
    }
  }

  lemma RepeatCount(s: seq<string>, i: int, j: int)
    requires 0 <= i < j < |s| && s[i] == s[j]
    ensures multiset(s)[s[i]] >= 2
  {
    assert s == s[..j] + s[j..];
    assert s[i] in s[..j];
    assert s[j] in s[j..];
    assert multiset(s) == multiset(s[..j]) + multiset(s[j..]);
  }

  /** Rearranging a list of distinct names keeps them distinct. */
  lemma DistinctPermutation(a: seq<string>, b: seq<string>)
    requires Distinct(a) && multiset(a) == multiset(b)
    ensures Distinct(b)
  {
    forall i, j | 0 <= i < j < |b| ensures b[i] != b[j] {
      if b[i] == b[j] {
        RepeatCount(b, i, j);
        DistinctCount(a, b[i]);
      }
    }
  }

  /** The two parts of a list of distinct names share none. */
  lemma DistinctHalves(acc: seq<string>, k: nat, f: string)
    requires Distinct(acc) && k <= |acc|
    ensures !(f in acc[..k] && f in acc[k..])
  {
    if f in acc[..k] {
      var i :| 0 <= i < k && acc[i] == f;
      forall j | 0 <= j < |acc[k..]| ensures acc[k..][j] != f {
        assert acc[k..][j] == acc[k + j];
      }
    }
  }

  /** A directory listing names each file once and never has an empty name,
      so `load` never fails on one. */
  lemma LoadSucceedsOnListing(split: Ratio, listing: seq<string>, successOnly: bool)
    requires split.den > 0
    requires Distinct(listing)
    requires forall i :: 0 <= i < |listing| ==> |listing[i]| > 0
    ensures Load(split, listing, successOnly).Ok?
  {
    var files := Sort(listing);
    forall i | 0 <= i < |files| ensures |files[i]| > 0 {
      assert files[i] in multiset(listing);
    }
    DistinctPermutation(listing, files);
  }

  /** An empty name in the listing makes `load` raise IndexError. */
  lemma LoadEmptyName(split: Ratio, listing: seq<string>, successOnly: bool)
    requires split.den > 0
    requires "" in listing
    ensures Load(split, listing, successOnly).Err?
    ensures Load(split, listing, successOnly).error.IndexError?
  {
    var files := Sort(listing);
    assert "" in multiset(files);
    var i :| 0 <= i < |files| && files[i] == "";
    assert |files[i]| == 0;
  }

  /** Whenever at least one file is accepted, at least one is held out for
      validation. */
  lemma ValidationNeverEmpty(split: Ratio, listing: seq<string>, successOnly: bool)
    requires split.den > 0
    requires Load(split, listing, successOnly).Ok?
    requires exists x :: x in listing && Acceptable(x, successOnly)
    ensures |Load(split, listing, successOnly).value.test| >= 1
  {
    var l := Load(split, listing, successOnly).value;
    var x :| x in listing && Acceptable(x, successOnly);
    assert x in l.test + l.train;
  }

  /** The held-out count is `floor(max(split * n, 1))`, that is the
      truncated share of the files floored at one, and never more than all
      of them when the share is at most one. */
  lemma {:induction false} ValidationCountBounds(split: Ratio, n: nat)
    requires split.den > 0 && 0 <= split.num
    ensures var r := ValidationCount(split, n);
            r * split.den <= Max(split.num * n, split.den) < (r + 1) * split.den
    ensures split.num <= split.den ==> ValidationCount(split, n) <= if n > 1 then n else 1
  {
    var a, b := split.num * n, split.den;
    var q := a / b;
    assert a == b * q + a % b;
    assert q * b <= a < (q + 1) * b;
    if split.num <= split.den {
      assert a <= b * n by {
        assert split.num * n <= split.den * n;
      }
      assert q <= n by {
        assert q * b <= n * b;
      }
    }
  }

  /** Shuffling the two lists afterwards, any way at all, keeps them a
      division of the accepted files with nothing in common. */
  lemma ShuffleKeepsSplit(l: Loaded, test': seq<string>, train': seq<string>)
    requires forall x :: x in l.test ==> x !in l.train
    requires multiset(test') == multiset(l.test) && multiset(train') == multiset(l.train)
    ensures forall x :: x in test' + train' <==> x in l.test + l.train
    ensures forall x :: x in test' ==> x !in train'
  {
    forall x ensures x in test' <==> x in l.test {
      assert x in test' <==> x in multiset(test');
      assert x in l.test <==> x in multiset(l.test);
    }
    forall x ensures x in train' <==> x in l.train {
      assert x in train' <==> x in multiset(train');
      assert x in l.train <==> x in multiset(l.train);
    }
  }

  // ----- loadTest -----

  /** `s[i]` with Python's negative indices counting from the end. */
  function PyIndex(s: seq<string>, i: int): (r: Option<string>)
    ensures r.Some? <==> -|s| <= i < |s|
    ensures r.Some? && i >= 0 ==> r.value == s[i]
    ensures r.Some? && i < 0 ==> r.value == s[|s| + i]
  {
    if 0 <= i < |s| then Some(s[i])
    else if -|s| <= i < 0 then Some(s[|s| + i])
    else None
  }

  function Example(dir: string, f: string): TestExample
  {
    TestExample(PathJoin(dir, f), Contains(f, "success"))
  }

  function IndexRange(i: int): Exception
  {
    RuntimeError("index " + Decimal(i) + " greater than number of files")
  }

  /** `loadTest(i)` as written: the guard rejects only indices strictly past
      the end, so `i == len(test)` reaches the list lookup. */
  function LoadTestAsWritten(dir: string, test: seq<string>, i: int): (r: Result<TestExample, Exception>)
    ensures r.Err? && r.error.RuntimeError? <==> i > |test|
    ensures r.Err? <==> i >= |test| || i < -|test|
    ensures r.Ok? ==> exists k :: 0 <= k < |test| && r.value == Example(dir, test[k])
    ensures 0 <= i < |test| ==> r == Ok(TestExample(PathJoin(dir, test[i]), Contains(test[i], "success")))
    ensures -|test| <= i < 0 ==> r == Ok(TestExample(PathJoin(dir, test[|test| + i]), Contains(test[|test| + i], "success")))
  {
    if i > |test| then Err(IndexRange(i))
    else
      match PyIndex(test, i)
      case None => Err(IndexError("list index out of range"))
      case Some(f) => Ok(Example(dir, f))
  }

  /** `loadTest(i)` with the guard meant: every index from `len(test)` on is
      rejected by it. */
  function LoadTest(dir: string, test: seq<string>, i: int): (r: Result<TestExample, Exception>)
    ensures r.Err? && r.error.RuntimeError? <==> i >= |test|
    ensures r.Err? <==> i >= |test| || i < -|test|
    ensures 0 <= i < |test| ==> r == Ok(TestExample(PathJoin(dir, test[i]), Contains(test[i], "success")))
    ensures -|test| <= i < 0 ==> r == Ok(TestExample(PathJoin(dir, test[|test| + i]), Contains(test[|test| + i], "success")))
  {
    if i >= |test| then Err(IndexRange(i))
    else
      match PyIndex(test, i)
      case None => Err(IndexError("list index out of range"))
      case Some(f) => Ok(Example(dir, f))
  }

  /** The off-by-one: at `i == len(test)` the guard lets the call through and
      the lookup raises IndexError instead of the guard's RuntimeError. */
  lemma LoadTestOffByOne(dir: string, test: seq<string>)
    ensures LoadTestAsWritten(dir, test, |test|) == Err(IndexError("list index out of range"))
    ensures LoadTest(dir, test, |test|) == Err(IndexRange(|test|))
  {
  }

  /** Everywhere else the guard's comparison makes no difference. */
  lemma LoadTestAgrees(dir: string, test: seq<string>, i: int)
    requires i != |test|
    ensures LoadTestAsWritten(dir, test, i) == LoadTest(dir, test, i)
  {
  }
}

=== FILE: outcomes.dfy ===
/** Failure-carrying results, and the Python exceptions the modelled code raises. */
module Outcomes {

  datatype Option<T> = None | Some(value: T)

  /** Either the value an operation returns or the error it raises instead. */
  datatype Result<T, E> = Ok(value: T) | Err(error: E)

  /** The Python exception classes raised by the dataset and tooling code,
      each with the message text it is raised with. */
  datatype Exception =
    | RuntimeError(msg: string)
    | NotImplementedError(msg: string)
    | IndexError(msg: string)
    | PlainException(msg: string)

  /** No element occurs twice. */
  predicate Distinct<T(==)>(s: seq<T>) {
    forall i, j :: 0 <= i < j < |s| ==> s[i] != s[j]
  }
}

=== FILE: pyrepr.dfy ===
/** Python 2's `repr` of a `str`, which the node summary uses both for the
    quoted `key=value` arguments of a signature and for each child signature
    in a rendered list, together with a reader for such literals that undoes
    it. */
module PyRepr {
  import opened Outcomes

  const HexDigits: string := "0123456789abcdef"

  /** The escape for one character inside a literal quoted with `q`:
      the quote and the backslash get a backslash, tab, newline and carriage
      return their letter escapes, other control characters and the range
      0x7f-0xff a two-digit hex escape; everything else stands for itself. */
  function EscapeChar(c: char, q: char): string
  {
    if c == q || c == '\\' then ['\\', c]
    else if c == '\t' then "\\t"
    else if c == '\n' then "\\n"
    else if c == '\r' then "\\r"
    else if (c as int) < 32 || (127 <= (c as int) <= 255) then
      ['\\', 'x', HexDigits[(c as int) / 16], HexDigits[(c as int) % 16]]
    else [c]
  }

  function Escape(s: string, q: char): string
  {
    if |s| == 0 then "" else EscapeChar(s[0], q) + Escape(s[1..], q)
  }

  /** The quote Python picks: double quotes when the text holds a single
      quote and no double quote, single quotes otherwise. */
  function QuoteFor(s: string): char
  {
    if '\'' in s && '"' !in s then '"' else '\''
  }

  /** `repr(s)` */
  function Repr(s: string): string
  {
    var q := QuoteFor(s);
    [q] + Escape(s, q) + [q]
  }

  /** A literal read off the front of a text, and what follows it. */
  datatype Parsed = Parsed(value: string, rest: string)

  function HexValue(c: char): Option<nat>
  {
    if '0' <= c <= '9' then Some((c as int) - ('0' as int))
    else if 'a' <= c <= 'f' then Some((c as int) - ('a' as int) + 10)
    else None
  }

  /** The character an escape (the text after a backslash) stands for, and
      how many characters the escape takes. */
  function Unescape(s: string): Option<(char, nat)>
  {
    if |s| == 0 then None
    else if s[0] in "\\'\"" then Some((s[0], 1))
    else if s[0] == 't' then Some(('\t', 1))
    else if s[0] == 'n' then Some(('\n', 1))
    else if s[0] == 'r' then Some(('\r', 1))
    else if s[0] == 'x' && |s| >= 3 then
      match (HexValue(s[1]), HexValue(s[2]))
      case (Some(hi), Some(lo)) => Some(((hi * 16 + lo) as char, 3))
      case _ => None
    else None
  }

  function Prepend(c: char, p: Option<Parsed>): (r: Option<Parsed>)
    ensures r.Some? <==> p.Some?
    ensures r.Some? ==> r.value.rest == p.value.rest
  {
    match p
    case None => None
    case Some(Parsed(v, rest)) => Some(Parsed([c] + v, rest))
  }

  /** Reads the body of a literal quoted with `q` up to its closing quote. */
  function ParseBody(s: string, q: char): (r: Option<Parsed>)
    ensures r.Some? ==> |r.value.rest| < |s|
    decreases |s|
  {
    if |s| == 0 then None
    else if s[0] == q then Some(Parsed("", s[1..]))
    else if s[0] == '\\' then
      match Unescape(s[1..])
      case None => None
      case Some((c, n)) =>
        if 1 + n <= |s| then Prepend(c, ParseBody(s[1 + n..], q)) else None
    else Prepend(s[0], ParseBody(s[1..], q))
  }

  /** Reads one quoted string literal off the front of `s`. */
  function ParseLiteral(s: string): (r: Option<Parsed>)
    ensures r.Some? ==> |r.value.rest| < |s|
  {
    if |s| > 0 && (s[0] == '\'' || s[0] == '"') then ParseBody(s[1..], s[0])
    else None
  }

  lemma HexDigitRoundTrip(n: nat)
    requires n < 16
    ensures HexValue(HexDigits[n]) == Some(n)
  {
  }

  lemma EscapeCharRoundTrip(c: char, q: char, tail: string)
    requires q == '\'' || q == '"'
    requires q == '"' ==> c != '"'
    ensures ParseBody(EscapeChar(c, q) + tail, q) == Prepend(c, ParseBody(tail, q))
  {
    if c == q || c == '\\' {
      BackslashRoundTrip(c, [c], q, tail);
    } else if c == '\t' {
      BackslashRoundTrip(c, "t", q, tail);
    } else if c == '\n' {
      BackslashRoundTrip(c, "n", q, tail);
    } else if c == '\r' {
      BackslashRoundTrip(c, "r", q, tail);
    } else if (c as int) < 32 || (127 <= (c as int) <= 255) {
      HexRoundTrip(c, q, tail);
    } else {
      var s := EscapeChar(c, q) + tail;
      assert s[0] == c;
      assert s[1..] == tail;
    }
  }

  /** A backslash escape whose letters `e` the reader decodes to `c`. */
  lemma BackslashRoundTrip(c: char, e: string, q: char, tail: string)
    requires q == '\'' || q == '"'
    requires EscapeChar(c, q) == ['\\'] + e
    requires Unescape(e + tail) == Some((c, |e|))
    ensures ParseBody(EscapeChar(c, q) + tail, q) == Prepend(c, ParseBody(tail, q))
  {
    var s := EscapeChar(c, q) + tail;
    assert s == ['\\'] + (e + tail);
    ParseEscape(s, q, c, |e|, e + tail);
    assert s[1 + |e|..] == tail;
  }

  lemma HexRoundTrip(c: char, q: char, tail: string)
    requires q == '\'' || q == '"'
    requires c != q && c != '\\' && c != '\t' && c != '\n' && c != '\r'
    requires (c as int) < 32 || (127 <= (c as int) <= 255)
    ensures ParseBody(EscapeChar(c, q) + tail, q) == Prepend(c, ParseBody(tail, q))
  {
    var e := ['x', HexDigits[(c as int) / 16], HexDigits[(c as int) % 16]];
    UnescapeHex(c, tail);
    BackslashRoundTrip(c, e, q, tail);
  }

  /** One step of the reader over a backslash escape. */
  lemma ParseEscape(s: string, q: char, c: char, n: nat, after: string)
    requires q != '\\' && s == ['\\'] + after
    requires Unescape(after) == Some((c, n)) && n <= |after|
    ensures ParseBody(s, q) == Prepend(c, ParseBody(s[1 + n..], q))
  {
    assert s[1..] == after;
  }

  /** The hex escape of a character below 256 reads back as that character. */
  lemma UnescapeHex(c: char, tail: string)
    requires (c as int) < 256
    ensures Unescape(['x', HexDigits[(c as int) / 16], HexDigits[(c as int) % 16]] + tail) == Some((c, 3))
  {
    var hi, lo := (c as int) / 16, (c as int) % 16;
    HexDigitRoundTrip(hi);
    HexDigitRoundTrip(lo);
    var u := ['x', HexDigits[hi], HexDigits[lo]] + tail;
    assert u[0] == 'x' && u[1] == HexDigits[hi] && u[2] == HexDigits[lo];
    assert ((hi * 16 + lo) as char) == c;
  }

  /** Reading back an escaped body followed by its closing quote yields the
      original text and leaves whatever followed untouched. */
  lemma {:induction false} EscapeRoundTrip(s: string, q: char, tail: string)
    requires q == '\'' || q == '"'
    requires q == '"' ==> '"' !in s
    ensures ParseBody(Escape(s, q) + [q] + tail, q) == Some(Parsed(s, tail))
    decreases |s|
  {
    if |s| == 0 {
      assert Escape(s, q) + [q] + tail == [q] + tail;
      assert ([q] + tail)[1..] == tail;
    } else {
      var t := Escape(s[1..], q) + [q] + tail;
      assert q == '"' ==> '"' !in s[1..] by {
        assert forall c :: c in s[1..] ==> c in s;
      }
      EscapeRoundTrip(s[1..], q, tail);
      assert Escape(s, q) + [q] + tail == EscapeChar(s[0], q) + t;
      assert s[0] in s;
      EscapeCharRoundTrip(s[0], q, t);
      assert ParseBody(t, q) == Some(Parsed(s[1..], tail));
      assert [s[0]] + s[1..] == s;
    }
  }

  /** `repr` is read back exactly: the literal it produces is self-delimiting,
      so the text after it is returned untouched. */
  lemma ReprRoundTrip(s: string, tail: string)
    ensures ParseLiteral(Repr(s) + tail) == Some(Parsed(s, tail))
  {
    var q := QuoteFor(s);
    assert Repr(s) + tail == [q] + (Escape(s, q) + [q] + tail);
    EscapeRoundTrip(s, q, tail);
  }

  /** `repr` never maps two strings to the same text. */
  lemma ReprInjective(a: string, b: string)
    requires Repr(a) == Repr(b)
    ensures a == b
  {
    ReprRoundTrip(a, "");
    ReprRoundTrip(b, "");
    assert Repr(a) + "" == Repr(b) + "";
  }

  /** A printable character other than the backslash and the quote `q`,
      which a literal quoted with `q` shows as itself. */
  predicate Plain(c: char, q: char)
  {
    c != q && c != '\\' && 32 <= (c as int) < 127
  }

  /** Text made of plain characters is its own escape. */
  lemma {:induction false} EscapePlain(s: string, q: char)
    requires forall i :: 0 <= i < |s| ==> Plain(s[i], q)
    ensures Escape(s, q) == s
    decreases |s|
  {
    if |s| > 0 {
      EscapePlain(s[1..], q);
      assert [s[0]] + s[1..] == s;
    }
  }

  /** Printable text with no quote or backslash is shown between single
      quotes, unchanged. */
  lemma ReprSingleQuoted(s: string)
    requires forall i :: 0 <= i < |s| ==> Plain(s[i], '\'') && s[i] != '"'
    ensures Repr(s) == "'" + s + "'"
  {
    assert '\'' !in s;
    EscapePlain(s, '\'');
  }

  /** Printable text holding a single quote, but no double quote or
      backslash, is shown between double quotes, unchanged. */
  lemma ReprDoubleQuoted(s: string)
    requires '\'' in s
    requires forall i :: 0 <= i < |s| ==> Plain(s[i], '"')
    ensures Repr(s) == "\"" + s + "\""
  {
    assert '"' !in s;
    EscapePlain(s, '"');
  }
}

=== FILE: renderer.dfy ===
/** `nodeSummary`: one line per registered instance, in registration order,
    each `sig --> [child sigs]`, where a signature is `name('k1=v1', ...)`
    (ROOT renders as `ROOT()`) and the child list is rendered as Python
    renders a list of strings. A reader for that text recovers every
    instance and child list, so the summary loses nothing. */
module Renderer {
  import opened Outcomes
  import opened Strings
  import opened PyRepr
  import opened Expander

  const ListSep: string := ", "
  const Arrow: string := " --> "

  function NameOf(x: Node): string
  {
    match x
    case RootNode => "ROOT"
    case Inst(n, _) => n
  }

  function ArgsOf(x: Node): seq<Binding>
  {
    match x
    case RootNode => []
    case Inst(_, args) => args
  }

  /** The `key=value` text of each bound argument. */
  function KeyValues(args: seq<Binding>): (r: seq<string>)
    ensures |r| == |args|
  {
    if |args| == 0 then [] else [args[0].key + "=" + args[0].value] + KeyValues(args[1..])
  }

  function ReprAll(ss: seq<string>): (r: seq<string>)
    ensures |r| == |ss|
  {
    if |ss| == 0 then [] else [Repr(ss[0])] + ReprAll(ss[1..])
  }

  /** An instance's signature: its name, then its quoted `key=value`
      arguments in declared order in parentheses. */
  function Sig(x: Node): string
  {
    NameOf(x) + "(" + Join(ReprAll(KeyValues(ArgsOf(x))), ListSep) + ")"
  }

  function Sigs(xs: seq<Node>): (r: seq<string>)
    ensures |r| == |xs|
  {
    if |xs| == 0 then [] else [Sig(xs[0])] + Sigs(xs[1..])
  }

  /** `str(ss)` for a list of strings. */
  function ListText(ss: seq<string>): string
  {
    "[" + Join(ReprAll(ss), ListSep) + "]"
  }

  /** One summary line. */
  function Line(x: Node, kids: seq<Node>): string
  {
    Sig(x) + Arrow + ListText(Sigs(kids))
  }

  /** The summary of a list of instances with their child lists: each line
      followed by a newline. */
  function Render(es: seq<Entry>): string
  {
    if |es| == 0 then "" else Line(es[0].node, es[0].kids) + "\n" + Render(es[1..])
  }

  /** The registry's instances, in order, each with its recorded children. */
  function GraphEntries(g: Graph): (r: seq<Entry>)
    requires Registry(g)
    ensures |r| == |g.order|
    ensures forall i :: 0 <= i < |r| ==> r[i] == Entry(g.order[i], g.children[g.order[i]])
  {
    seq(|g.order|, i requires 0 <= i < |g.order| => Entry(g.order[i], g.children[g.order[i]]))
  }

  /** `task.nodeSummary()` */
  function NodeSummary(g: Graph): string
    requires Registry(g)
  {
    Render(GraphEntries(g))
  }

  /** The summary lines, without their newlines. */
  function Lines(g: Graph): (r: seq<string>)
    requires Registry(g)
    ensures |r| == |g.order|
  {
    seq(|g.order|, i requires 0 <= i < |g.order| => Line(g.order[i], g.children[g.order[i]]))
  }

  /** Lines joined into one text, each ended by a newline. */
  function Unlines(ls: seq<string>): string
  {
    if |ls| == 0 then "" else ls[0] + "\n" + Unlines(ls[1..])
  }

  /** The summary is its lines, in registration order, each ended by a
      newline. */
  lemma NodeSummaryLines(g: Graph)
    requires Registry(g)
    ensures NodeSummary(g) == Unlines(Lines(g))
  {
    RenderLines(GraphEntries(g), Lines(g));
  }

  lemma {:induction false} RenderLines(es: seq<Entry>, ls: seq<string>)
    requires |ls| == |es|
    requires forall i :: 0 <= i < |es| ==> ls[i] == Line(es[i].node, es[i].kids)
    ensures Render(es) == Unlines(ls)
    decreases |es|
  {
    if |es| > 0 {
      RenderLines(es[1..], ls[1..]);
    }
  }

  // ----- reading a summary back -----

  /** The index of the first `c` in `s`. */
  function IndexOf(s: string, c: char): (r: Option<nat>)
    ensures r.Some? ==> r.value < |s| && s[r.value] == c
  {
    if |s| == 0 then None
    else if s[0] == c then Some(0)
    else match IndexOf(s[1..], c)
      case None => None
      case Some(k) => Some(k + 1)
  }

  datatype Literals = Literals(values: seq<string>, rest: string)

  /** Reads quoted literals separated by `, ` up to the closing `close`. */
  function ParseLiterals(s: string, close: char): (r: Option<Literals>)
    ensures r.Some? ==> |r.value.rest| < |s|
    decreases |s|
  {
    if |s| > 0 && s[0] == close then Some(Literals([], s[1..]))
    else match ParseLiteral(s)
      case None => None
      case Some(Parsed(v, rest)) =>
        if |rest| > 0 && rest[0] == close then Some(Literals([v], rest[1..]))
        else if StartsWith(rest, ListSep) then
          match ParseLiterals(rest[|ListSep|..], close)
          case None => None
          case Some(Literals(vs, rest')) => Some(Literals([v] + vs, rest'))
        else None
  }

  /** Splits `key=value` at its first `=`. */
  function ParseKeyValue(s: string): Option<Binding>
  {
    match IndexOf(s, '=')
    case None => None
    case Some(k) => Some(Binding(s[..k], s[k + 1..]))
  }

  function ParseKeyValues(ss: seq<string>): Option<seq<Binding>>
  {
    if |ss| == 0 then Some([])
    else match (ParseKeyValue(ss[0]), ParseKeyValues(ss[1..]))
      case (Some(b), Some(bs)) => Some([b] + bs)
      case _ => None
  }

  datatype SigParse = SigParse(node: Node, rest: string)

  /** Reads one signature off the front of `s`. */
  function ParseSig(s: string): (r: Option<SigParse>)
    ensures r.Some? ==> |r.value.rest| < |s|
  {
    match IndexOf(s, '(')
    case None => None
    case Some(k) =>
      match ParseLiterals(s[k + 1..], ')')
      case None => None
      case Some(Literals(kvs, rest)) =>
        match ParseKeyValues(kvs)
        case None => None
        case Some(args) =>
          var name := s[..k];
          Some(SigParse(if name == "ROOT" && args == [] then RootNode else Inst(name, args), rest))
  }

  /** Reads each text as exactly one signature. */
  function ParseSigs(ss: seq<string>): Option<seq<Node>>
  {
    if |ss| == 0 then Some([])
    else match (ParseSig(ss[0]), ParseSigs(ss[1..]))
      case (Some(SigParse(x, "")), Some(xs)) => Some([x] + xs)
      case _ => None
  }

  datatype LineParse = LineParse(entry: Entry, rest: string)

  /** Reads one summary line off the front of `s`. */
  function ParseLine(s: string): (r: Option<LineParse>)
    ensures r.Some? ==> |r.value.rest| < |s|
  {
    match ParseSig(s)
    case None => None
    case Some(SigParse(x, rest)) =>
      if StartsWith(rest, Arrow + "[") then
        match ParseLiterals(rest[|Arrow| + 1..], ']')
        case None => None
        case Some(Literals(sigs, rest')) =>
          match ParseSigs(sigs)
          case None => None
          case Some(kids) => Some(LineParse(Entry(x, kids), rest'))
      else None
  }

  /** Reads a whole summary back into its instances and child lists. */
  function ParseSummary(s: string): Option<seq<Entry>>
    decreases |s|
  {
    if |s| == 0 then Some([])
    else match ParseLine(s)
      case None => None
      case Some(LineParse(e, rest)) =>
        if StartsWith(rest, "\n") then
          match ParseSummary(rest[1..])
          case None => None
          case Some(es) => Some([e] + es)
        else None
  }

  /** An instance whose signature can be read back: its name holds no `(`,
      no key holds `=`, and it is not an argument-free node named `ROOT`,
      which would print like the sentinel. */
  predicate Renderable(x: Node)
  {
    && '(' !in NameOf(x)
    && (x.Inst? ==> !(x.name == "ROOT" && x.args == []))
    && forall b :: b in ArgsOf(x) ==> '=' !in b.key
  }

  /** A summary line whose instance and children are all renderable. */
  predicate EntryRenderable(e: Entry)
  {
    Renderable(e.node) && forall k :: k in e.kids ==> Renderable(k)
  }

  predicate WordChar(c: char)
  {
    'a' <= c <= 'z' || 'A' <= c <= 'Z' || '0' <= c <= '9' || c == '_'
  }

  /** An identifier-like text: letters, digits and underscores. */
  predicate Word(s: string)
  {
    forall i :: 0 <= i < |s| ==> WordChar(s[i])
  }

  /** An instance whose name, keys and values are all words, as in the
      task tests. */
  predicate WordNode(x: Node)
  {
    Word(NameOf(x)) && forall b :: b in ArgsOf(x) ==> Word(b.key) && Word(b.value)
  }

  /** A bound argument of words is shown as `'key=value'`. */
  lemma KeyValueRepr(k: string, v: string)
    requires Word(k) && Word(v)
    ensures Repr(k + "=" + v) == "'" + k + "=" + v + "'"
  {
    var s := k + "=" + v;
    forall i | 0 <= i < |s| ensures Plain(s[i], '\'') && s[i] != '"' {
      if i < |k| { assert s[i] == k[i]; }
      else if i > |k| { assert s[i] == v[i - |k| - 1]; }
    }
    ReprSingleQuoted(s);
  }

  lemma {:induction false} ReprAllWords(args: seq<Binding>)
    requires forall b :: b in args ==> Word(b.key) && Word(b.value)
    ensures forall i :: 0 <= i < |args| ==>
              ReprAll(KeyValues(args))[i] == "'" + args[i].key + "=" + args[i].value + "'"
    decreases |args|
  {
    if |args| > 0 {
      assert args[0] in args;
      KeyValueRepr(args[0].key, args[0].value);
      assert forall b :: b in args[1..] ==> b in args;
      ReprAllWords(args[1..]);
      assert KeyValues(args)[1..] == KeyValues(args[1..]);
      assert ReprAll(KeyValues(args))[1..] == ReprAll(KeyValues(args)[1..]);
    }
  }

  lemma QuotedChars(k: string, v: string, c: char)
    requires Word(k) && Word(v)
    requires c in "'" + k + "=" + v + "'"
    ensures WordChar(c) || c == '\'' || c == '='
  {
    if c in k {
      var i :| 0 <= i < |k| && k[i] == c;
    } else if c in v {
      var i :| 0 <= i < |v| && v[i] == c;
    }
  }

  /** The characters of a word instance's signature. */
  lemma WordSigChars(x: Node, c: char)
    requires WordNode(x)
    requires c in Sig(x)
    ensures WordChar(c) || c in "(),= '"
  {
    var parts := ReprAll(KeyValues(ArgsOf(x)));
    var body := Join(parts, ListSep);
    assert Sig(x) == NameOf(x) + "(" + body + ")";
    if c in NameOf(x) {
      var i :| 0 <= i < |NameOf(x)| && NameOf(x)[i] == c;
    } else if c in body {
      JoinChars(parts, ListSep, c);
      if c !in ListSep {
        ReprAllWords(ArgsOf(x));
        var k :| 0 <= k < |parts| && c in parts[k];
        var b := ArgsOf(x)[k];
        assert b in ArgsOf(x);
        QuotedChars(b.key, b.value, c);
      }
    }
  }

  /** How a child signature is quoted in a rendered list, for word
      instances: in double quotes when it has arguments (their quotes make
      it hold a single quote), in single quotes when it has none. Either
      way the signature itself is shown unchanged. */
  lemma WordSigRepr(x: Node)
    requires WordNode(x)
    ensures ArgsOf(x) != [] ==> Repr(Sig(x)) == "\"" + Sig(x) + "\""
    ensures ArgsOf(x) == [] ==> Repr(Sig(x)) == "'" + Sig(x) + "'"
  {
    var s := Sig(x);
    forall i | 0 <= i < |s| ensures Plain(s[i], '"') && (ArgsOf(x) == [] ==> Plain(s[i], '\''))
    {
      WordSigChars(x, s[i]);
      if ArgsOf(x) == [] {
        assert s == NameOf(x) + "()";
        if i < |NameOf(x)| { assert s[i] == NameOf(x)[i]; }
      }
    }
    if ArgsOf(x) != [] {
      var parts := ReprAll(KeyValues(ArgsOf(x)));
      ReprAllWords(ArgsOf(x));
      JoinChars(parts, ListSep, '\'');
      assert parts[0][0] == '\'';
      assert s[|NameOf(x)| + 1] == Join(parts, ListSep)[0];
      ReprDoubleQuoted(s);
    } else {
      forall i | 0 <= i < |s| ensures Plain(s[i], '\'') && s[i] != '"' {
      }
      ReprSingleQuoted(s);
    }
  }

  lemma {:induction false} IndexOfFirst(a: string, c: char, b: string)
    requires c !in a
    ensures IndexOf(a + [c] + b, c) == Some(|a|)
    decreases |a|
  {
    if |a| > 0 {
      assert (a + [c] + b)[1..] == a[1..] + [c] + b;
      IndexOfFirst(a[1..], c, b);
    }
  }

  lemma ParseKeyValueRoundTrip(b: Binding)
    requires '=' !in b.key
    ensures ParseKeyValue(b.key + "=" + b.value) == Some(b)
  {
    var s := b.key + "=" + b.value;
    IndexOfFirst(b.key, '=', b.value);
    assert s[..|b.key|] == b.key;
    assert s[|b.key| + 1..] == b.value;
  }

  lemma {:induction false} ParseKeyValuesRoundTrip(args: seq<Binding>)
    requires forall b :: b in args ==> '=' !in b.key
    ensures ParseKeyValues(KeyValues(args)) == Some(args)
    decreases |args|
  {
    if |args| > 0 {
      assert args[0] in args;
      ParseKeyValueRoundTrip(args[0]);
      assert KeyValues(args)[1..] == KeyValues(args[1..]);
      ParseKeyValuesRoundTrip(args[1..]);
      assert [args[0]] + args[1..] == args;
    }
  }

  /** Literals joined by `, ` and closed by `close` are read back exactly. */
  lemma {:induction false} ParseLiteralsRoundTrip(items: seq<string>, close: char, tail: string)
    requires close == ')' || close == ']'
    ensures ParseLiterals(Join(ReprAll(items), ListSep) + [close] + tail, close) == Some(Literals(items, tail))
    decreases |items|
  {
    if |items| == 0 {
      LiteralsEmpty(close, tail);
    } else if |items| == 1 {
      JoinReprOne(items, close, tail);
      LiteralsLast(items[0], close, tail);
    } else {
      var more := Join(ReprAll(items[1..]), ListSep) + [close] + tail;
      JoinReprCons(items, close, tail);
      ParseLiteralsRoundTrip(items[1..], close, tail);
      LiteralsNext(items[0], close, more, items[1..], tail);
      assert [items[0]] + items[1..] == items;
    }
  }

  lemma LiteralsEmpty(close: char, tail: string)
    ensures ParseLiterals(Join(ReprAll([]), ListSep) + [close] + tail, close) == Some(Literals([], tail))
  {
    var s := Join(ReprAll([]), ListSep) + [close] + tail;
    assert s == [close] + tail;
    assert s[1..] == tail;
  }

  lemma JoinReprOne(items: seq<string>, close: char, tail: string)
    requires |items| == 1
    ensures items == [items[0]]
    ensures Join(ReprAll(items), ListSep) + [close] + tail == Repr(items[0]) + ([close] + tail)
  {
    assert ReprAll(items) == [Repr(items[0])];
    assert Join(ReprAll(items), ListSep) == Repr(items[0]);
    Assoc(Repr(items[0]), [close], tail);
  }

  lemma Assoc5(a: string, b: string, c: string, d: string, e: string)
    ensures a + b + c + d + e == a + (b + (c + d + e))
  {
  }

  lemma Assoc(a: string, b: string, c: string)
    ensures a + b + c == a + (b + c)
  {
  }

  /** The rendering of a list of two or more literals is the first literal,
      a separator, and the rendering of the others. */
  lemma JoinReprCons(items: seq<string>, close: char, tail: string)
    requires |items| >= 2
    ensures Join(ReprAll(items), ListSep) + [close] + tail ==
              Repr(items[0]) + (ListSep + (Join(ReprAll(items[1..]), ListSep) + [close] + tail))
  {
    var rs := ReprAll(items);
    var j := Join(ReprAll(items[1..]), ListSep);
    assert rs[0] == Repr(items[0]);
    assert rs[1..] == ReprAll(items[1..]);
    assert Join(rs, ListSep) == Repr(items[0]) + ListSep + j;
    Assoc5(Repr(items[0]), ListSep, j, [close], tail);
  }

  /** The last literal of a list, followed by the closing bracket. */
  lemma LiteralsLast(a: string, close: char, tail: string)
    requires close == ')' || close == ']'
    ensures ParseLiterals(Repr(a) + ([close] + tail), close) == Some(Literals([a], tail))
  {
    var s := Repr(a) + ([close] + tail);
    assert s[0] == Repr(a)[0] == QuoteFor(a);
    ReprRoundTrip(a, [close] + tail);
    assert ([close] + tail)[1..] == tail;
  }

  /** A literal followed by a separator and the rest of the list. */
  lemma LiteralsNext(a: string, close: char, more: string, vs: seq<string>, rest: string)
    requires close == ')' || close == ']'
    requires ParseLiterals(more, close) == Some(Literals(vs, rest))
    ensures ParseLiterals(Repr(a) + (ListSep + more), close) == Some(Literals([a] + vs, rest))
  {
    var s := Repr(a) + (ListSep + more);
    assert s[0] == Repr(a)[0] == QuoteFor(a);
    ReprRoundTrip(a, ListSep + more);
    assert StartsWith(ListSep + more, ListSep);
    assert (ListSep + more)[|ListSep|..] == more;
  }

  /** Every renderable signature is read back exactly, and the text after
      it is left untouched. */
  lemma SigRoundTrip(x: Node, tail: string)
    requires Renderable(x)
    ensures ParseSig(Sig(x) + tail) == Some(SigParse(x, tail))
  {
    var name := NameOf(x);
    var body := Join(ReprAll(KeyValues(ArgsOf(x))), ListSep) + [')'] + tail;
    var s := Sig(x) + tail;
    assert s == name + ['('] + body;
    IndexOfFirst(name, '(', body);
    assert s[|name| + 1..] == body;
    assert s[..|name|] == name;
    ParseLiteralsRoundTrip(KeyValues(ArgsOf(x)), ')', tail);
    ParseKeyValuesRoundTrip(ArgsOf(x));
  }

  lemma {:induction false} ParseSigsRoundTrip(xs: seq<Node>)
    requires forall x :: x in xs ==> Renderable(x)
    ensures ParseSigs(Sigs(xs)) == Some(xs)
    decreases |xs|
  {
    if |xs| > 0 {
      assert xs[0] in xs;
      SigRoundTrip(xs[0], "");
      assert Sig(xs[0]) + "" == Sig(xs[0]);
      assert Sigs(xs)[1..] == Sigs(xs[1..]);
      ParseSigsRoundTrip(xs[1..]);
      assert [xs[0]] + xs[1..] == xs;
    }
  }

  /** A summary line is read back into its instance and child list. */
  lemma LineRoundTrip(x: Node, kids: seq<Node>, tail: string)
    requires Renderable(x) && forall k :: k in kids ==> Renderable(k)
    ensures ParseLine(Line(x, kids) + tail) == Some(LineParse(Entry(x, kids), tail))
  {
    var list := Join(ReprAll(Sigs(kids)), ListSep) + [']'] + tail;
    var after := Arrow + "[" + list;
    LineText(x, kids, tail);
    SigRoundTrip(x, after);
    ArrowOpens(list);
    ParseLiteralsRoundTrip(Sigs(kids), ']', tail);
    ParseSigsRoundTrip(kids);
  }

  lemma LineText(x: Node, kids: seq<Node>, tail: string)
    ensures Line(x, kids) + tail == Sig(x) + (Arrow + "[" + (Join(ReprAll(Sigs(kids)), ListSep) + [']'] + tail))
  {
    Regroup(Sig(x), Arrow, Join(ReprAll(Sigs(kids)), ListSep), tail);
  }

  lemma Regroup(a: string, b: string, c: string, tail: string)
    ensures a + b + ("[" + c + "]") + tail == a + (b + "[" + (c + [']'] + tail))
  {
  }

  lemma ArrowOpens(list: string)
    ensures StartsWith(Arrow + "[" + list, Arrow + "[")
    ensures (Arrow + "[" + list)[|Arrow| + 1..] == list
  {
  }

  /** Reading a rendered summary gives back every instance with its child
      list, in order: distinct instances never share a rendering. */
  lemma {:induction false} SummaryRoundTrip(es: seq<Entry>)
    requires forall e :: e in es ==> EntryRenderable(e)
    ensures ParseSummary(Render(es)) == Some(es)
    decreases |es|
  {
    if |es| > 0 {
      var e, rest := es[0], es[1..];
      assert EntryRenderable(e) by { assert e in es; }
      assert forall f :: f in rest ==> EntryRenderable(f) by {
        assert forall f :: f in rest ==> f in es;
      }
      SummaryRoundTrip(rest);
      SummaryCons(e, rest);
      assert [e] + rest == es;
    }
  }

  lemma SummaryCons(e: Entry, rest: seq<Entry>)
    requires EntryRenderable(e)
    requires ParseSummary(Render(rest)) == Some(rest)
    ensures ParseSummary(Render([e] + rest)) == Some([e] + rest)
  {
    RenderCons([e] + rest);
    assert ([e] + rest)[1..] == rest;
    SummaryStep(e, Render(rest), rest);
  }

  lemma RenderCons(es: seq<Entry>)
    requires |es| > 0
    ensures Render(es) == Line(es[0].node, es[0].kids) + "\n" + Render(es[1..])
  {
  }

  /** One line, then the rest of a summary that reads back as `more`. */
  lemma SummaryStep(e: Entry, rest: string, more: seq<Entry>)
    requires EntryRenderable(e)
    requires ParseSummary(rest) == Some(more)
    ensures ParseSummary(Line(e.node, e.kids) + "\n" + rest) == Some([e] + more)
  {
    var s := Line(e.node, e.kids) + "\n" + rest;
    assert s == Line(e.node, e.kids) + ("\n" + rest);
    LineRoundTrip(e.node, e.kids, "\n" + rest);
    assert |s| > 0;
    assert StartsWith("\n" + rest, "\n");
    assert ("\n" + rest)[1..] == rest;
  }

  /** Distinct renderable instances have distinct signatures. */
  lemma SigInjective(x: Node, y: Node)
    requires Renderable(x) && Renderable(y) && Sig(x) == Sig(y)
    ensures x == y
  {
    SigRoundTrip(x, "");
    SigRoundTrip(y, "");
    assert Sig(x) + "" == Sig(y) + "";
  }
}

=== FILE: strings.dfy ===
/** The Python `str` operations the modelled code relies on, over `string`
    (a `seq<char>`): `startswith`, `in`, `split`, `join`, `replace`,
    `os.path.join` and the ordering `list.sort()` uses. */
module Strings {

  /** `s.startswith(p)` */
  predicate StartsWith(s: string, p: string) {
    |p| <= |s| && s[..|p|] == p
  }

  /** `p in s`: `p` occurs as a contiguous block of `s` (the empty string
      occurs in every string). */
  predicate Contains(s: string, p: string)
    decreases |s|
  {
    StartsWith(s, p) || (|s| > 0 && Contains(s[1..], p))
  }

  /** `p` occurs in `s` starting at index `i`. */
  predicate OccursAt(s: string, p: string, i: int) {
    0 <= i <= |s| - |p| && s[i..i + |p|] == p
  }

  /** `Contains` agrees with the positional reading of `in`. */
  lemma {:induction false} ContainsIff(s: string, p: string)
    ensures Contains(s, p) <==> exists i :: OccursAt(s, p, i)
    decreases |s|
  {
    if StartsWith(s, p) {
      assert OccursAt(s, p, 0);
    } else if |s| == 0 {
    } else {
      ContainsIff(s[1..], p);
      forall i | OccursAt(s[1..], p, i) ensures OccursAt(s, p, i + 1) {
        assert s[1..][i..i + |p|] == s[i + 1..i + 1 + |p|];
      }
      forall i | OccursAt(s, p, i) ensures OccursAt(s[1..], p, i - 1) {
        assert s[1..][i - 1..i - 1 + |p|] == s[i..i + |p|];
      }
    }
  }

  /** `sep.join(parts)` */
  function Join(parts: seq<string>, sep: string): string
  {
    if |parts| == 0 then ""
    else if |parts| == 1 then parts[0]
    else parts[0] + sep + Join(parts[1..], sep)
  }

  /** `s.split(sep)` for a non-empty separator: the pieces between the
      non-overlapping occurrences of `sep`, found left to right. */
  function SplitOn(s: string, sep: string): (r: seq<string>)
    requires |sep| > 0
    ensures |r| >= 1
    decreases |s|
  {
    if StartsWith(s, sep) then [""] + SplitOn(s[|sep|..], sep)
    else if |s| == 0 then [""]
    else
      var rest := SplitOn(s[1..], sep);
      [[s[0]] + rest[0]] + rest[1..]
  }

  /** `s.replace(pat, rep)` for a non-empty `pat`: every non-overlapping
      occurrence, found left to right, is replaced. */
  function ReplaceAll(s: string, pat: string, rep: string): string
    requires |pat| > 0
    decreases |s|
  {
    if StartsWith(s, pat) then rep + ReplaceAll(s[|pat|..], pat, rep)
    else if |s| == 0 then ""
    else [s[0]] + ReplaceAll(s[1..], pat, rep)
  }

  lemma JoinConsChar(c: char, a: string, rest: seq<string>, sep: string)
    ensures Join([[c] + a] + rest, sep) == [c] + Join([a] + rest, sep)
  {
    if |rest| > 0 {
      assert ([[c] + a] + rest)[1..] == rest;
      assert ([a] + rest)[1..] == rest;
    }
  }

  lemma JoinSnoc(parts: seq<string>, x: string, sep: string)
    requires |parts| >= 1
    ensures Join(parts + [x], sep) == Join(parts, sep) + sep + x
    decreases |parts|
  {
    if |parts| == 1 {
      assert (parts + [x])[1..] == [x];
    } else {
      assert (parts + [x])[1..] == parts[1..] + [x];
      JoinSnoc(parts[1..], x, sep);
    }
  }

  /** Every character of a join comes from the separator or from a part,
      and the first part opens it. */
  lemma {:induction false} JoinChars(parts: seq<string>, sep: string, c: char)
    ensures c in Join(parts, sep) ==> c in sep || exists k :: 0 <= k < |parts| && c in parts[k]
    ensures |parts| > 0 ==> |Join(parts, sep)| >= |parts[0]| && Join(parts, sep)[..|parts[0]|] == parts[0]
    decreases |parts|
  {
    if |parts| > 1 {
      JoinChars(parts[1..], sep, c);
      var j := parts[0] + sep + Join(parts[1..], sep);
      assert j[..|parts[0]|] == parts[0];
      if c in Join(parts[1..], sep) && c !in sep {
        var k :| 0 <= k < |parts[1..]| && c in parts[1..][k];
        assert c in parts[k + 1];
      }
    }
  }

  /** Joining the pieces of a split with the same separator gives back the
      original string: `sep.join(s.split(sep)) == s`. */
  lemma {:induction false} JoinSplit(s: string, sep: string)
    requires |sep| > 0
    ensures Join(SplitOn(s, sep), sep) == s
    decreases |s|
  {
    if StartsWith(s, sep) {
      JoinSplit(s[|sep|..], sep);
      JoinSplitAtSep(s, sep);
    } else if |s| > 0 {
      JoinSplit(s[1..], sep);
      JoinSplitAtChar(s, sep);
    }
  }

  lemma JoinSplitAtSep(s: string, sep: string)
    requires |sep| > 0 && StartsWith(s, sep)
    requires Join(SplitOn(s[|sep|..], sep), sep) == s[|sep|..]
    ensures Join(SplitOn(s, sep), sep) == s
  {
    var rest := SplitOn(s[|sep|..], sep);
    SplitAtSep(s, sep);
    JoinCons("", rest, sep);
    calc {
      Join(SplitOn(s, sep), sep);
      Join([""] + rest, sep);
      "" + sep + Join(rest, sep);
      { assert "" + sep == sep; }
      sep + s[|sep|..];
      { assert s[..|sep|] == sep; }
      s[..|sep|] + s[|sep|..];
      s;
    }
  }

  lemma SplitAtSep(s: string, sep: string)
    requires |sep| > 0 && StartsWith(s, sep)
    ensures SplitOn(s, sep) == [""] + SplitOn(s[|sep|..], sep)
  {
  }

  lemma JoinSplitAtChar(s: string, sep: string)
    requires |sep| > 0 && !StartsWith(s, sep) && |s| > 0
    requires Join(SplitOn(s[1..], sep), sep) == s[1..]
    ensures Join(SplitOn(s, sep), sep) == s
  {
    var rest := SplitOn(s[1..], sep);
    SplitAtChar(s, sep);
    JoinFront(s[0], rest, sep);
    assert [s[0]] + s[1..] == s;
  }

  lemma SplitAtChar(s: string, sep: string)
    requires |sep| > 0 && !StartsWith(s, sep) && |s| > 0
    ensures var rest := SplitOn(s[1..], sep);
            SplitOn(s, sep) == [[s[0]] + rest[0]] + rest[1..]
  {
  }

  lemma JoinFront(c: char, rest: seq<string>, sep: string)
    requires |rest| > 0
    ensures Join([[c] + rest[0]] + rest[1..], sep) == [c] + Join(rest, sep)
  {
    JoinConsChar(c, rest[0], rest[1..], sep);
    assert [rest[0]] + rest[1..] == rest;
  }

  lemma JoinCons(a: string, rest: seq<string>, sep: string)
    requires |rest| > 0
    ensures Join([a] + rest, sep) == a + sep + Join(rest, sep)
  {
    assert ([a] + rest)[1..] == rest;
  }

  /** `s.replace(pat, rep)` is `rep.join(s.split(pat))`. */
  lemma {:induction false} ReplaceIsJoinOfSplit(s: string, pat: string, rep: string)
    requires |pat| > 0
    ensures ReplaceAll(s, pat, rep) == Join(SplitOn(s, pat), rep)
    decreases |s|
  {
    if StartsWith(s, pat) {
      var rest := SplitOn(s[|pat|..], pat);
      ReplaceIsJoinOfSplit(s[|pat|..], pat, rep);
      assert ([""] + rest)[1..] == rest;
    } else if |s| == 0 {
    } else {
      var rest := SplitOn(s[1..], pat);
      ReplaceIsJoinOfSplit(s[1..], pat, rep);
      assert rest == [rest[0]] + rest[1..];
      JoinConsChar(s[0], rest[0], rest[1..], rep);
    }
  }

  /** A split yields more than one piece exactly when the separator occurs. */
  lemma {:induction false} SplitSeveralIffContains(s: string, sep: string)
    requires |sep| > 0
    ensures |SplitOn(s, sep)| >= 2 <==> Contains(s, sep)
    decreases |s|
  {
    if StartsWith(s, sep) {
    } else if |s| == 0 {
    } else {
      SplitSeveralIffContains(s[1..], sep);
    }
  }

  /** Splitting on a one-character separator leaves no piece holding it. */
  lemma {:induction false} SplitPiecesFree(s: string, sep: string)
    requires |sep| == 1
    ensures forall k :: 0 <= k < |SplitOn(s, sep)| ==> sep[0] !in SplitOn(s, sep)[k]
    decreases |s|
  {
    if StartsWith(s, sep) {
      SplitPiecesFree(s[|sep|..], sep);
      var rest := SplitOn(s[|sep|..], sep);
      assert forall k :: 0 < k < |rest| + 1 ==> ([""] + rest)[k] == rest[k - 1];
    } else if |s| > 0 {
      SplitPiecesFree(s[1..], sep);
      var rest := SplitOn(s[1..], sep);
      assert s[0] != sep[0] by {
        assert s[..1] == [s[0]];
      }
      var r := [[s[0]] + rest[0]] + rest[1..];
      assert forall k :: 0 < k < |r| ==> r[k] == rest[k];
    }
  }

  /** A string occurs at the end of anything ending with it. */
  lemma {:induction false} ContainsSuffix(a: string, b: string)
    ensures Contains(a + b, b)
    decreases |a|
  {
    if |a| == 0 {
      assert a + b == b;
      assert StartsWith(b, b);
    } else {
      ContainsSuffix(a[1..], b);
      assert (a + b)[1..] == a[1..] + b;
    }
  }

  /** A string whose first character is missing does not occur. */
  lemma {:induction false} AbsentFirst(s: string, p: string)
    requires |p| > 0 && p[0] !in s
    ensures !Contains(s, p)
    decreases |s|
  {
    if |s| > 0 {
      assert s[0] != p[0];
      assert forall c :: c in s[1..] ==> c in s;
      AbsentFirst(s[1..], p);
    }
  }

  /** A string occurs at the start of anything starting with it. */
  lemma ContainsPrefix(a: string, b: string)
    ensures Contains(a + b, a)
  {
    assert (a + b)[..|a|] == a;
  }

  /** Replacing a pattern that does not occur changes nothing. */
  lemma {:induction false} ReplaceAbsent(s: string, pat: string, rep: string)
    requires |pat| > 0 && !Contains(s, pat)
    ensures ReplaceAll(s, pat, rep) == s
    decreases |s|
  {
    if |s| > 0 {
      ReplaceAbsent(s[1..], pat, rep);
      assert s == [s[0]] + s[1..];
    }
  }

  /** `os.path.join(a, b)` on POSIX for two components: an absolute `b`
      discards `a`; otherwise a `/` is inserted unless `a` is empty or
      already ends in one. */
  function PathJoin(a: string, b: string): string
  {
    if StartsWith(b, "/") then b
    else if |a| == 0 || a[|a| - 1] == '/' then a + b
    else a + "/" + b
  }

  /** Python's `<=` on `str`: lexicographic by code point, a proper prefix
      sorting first. */
  predicate LexLe(a: string, b: string)
    decreases |a|
  {
    |a| == 0 || (|b| > 0 && (a[0] < b[0] || (a[0] == b[0] && LexLe(a[1..], b[1..]))))
  }

  lemma LexTotal(a: string, b: string)
    ensures LexLe(a, b) || LexLe(b, a)
    decreases |a|
  {
    if |a| > 0 && |b| > 0 && a[0] == b[0] {
      LexTotal(a[1..], b[1..]);
    }
  }

  lemma LexTrans(a: string, b: string, c: string)
    requires LexLe(a, b) && LexLe(b, c)
    ensures LexLe(a, c)
    decreases |a|
  {
    if |a| > 0 && a[0] == b[0] && b[0] == c[0] {
      LexTrans(a[1..], b[1..], c[1..]);
    }
  }

  lemma LexAntisym(a: string, b: string)
    requires LexLe(a, b) && LexLe(b, a)
    ensures a == b
    decreases |a|
  {
    if |a| > 0 {
      LexAntisym(a[1..], b[1..]);
      assert a == [a[0]] + a[1..];
      assert b == [b[0]] + b[1..];
    }
  }

  /** In non-decreasing Python string order. */
  predicate Sorted(s: seq<string>) {
    forall i, j :: 0 <= i < j < |s| ==> LexLe(s[i], s[j])
  }

  lemma LexRefl(a: string)
    ensures LexLe(a, a)
    decreases |a|
  {
    if |a| > 0 {
      LexRefl(a[1..]);
    }
  }

  lemma PrependSorted(x: string, s: seq<string>)
    requires Sorted(s)
    requires forall k :: 0 <= k < |s| ==> LexLe(x, s[k])
    ensures Sorted([x] + s)
  {
    forall i, j | 0 <= i < j < |s| + 1
      ensures LexLe(([x] + s)[i], ([x] + s)[j])
    {
      assert ([x] + s)[j] == s[j - 1];
      if i > 0 {
        assert ([x] + s)[i] == s[i - 1];
      }
    }
  }

  function Insert(x: string, s: seq<string>): (r: seq<string>)
    requires Sorted(s)
    ensures Sorted(r)
    ensures multiset(r) == multiset(s) + multiset{x}
  {
    if |s| == 0 then [x]
    else if LexLe(x, s[0]) then
      InsertFront(x, s);
      [x] + s
    else
      LexTotal(x, s[0]);
      var tail := Insert(x, s[1..]);
      InsertBehind(x, s, tail);
      [s[0]] + tail
  }

  lemma InsertFront(x: string, s: seq<string>)
    requires Sorted(s) && |s| > 0 && LexLe(x, s[0])
    ensures Sorted([x] + s)
  {
    forall k | 0 < k < |s| ensures LexLe(x, s[k]) {
      LexTrans(x, s[0], s[k]);
    }
    PrependSorted(x, s);
  }

  lemma InsertBehind(x: string, s: seq<string>, tail: seq<string>)
    requires Sorted(s) && |s| > 0 && LexLe(s[0], x)
    requires Sorted(tail) && multiset(tail) == multiset(s[1..]) + multiset{x}
    ensures Sorted([s[0]] + tail)
    ensures multiset([s[0]] + tail) == multiset(s) + multiset{x}
  {
    assert s == [s[0]] + s[1..];
    forall k | 0 <= k < |tail| ensures LexLe(s[0], tail[k]) {
      assert tail[k] in multiset(tail);
      if tail[k] != x {
        assert tail[k] in multiset(s[1..]);
        var m :| 0 <= m < |s[1..]| && s[1..][m] == tail[k];
        assert s[m + 1] == tail[k];
      }
    }
    PrependSorted(s[0], tail);
  }

  /** `list.sort()` on strings. */
  function Sort(s: seq<string>): (r: seq<string>)
    ensures Sorted(r)
    ensures multiset(r) == multiset(s)
  {
    if |s| == 0 then []
    else
      assert s == [s[0]] + s[1..];
      Insert(s[0], Sort(s[1..]))
  }

  /** There is one sorted arrangement of a multiset of strings, so `Sort`
      yields exactly what Python's sort yields. */
  lemma {:induction false} SortedUnique(a: seq<string>, b: seq<string>)
    requires Sorted(a) && Sorted(b) && multiset(a) == multiset(b)
    ensures a == b
    decreases |a|
  {
    assert |a| == |multiset(a)| == |multiset(b)| == |b|;
    if |a| > 0 {
      SortedHeads(a, b);
      SortedTails(a, b);
      SortedUnique(a[1..], b[1..]);
      assert a == [a[0]] + a[1..];
      assert b == [b[0]] + b[1..];
    }
  }

  /** Two sorted arrangements of one multiset start alike. */
  lemma SortedHeads(a: seq<string>, b: seq<string>)
    requires Sorted(a) && Sorted(b) && multiset(a) == multiset(b)
    requires |a| > 0 && |b| > 0
    ensures a[0] == b[0]
  {
    assert a[0] in multiset(b);
    var j :| 0 <= j < |b| && b[j] == a[0];
    assert b[0] in multiset(a);
    var i :| 0 <= i < |a| && a[i] == b[0];
    assert LexLe(b[0], a[0]) by {
      if j > 0 { assert LexLe(b[0], b[j]); } else { LexRefl(a[0]); }
    }
    assert LexLe(a[0], b[0]) by {
      if i > 0 { assert LexLe(a[0], a[i]); } else { LexRefl(b[0]); }
    }
    LexAntisym(a[0], b[0]);
  }

  lemma SortedTails(a: seq<string>, b: seq<string>)
    requires Sorted(a) && Sorted(b) && multiset(a) == multiset(b)
    requires |a| > 0 && |b| > 0 && a[0] == b[0]
    ensures Sorted(a[1..]) && Sorted(b[1..])
    ensures multiset(a[1..]) == multiset(b[1..])
  {
    assert a == [a[0]] + a[1..];
    assert b == [b[0]] + b[1..];
    assert multiset(a) == multiset{a[0]} + multiset(a[1..]);
    assert multiset(b) == multiset{b[0]} + multiset(b[1..]);
    assert multiset(a[1..]) == multiset(a) - multiset{a[0]};
    assert multiset(b[1..]) == multiset(b) - multiset{b[0]};
    forall i, j | 0 <= i < j < |a| - 1 ensures LexLe(a[1..][i], a[1..][j]) {
      assert a[1..][i] == a[i + 1] && a[1..][j] == a[j + 1];
    }
    forall i, j | 0 <= i < j < |b| - 1 ensures LexLe(b[1..][i], b[1..][j]) {
      assert b[1..][i] == b[i + 1] && b[1..][j] == b[j + 1];
    }
  }

  /** The decimal digit for `d`. */
  function DigitChar(d: nat): char
    requires d < 10
  {
    "0123456789"[d]
  }

  function Digits(n: nat): (r: string)
    ensures |r| > 0
    decreases n
  {
    if n < 10 then [DigitChar(n)] else Digits(n / 10) + [DigitChar(n % 10)]
  }

  /** `'%d' % i` */
  function Decimal(i: int): (r: string)
    ensures |r| > 0
  {
    if i < 0 then "-" + Digits(-i) else Digits(i)
  }
}

=== FILE: task.dfy ===
/** `task.compile(domains)`: checks that every referenced variable has a
    domain and every dependency names a node holding a spec, enumerates the
    bindings, and expands the template into its instance graph, which
    `task.nodeSummary()` then renders. */
module Task {
  import opened Outcomes
  import opened TaskTemplate
  import opened Combinator
  import opened Expander
  import opened Renderer

  datatype CompileError =
    | UnboundVariable(variable: Var)   // a spec names a variable with no domain
    | DanglingReference(name: Name)     // an edge mentions a node with no spec

  /** What `compile` leaves: the bindings it returns, and the instance graph
      the task keeps for `nodeSummary`. */
  datatype Compiled = Compiled(combos: seq<Combo>, graph: Graph)

  /** The first of `vars` with no domain in `d`. */
  function FirstUnbound(vars: seq<Var>, d: Domains): (r: Option<Var>)
    ensures r.None? <==> forall v :: v in vars ==> v in d
    ensures r.Some? ==> r.value in vars && r.value !in d
  {
    if |vars| == 0 then None
    else if vars[0] !in d then Some(vars[0])
    else FirstUnbound(vars[1..], d)
  }

  /** The first node an edge mentions without it holding a spec, the source
      of an edge checked before its target. */
  function FirstDangling(t: Template, edges: seq<Edge>): (r: Option<Name>)
    ensures r.None? <==> forall e :: e in edges ==> e.tgt in t.specs && (e.src.Named? ==> e.src.name in t.specs)
    ensures r.Some? ==> r.value !in t.specs
    ensures r.Some? ==> exists e :: e in edges && (e.tgt == r.value || e.src == Named(r.value))
  {
    if |edges| == 0 then None
    else
      var e := edges[0];
      assert e in edges;
      if e.src.Named? && e.src.name !in t.specs then Some(e.src.name)
      else if e.tgt !in t.specs then Some(e.tgt)
      else
        var r := FirstDangling(t, edges[1..]);
        assert forall e' :: e' in edges <==> e' == e || e' in edges[1..];
        r
  }

  /** The bindings of the referenced variables each give every spec its
      arguments. */
  lemma ProductCovers(t: Template, d: Domains)
    requires Valid(t)
    requires forall v :: v in RefVars(t) ==> v in d
    ensures forall c :: c in Product(RefVars(t), d) ==> Covers(t, c)
  {
    forall c | c in Product(RefVars(t), d) ensures Covers(t, c) {
      ProductMembers(RefVars(t), d, c);
    }
  }

  /** `task.compile(domains)` */
  function Compile(t: Template, d: Domains): (r: Result<Compiled, CompileError>)
    requires Valid(t)
    ensures r.Ok? <==> (forall v :: v in RefVars(t) ==> v in d) && Closed(t)
    ensures r.Err? && r.error.UnboundVariable? ==>
              r.error.variable !in d && exists n :: n in t.specs && r.error.variable in t.specs[n].args
    ensures r.Err? && r.error.DanglingReference? ==>
              (forall v :: v in RefVars(t) ==> v in d) && r.error.name !in t.specs &&
              exists e :: e in t.edges && (e.tgt == r.error.name || e.src == Named(r.error.name))
    ensures r.Ok? ==> |r.value.combos| == Size(RefVars(t), d)
    ensures r.Ok? ==> Registry(r.value.graph)
    ensures r.Ok? ==> forall c :: c in r.value.combos ==> Covers(t, c)
    // the bindings are enumerated first and then expanded in order
    ensures r.Ok? ==> r.value.combos == Product(RefVars(t), d)
    ensures r.Ok? ==> r.value.graph == Expand(t, r.value.combos)
  {
    var vars := RefVars(t);
    match FirstUnbound(vars, d)
    case Some(v) => Err(UnboundVariable(v))
    case None =>
      match FirstDangling(t, t.edges)
      case Some(n) => Err(DanglingReference(n))
      case None =>
        var cs := Product(vars, d);
        ProductCovers(t, d);
        Ok(Compiled(cs, Expand(t, cs)))
  }

  /** Soundness and completeness of the bindings returned: exactly the maps
      giving each referenced variable one value of its domain. */
  lemma CompileBindings(t: Template, d: Domains, c: Combo)
    requires Valid(t)
    requires Compile(t, d).Ok?
    ensures c in Compile(t, d).value.combos <==> Binds(RefVars(t), d, c)
  {
    ProductMembers(RefVars(t), d, c);
  }

  lemma {:induction false} FirstUnboundIgnores(vars: seq<Var>, d: Domains, g: Var, xs: seq<Value>)
    requires g !in vars
    ensures FirstUnbound(vars, d[g := xs]) == FirstUnbound(vars, d)
    decreases |vars|
  {
    if |vars| > 0 {
      assert vars[0] != g;
      FirstUnboundIgnores(vars[1..], d, g, xs);
    }
  }

  /** A domain supplied for a variable no spec references changes nothing:
      neither the bindings, nor the instances, nor any error. */
  lemma UnreferencedDomainIgnored(t: Template, d: Domains, g: Var, xs: seq<Value>)
    requires Valid(t)
    requires forall n :: n in t.specs ==> g !in t.specs[n].args
    ensures Compile(t, d[g := xs]) == Compile(t, d)
  {
    var vars := RefVars(t);
    assert g !in vars;
    FirstUnboundIgnores(vars, d, g, xs);
    if FirstUnbound(vars, d).None? {
      ProductIgnoresOtherDomains(vars, d, g, xs);
    }
  }

  /** A node whose spec takes no arguments collapses to the single instance
      `name()`, however many bindings there are. */
  lemma ArgumentFreeSingleInstance(t: Template, d: Domains, n: Name, x: Node)
    requires Valid(t)
    requires Compile(t, d).Ok? && |Compile(t, d).value.combos| > 0
    requires n in t.specs && t.specs[n].args == []
    requires x.Inst? && x.name == n
    ensures x in Compile(t, d).value.graph.children <==> x == Inst(n, [])
  {
    var r := Compile(t, d);
    ArgumentFreeExpanded(t, r.value.combos, n, x);
  }

  lemma ArgumentFreeExpanded(t: Template, cs: seq<Combo>, n: Name, x: Node)
    requires Closed(t) && forall c :: c in cs ==> Covers(t, c)
    requires |cs| > 0
    requires n in t.specs && t.specs[n].args == []
    requires x.Inst? && x.name == n
    ensures x in Expand(t, cs).children <==> x == Inst(n, [])
  {
    ExpandInstances(t, cs, x);
    assert cs[0] in cs;
    forall k | 0 <= k < |cs| ensures Produces(t, cs[k], x) <==> x.args == [] {
      assert cs[k] in cs;
      assert Bind(t.specs[n], cs[k]) == [];
    }
    assert Produces(t, cs[0], x) <==> x == Inst(n, []);
  }

  /** An instance of a node with arguments exists exactly for the values
      some binding gives those arguments. */
  lemma InstanceIffBinding(t: Template, d: Domains, x: Node)
    requires Valid(t)
    requires Compile(t, d).Ok?
    requires x.Inst?
    ensures x in Compile(t, d).value.graph.children <==>
              x.name in t.specs && exists c :: c in Compile(t, d).value.combos && x.args == Bind(t.specs[x.name], c)
  {
    var cs := Compile(t, d).value.combos;
    ProductCovers(t, d);
    ExpandInstances(t, cs, x);
    if x.name in t.specs && exists c :: c in cs && x.args == Bind(t.specs[x.name], c) {
      var c :| c in cs && x.args == Bind(t.specs[x.name], c);
      var k :| 0 <= k < |cs| && cs[k] == c;
      assert Produces(t, cs[k], x);
    }
  }

  /** ROOT always exists, and its children are those of the last binding:
      every binding yields ROOT, so each one overwrites the last. */
  lemma RootKeepsLastBinding(t: Template, d: Domains)
    requires Valid(t)
    requires Compile(t, d).Ok? && |Compile(t, d).value.combos| > 0
    ensures RootNode in Compile(t, d).value.graph.children
    ensures var cs := Compile(t, d).value.combos;
            Compile(t, d).value.graph.children[RootNode] == Kids(t, Root, t.edges, cs[|cs| - 1])
  {
    var cs := Compile(t, d).value.combos;
    ProductCovers(t, d);
    LastBindingWins(t, cs, |cs| - 1, RootNode);
  }

  /** Re-adding a node with no spec registers its edges and nothing else, so
      every instance it had renders the same afterwards. */
  lemma ReAddKeepsInstances(t: Template, name: Name, deps: Option<seq<Name>>, p: Parent, c: Combo)
    requires Valid(t)
    requires p.Named? ==> p.name in t.specs
    requires Covers(t, c)
    ensures Project(Add(t, name, deps, None), p, c) == Project(t, p, c)
    ensures Sig(Project(Add(t, name, deps, None), p, c)) == Sig(Project(t, p, c))
  {
    var t' := Add(t, name, deps, None);
    assert t'.specs == t.specs;
  }
}

=== FILE: task_template.dfy ===
/** The task template: a named, possibly cyclic graph of option nodes that a
    client builds with successive `add(name, deps, spec)` calls. */
module TaskTemplate {
  import opened Outcomes

  type Name = string

  /** A template variable, such as `obj` or `goal`. */
  type Var = string

  /** What a node's instances bind: the argument variables in declared order,
      and the renames from a variable to the key it is bound under. The
      option constructor the spec also names is opaque here. */
  datatype Spec = Spec(args: seq<Var>, remap: map<Var, string>)

  /** The key under which `v` is bound: its rename if it has one, else `v`. */
  function Key(s: Spec, v: Var): string
  {
    if v in s.remap then s.remap[v] else v
  }

  /** The source of a dependency edge: the ROOT sentinel or a named node. */
  datatype Parent = Root | Named(name: Name)

  /** A dependency edge `src -> tgt`, meaning `tgt` may follow `src`. */
  datatype Edge = Edge(src: Parent, tgt: Name)

  /** `nodes` lists the names holding a spec, in the order their specs were
      first given; `edges` lists every dependency in the order the `add`
      calls registered them, repeats included. */
  datatype Template = Template(nodes: seq<Name>, specs: map<Name, Spec>, edges: seq<Edge>)

  ghost predicate Valid(t: Template) {
    Distinct(t.nodes) && (forall n :: n in t.specs <==> n in t.nodes)
  }

  /** A fresh `Task()` with nothing added. */
  const Empty: Template := Template([], map[], [])

  lemma EmptyValid()
    ensures Valid(Empty)
  {
  }

  /** The edges one `add` call registers: one from ROOT when `deps` is
      `None`, otherwise one from each listed dependency, in list order. */
  function DepEdges(name: Name, deps: Option<seq<Name>>): seq<Edge>
  {
    match deps
    case None => [Edge(Root, name)]
    case Some(ds) => seq(|ds|, i requires 0 <= i < |ds| => Edge(Named(ds[i]), name))
  }

  /** `task.add(name, deps, spec)`: registers the dependency edges and, when
      `name` has no spec yet, stores `spec`. */
  function Add(t: Template, name: Name, deps: Option<seq<Name>>, spec: Option<Spec>): (r: Template)
    requires Valid(t)
    ensures Valid(r)
    // the edges so far are kept, and the new ones all lead into `name`
    ensures |r.edges| >= |t.edges| && r.edges[..|t.edges|] == t.edges
    ensures deps.None? ==> r.edges[|t.edges|..] == [Edge(Root, name)]
    ensures deps.Some? ==> |r.edges| == |t.edges| + |deps.value|
    ensures deps.Some? ==> forall i :: 0 <= i < |deps.value| ==>
              r.edges[|t.edges| + i] == Edge(Named(deps.value[i]), name)
    // re-adding with no spec adds edges only
    ensures spec.None? ==> r.nodes == t.nodes && r.specs == t.specs
    // the first spec given for a name is kept for good
    ensures name in t.specs ==> r.nodes == t.nodes && r.specs == t.specs
    ensures name !in t.specs && spec.Some? ==>
              r.nodes == t.nodes + [name] && name in r.specs && r.specs[name] == spec.value
    ensures forall n :: n != name ==> (n in r.specs <==> n in t.specs)
    ensures forall n :: n != name && n in t.specs ==> r.specs[n] == t.specs[n]
  {
    var edges := t.edges + DepEdges(name, deps);
    assert edges[..|t.edges|] == t.edges;
    if name in t.specs || spec.None? then Template(t.nodes, t.specs, edges)
    else Template(t.nodes + [name], t.specs[name := spec.value], edges)
  }

  /** Every argument variable of the given nodes' specs, in node order. */
  function AllArgs(t: Template, nodes: seq<Name>): (r: seq<Var>)
    requires forall n :: n in nodes ==> n in t.specs
    ensures forall v :: v in r <==> exists n :: n in nodes && v in t.specs[n].args
  {
    if |nodes| == 0 then []
    else
      var rest := AllArgs(t, nodes[1..]);
      assert forall n :: n in nodes <==> n == nodes[0] || n in nodes[1..];
      t.specs[nodes[0]].args + rest
  }

  /** The position of the first `v` in `s`. */
  function FirstIndex(s: seq<Var>, v: Var): (k: nat)
    requires v in s
    ensures k < |s| && s[k] == v
    ensures forall i :: 0 <= i < k ==> s[i] != v
  {
    if s[0] == v then 0
    else
      assert v in s[1..] by { var i :| 0 <= i < |s| && s[i] == v; assert s[1..][i - 1] == v; }
      1 + FirstIndex(s[1..], v)
  }

  /** Appends to `acc`, in order, each element of `s` not yet present. */
  function DedupInto(acc: seq<Var>, s: seq<Var>): (r: seq<Var>)
    requires Distinct(acc)
    ensures Distinct(r)
    ensures |r| >= |acc| && r[..|acc|] == acc
    ensures forall v :: v in r <==> v in acc || v in s
    // what is appended comes from `s`, in the order of first occurrence there
    ensures forall i :: |acc| <= i < |r| ==> r[i] in s && r[i] !in acc
    ensures forall i, j :: |acc| <= i < j < |r| ==> FirstIndex(s, r[i]) < FirstIndex(s, r[j])
    decreases |s|
  {
    if |s| == 0 then acc
    else
      var acc' := if s[0] in acc then acc else acc + [s[0]];
      var r := DedupInto(acc', s[1..]);
      assert r[..|acc'|] == acc';
      assert r[..|acc|] == acc'[..|acc|];
      forall i | |acc'| <= i < |r| ensures r[i] in s && r[i] != s[0] && FirstIndex(s, r[i]) == 1 + FirstIndex(s[1..], r[i]) {
        assert r[i] !in acc';
        assert s[0] in acc';
      }
      forall i | |acc| <= i < |acc'| ensures r[i] == s[0] && FirstIndex(s, r[i]) == 0 {
        assert r[i] == r[..|acc'|][i];
      }
      r
  }

  /** The variables some spec references, once each, in the order they were
      first named across the `add` calls. */
  function RefVars(t: Template): (r: seq<Var>)
    requires Valid(t)
    ensures Distinct(r)
    ensures forall v :: v in r <==> exists n :: n in t.specs && v in t.specs[n].args
    // listed in the order of their first mention, nodes taken in the order
    // their specs were given and each spec's arguments in declared order
    ensures forall i :: 0 <= i < |r| ==> r[i] in AllArgs(t, t.nodes)
    ensures forall i, j :: 0 <= i < j < |r| ==>
              FirstIndex(AllArgs(t, t.nodes), r[i]) < FirstIndex(AllArgs(t, t.nodes), r[j])
  {
    DedupInto([], AllArgs(t, t.nodes))
  }
}

=== FILE: task_tests.dfy ===
/** The two templates of the task tests, compiled, with their bindings and
    node summaries worked out. The golden summaries list their lines in an
    order that follows Python 2's dictionary iteration rather than any rule
    of the compiler, so a summary is compared with its golden text as a
    multiset of lines; the compiler's own order (registration order) is
    stated separately. */
module TaskTests {
  import opened Outcomes
  import opened TaskTemplate
  import opened Combinator
  import opened Expander
  import opened Strings
  import opened PyRepr
  import opened Renderer
  import opened Task
  import opened GoldenText

  // the specs the tests pass to `add`
  const PickSpec: Spec := Spec(["obj"], map[])
  const Pick2Spec: Spec := Spec(["orange"], map["orange" := "obj"])
  const MoveSpec: Spec := Spec(["obj", "goal"], map[])
  const DropSpec: Spec := Spec([], map[])

  /** `make_template()`: pick from ROOT, move after pick, drop after pick or
      move, and pick again after drop. */
  function MakeTemplate(): (t: Template)
    ensures Valid(t)
  {
    EmptyValid();
    var t1 := Add(Empty, "pick", None, Some(PickSpec));
    var t2 := Add(t1, "move", Some(["pick"]), Some(MoveSpec));
    var t3 := Add(t2, "drop", Some(["pick", "move"]), Some(DropSpec));
    Add(t3, "pick", Some(["drop"]), None)
  }

  /** `make_template_test2()` */
  function MakeTemplate2(): (t: Template)
    ensures Valid(t)
  {
    EmptyValid();
    var t1 := Add(Empty, "pick2", None, Some(Pick2Spec));
    var t2 := Add(t1, "drop", Some(["pick2"]), Some(DropSpec));
    Add(t2, "pick2", Some(["drop"]), None)
  }

  const Template1: Template := Template(
    ["pick", "move", "drop"],
    map["pick" := PickSpec, "move" := MoveSpec, "drop" := DropSpec],
    [Edge(Root, "pick"), Edge(Named("pick"), "move"), Edge(Named("pick"), "drop"),
     Edge(Named("move"), "drop"), Edge(Named("drop"), "pick")])

  const Template2: Template := Template(
    ["pick2", "drop"],
    map["pick2" := Pick2Spec, "drop" := DropSpec],
    [Edge(Root, "pick2"), Edge(Named("pick2"), "drop"), Edge(Named("drop"), "pick2")])

  lemma AddPick()
    ensures Add(Empty, "pick", None, Some(PickSpec)) ==
              Template(["pick"], map["pick" := PickSpec], [Edge(Root, "pick")])
  {
    EmptyValid();
  }

  lemma AddMove()
    ensures Add(Template(["pick"], map["pick" := PickSpec], [Edge(Root, "pick")]),
                "move", Some(["pick"]), Some(MoveSpec)) ==
              Template(["pick", "move"], map["pick" := PickSpec, "move" := MoveSpec],
                       [Edge(Root, "pick"), Edge(Named("pick"), "move")])
  {
    assert DepEdges("move", Some(["pick"])) == [Edge(Named("pick"), "move")];
  }

  lemma AddDrop()
    ensures Add(Template(["pick", "move"], map["pick" := PickSpec, "move" := MoveSpec],
                         [Edge(Root, "pick"), Edge(Named("pick"), "move")]),
                "drop", Some(["pick", "move"]), Some(DropSpec)) ==
              Template(Template1.nodes, Template1.specs, Template1.edges[..4])
  {
    var t := Template(["pick", "move"], map["pick" := PickSpec, "move" := MoveSpec],
                      [Edge(Root, "pick"), Edge(Named("pick"), "move")]);
    assert Valid(t);
    AddFresh(t, "drop", ["pick", "move"], DropSpec);
    assert DepEdges("drop", Some(["pick", "move"])) == [Edge(Named("pick"), "drop"), Edge(Named("move"), "drop")];
    assert t.specs["drop" := DropSpec] == Template1.specs;
    assert t.edges + [Edge(Named("pick"), "drop"), Edge(Named("move"), "drop")] == Template1.edges[..4];
  }

  /** Adding a node that has no spec yet, with its spec and dependencies. */
  lemma AddFresh(t: Template, name: Name, deps: seq<Name>, spec: Spec)
    requires Valid(t) && name !in t.specs
    ensures Add(t, name, Some(deps), Some(spec)) ==
              Template(t.nodes + [name], t.specs[name := spec], t.edges + DepEdges(name, Some(deps)))
  {
  }

  lemma AddPickAgain()
    ensures Add(Template(Template1.nodes, Template1.specs, Template1.edges[..4]), "pick", Some(["drop"]), None) == Template1
  {
    assert DepEdges("pick", Some(["drop"])) == [Edge(Named("drop"), "pick")];
    assert Template1.edges[..4] + [Edge(Named("drop"), "pick")] == Template1.edges;
  }

  /** The four `add` calls build the template with three spec'd nodes and
      five edges; the second `add("pick", ...)` only adds the edge from drop. */
  lemma MakeTemplateIs()
    ensures MakeTemplate() == Template1
  {
    AddPick();
    AddMove();
    AddDrop();
    AddPickAgain();
  }

  lemma AddPick2()
    ensures Add(Empty, "pick2", None, Some(Pick2Spec)) ==
              Template(["pick2"], map["pick2" := Pick2Spec], [Edge(Root, "pick2")])
  {
    EmptyValid();
  }

  lemma AddDrop2()
    ensures Add(Template(["pick2"], map["pick2" := Pick2Spec], [Edge(Root, "pick2")]),
                "drop", Some(["pick2"]), Some(DropSpec)) ==
              Template(Template2.nodes, Template2.specs, Template2.edges[..2])
  {
    assert DepEdges("drop", Some(["pick2"])) == [Edge(Named("pick2"), "drop")];
  }

  lemma AddPick2Again()
    ensures Add(Template(Template2.nodes, Template2.specs, Template2.edges[..2]), "pick2", Some(["drop"]), None) == Template2
  {
    assert DepEdges("pick2", Some(["drop"])) == [Edge(Named("drop"), "pick2")];
    assert Template2.edges[..2] + [Edge(Named("drop"), "pick2")] == Template2.edges;
  }

  lemma MakeTemplate2Is()
    ensures MakeTemplate2() == Template2
  {
    AddPick2();
    AddDrop2();
    AddPick2Again();
  }

  const Domains1: Domains := map["obj" := ["apple", "orange"], "goal" := ["basket"]]
  const Domains2: Domains := map["orange" := ["that_one", "this_one"], "goal" := ["basket"]]

  lemma RefVars1()
    ensures RefVars(Template1) == ["obj", "goal"]
  {
    AllArgs1();
    DedupRepeatedFirst("obj", "goal");
  }

  lemma AllArgs1()
    ensures Valid(Template1)
    ensures AllArgs(Template1, Template1.nodes) == ["obj", "obj", "goal"]
  {
    var t := Template1;
    assert Valid(t);
    var nodes: seq<Name> := ["pick", "move", "drop"];
    assert t.nodes == nodes;
    assert nodes[1..] == ["move", "drop"] && nodes[1..][1..] == ["drop"];
    assert t.specs["drop"].args == [] && t.specs["move"].args == ["obj", "goal"] && t.specs["pick"].args == ["obj"];
    assert AllArgs(t, ["drop"]) == [];
    assert AllArgs(t, ["move", "drop"]) == ["obj", "goal"];
  }

  /** Deduplicating `[a, a, b]` keeps `[a, b]`. */
  lemma DedupRepeatedFirst(a: Var, b: Var)
    requires a != b
    ensures DedupInto([], [a, a, b]) == [a, b]
  {
    var s := [a, a, b];
    assert s[1..] == [a, b] && s[1..][1..] == [b];
    assert DedupInto([a, b], []) == [a, b];
    assert DedupInto([a], [b]) == [a, b];
    assert DedupInto([a], [a, b]) == [a, b];
    assert [] + [a] == [a];
  }

  lemma RefVars2()
    ensures RefVars(Template2) == ["orange"]
  {
    var t := Template2;
    assert Valid(t);
    assert AllArgs(t, ["drop"]) == [];
    assert AllArgs(t, t.nodes) == ["orange"];
    assert DedupInto(["orange"], []) == ["orange"];
  }

  lemma Closed1()
    ensures Closed(Template1)
  {
  }

  lemma Closed2()
    ensures Closed(Template2)
  {
  }

  function PickNode(v: Value): Node { Inst("pick", [Binding("obj", v)]) }
  function MoveNode(v: Value, g: Value): Node { Inst("move", [Binding("obj", v), Binding("goal", g)]) }
  const DropNode: Node := Inst("drop", [])
  function Pick2Node(v: Value): Node { Inst("pick2", [Binding("obj", v)]) }

  /** The instances of the first template's nodes under one binding. */
  lemma Projects1(c: Combo)
    requires "obj" in c && "goal" in c
    ensures Covers(Template1, c)
    ensures Project(Template1, Named("pick"), c) == PickNode(c["obj"])
    ensures Project(Template1, Named("move"), c) == MoveNode(c["obj"], c["goal"])
    ensures Project(Template1, Named("drop"), c) == DropNode
  {
    var t := Template1;
    assert t.specs["pick"] == PickSpec && t.specs["move"] == MoveSpec && t.specs["drop"] == DropSpec;
    assert Bind(PickSpec, c) == [Binding("obj", c["obj"])];
    assert Bind(MoveSpec, c) == [Binding("obj", c["obj"]), Binding("goal", c["goal"])];
    assert Bind(DropSpec, c) == [];
  }

  /** The child an edge contributes to `p`'s list: its target's instance
      when the edge leaves `p`, nothing otherwise. */
  function KidOf(t: Template, p: Parent, e: Edge, c: Combo): seq<Node>
    requires e.tgt in t.specs && Covers(t, c)
  {
    if e.src == p then [Project(t, Named(e.tgt), c)] else []
  }

  lemma KidsCons(t: Template, p: Parent, es: seq<Edge>, c: Combo)
    requires |es| > 0 && Covers(t, c)
    requires forall e :: e in es ==> e.tgt in t.specs
    ensures es[0].tgt in t.specs && forall e :: e in es[1..] ==> e.tgt in t.specs
    ensures Kids(t, p, es, c) == KidOf(t, p, es[0], c) + Kids(t, p, es[1..], c)
  {
    assert es[0] in es;
    assert forall e :: e in es[1..] ==> e in es;
  }

  /** The child list over the five edges of the first template, edge by edge. */
  lemma KidsFive(t: Template, p: Parent, es: seq<Edge>, c: Combo)
    requires |es| == 5 && Covers(t, c)
    requires forall e :: e in es ==> e.tgt in t.specs
    ensures forall i :: 0 <= i < 5 ==> es[i].tgt in t.specs
    ensures Kids(t, p, es, c) == KidOf(t, p, es[0], c) + (KidOf(t, p, es[1], c) + (KidOf(t, p, es[2], c) +
                                 (KidOf(t, p, es[3], c) + KidOf(t, p, es[4], c))))
  {
    assert forall i :: 0 <= i < 5 ==> es[i] in es;
    var k4 := Kids(t, p, es[4..], c);
    KidsCons(t, p, es[4..], c);
    assert k4 == KidOf(t, p, es[4], c);
    KidsCons(t, p, es[3..], c);
    assert es[3..][1..] == es[4..];
    var k3 := Kids(t, p, es[3..], c);
    assert k3 == KidOf(t, p, es[3], c) + k4;
    KidsCons(t, p, es[2..], c);
    assert es[2..][1..] == es[3..];
    var k2 := Kids(t, p, es[2..], c);
    assert k2 == KidOf(t, p, es[2], c) + k3;
    KidsCons(t, p, es[1..], c);
    assert es[1..][1..] == es[2..];
    var k1 := Kids(t, p, es[1..], c);
    assert k1 == KidOf(t, p, es[1], c) + k2;
    KidsCons(t, p, es, c);
  }

  lemma Edges1(c: Combo)
    requires "obj" in c && "goal" in c
    ensures Covers(Template1, c)
    ensures forall e :: e in Template1.edges ==> e.tgt in Template1.specs
    ensures Template1.edges == [Edge(Root, "pick"), Edge(Named("pick"), "move"), Edge(Named("pick"), "drop"),
                                Edge(Named("move"), "drop"), Edge(Named("drop"), "pick")]
  {
    Closed1();
    Projects1(c);
  }

  lemma Kids1Root(c: Combo)
    requires "obj" in c && "goal" in c
    ensures Covers(Template1, c)
    ensures Kids(Template1, Root, Template1.edges, c) == [PickNode(c["obj"])]
  {
    var t, es := Template1, Template1.edges;
    Edges1(c);
    Projects1(c);
    KidsFive(t, Root, es, c);
    var p := PickNode(c["obj"]);
    assert KidOf(t, Root, es[0], c) == [p];
    assert [p] + ([] + ([] + ([] + []))) == [p];
  }

  lemma Kids1Pick(c: Combo)
    requires "obj" in c && "goal" in c
    ensures Covers(Template1, c)
    ensures Kids(Template1, Named("pick"), Template1.edges, c) == [MoveNode(c["obj"], c["goal"]), DropNode]
  {
    var t, es := Template1, Template1.edges;
    Edges1(c);
    Projects1(c);
    KidsFive(t, Named("pick"), es, c);
    var m := MoveNode(c["obj"], c["goal"]);
    assert KidOf(t, Named("pick"), es[1], c) == [m];
    assert KidOf(t, Named("pick"), es[2], c) == [DropNode];
    assert [] + ([m] + ([DropNode] + ([] + []))) == [m, DropNode];
  }

  lemma Kids1Move(c: Combo)
    requires "obj" in c && "goal" in c
    ensures Covers(Template1, c)
    ensures Kids(Template1, Named("move"), Template1.edges, c) == [DropNode]
  {
    var t, es := Template1, Template1.edges;
    Edges1(c);
    Projects1(c);
    KidsFive(t, Named("move"), es, c);
    assert KidOf(t, Named("move"), es[3], c) == [DropNode];
    assert [] + ([] + ([] + ([DropNode] + []))) == [DropNode];
  }

  lemma Kids1Drop(c: Combo)
    requires "obj" in c && "goal" in c
    ensures Covers(Template1, c)
    ensures Kids(Template1, Named("drop"), Template1.edges, c) == [PickNode(c["obj"])]
  {
    var t, es := Template1, Template1.edges;
    Edges1(c);
    Projects1(c);
    KidsFive(t, Named("drop"), es, c);
    var p := PickNode(c["obj"]);
    assert KidOf(t, Named("drop"), es[4], c) == [p];
    assert [] + ([] + ([] + ([] + [p]))) == [p];
  }

  /** What one binding of the first template registers. */
  lemma Entries1(c: Combo)
    requires "obj" in c && "goal" in c
    ensures Closed(Template1) && Covers(Template1, c)
    ensures EntriesOf(Template1, c) ==
              [Entry(RootNode, [PickNode(c["obj"])]),
               Entry(PickNode(c["obj"]), [MoveNode(c["obj"], c["goal"]), DropNode]),
               Entry(MoveNode(c["obj"], c["goal"]), [DropNode]),
               Entry(DropNode, [PickNode(c["obj"])])]
  {
    Closed1();
    Projects1(c);
    Sources1();
    EntriesOfFour(Template1, c);
    Kids1Root(c);
    Kids1Pick(c);
    Kids1Move(c);
    Kids1Drop(c);
  }

  lemma Sources1()
    ensures Sources(Template1) == [Root, Named("pick"), Named("move"), Named("drop")]
  {
  }

  /** The registrations of a binding of a template with three spec'd nodes,
      source by source. */
  lemma EntriesOfFour(t: Template, c: Combo)
    requires Closed(t) && Covers(t, c) && |t.nodes| == 3
    ensures var ps := Sources(t);
            && (forall i :: 0 <= i < 4 && ps[i].Named? ==> ps[i].name in t.specs)
            && EntriesOf(t, c) == [Entry(Project(t, ps[0], c), Kids(t, ps[0], t.edges, c)),
                                   Entry(Project(t, ps[1], c), Kids(t, ps[1], t.edges, c)),
                                   Entry(Project(t, ps[2], c), Kids(t, ps[2], t.edges, c)),
                                   Entry(Project(t, ps[3], c), Kids(t, ps[3], t.edges, c))]
  {
    var ps := Sources(t);
    assert forall i :: 1 <= i < 4 ==> ps[i] == Named(t.nodes[i - 1]);
    assert forall i :: 0 <= i < 3 ==> t.nodes[i] in t.specs;
  }

  /** The instances of the second template's nodes under one binding; the
      spec of `pick2` shows its `orange` variable under the key `obj`. */
  lemma Projects2(c: Combo)
    requires "orange" in c
    ensures Covers(Template2, c)
    ensures forall e :: e in Template2.edges ==> e.tgt in Template2.specs
    ensures Project(Template2, Named("pick2"), c) == Pick2Node(c["orange"])
    ensures Project(Template2, Named("drop"), c) == DropNode
  {
    Closed2();
    var t := Template2;
    assert t.specs["pick2"] == Pick2Spec && t.specs["drop"] == DropSpec;
    assert Key(Pick2Spec, "orange") == "obj";
    assert Bind(Pick2Spec, c) == [Binding("obj", c["orange"])];
    assert Bind(DropSpec, c) == [];
  }

  /** The child list over the three edges of the second template. */
  lemma KidsThree(t: Template, p: Parent, es: seq<Edge>, c: Combo)
    requires |es| == 3 && Covers(t, c)
    requires forall e :: e in es ==> e.tgt in t.specs
    ensures forall i :: 0 <= i < 3 ==> es[i].tgt in t.specs
    ensures Kids(t, p, es, c) == KidOf(t, p, es[0], c) + (KidOf(t, p, es[1], c) + KidOf(t, p, es[2], c))
  {
    assert forall i :: 0 <= i < 3 ==> es[i] in es;
    var k2 := Kids(t, p, es[2..], c);
    KidsCons(t, p, es[2..], c);
    assert k2 == KidOf(t, p, es[2], c);
    KidsCons(t, p, es[1..], c);
    assert es[1..][1..] == es[2..];
    var k1 := Kids(t, p, es[1..], c);
    assert k1 == KidOf(t, p, es[1], c) + k2;
    KidsCons(t, p, es, c);
  }

  lemma Kids2(c: Combo)
    requires "orange" in c
    ensures Covers(Template2, c) && forall e :: e in Template2.edges ==> e.tgt in Template2.specs
    ensures Kids(Template2, Root, Template2.edges, c) == [Pick2Node(c["orange"])]
    ensures Kids(Template2, Named("pick2"), Template2.edges, c) == [DropNode]
    ensures Kids(Template2, Named("drop"), Template2.edges, c) == [Pick2Node(c["orange"])]
  {
    var t, es := Template2, Template2.edges;
    Projects2(c);
    var p := Pick2Node(c["orange"]);
    assert es == [Edge(Root, "pick2"), Edge(Named("pick2"), "drop"), Edge(Named("drop"), "pick2")];
    KidsThree(t, Root, es, c);
    assert KidOf(t, Root, es[0], c) == [p];
    assert [p] + ([] + []) == [p];
    KidsThree(t, Named("pick2"), es, c);
    assert KidOf(t, Named("pick2"), es[1], c) == [DropNode];
    assert [] + ([DropNode] + []) == [DropNode];
    KidsThree(t, Named("drop"), es, c);
    assert KidOf(t, Named("drop"), es[2], c) == [p];
    assert [] + ([] + [p]) == [p];
  }

  lemma Entries2(c: Combo)
    requires "orange" in c
    ensures Closed(Template2) && Covers(Template2, c)
    ensures EntriesOf(Template2, c) ==
              [Entry(RootNode, [Pick2Node(c["orange"])]),
               Entry(Pick2Node(c["orange"]), [DropNode]),
               Entry(DropNode, [Pick2Node(c["orange"])])]
  {
    Closed2();
    Projects2(c);
    Kids2(c);
    assert Sources(Template2) == [Root, Named("pick2"), Named("drop")];
  }

  const Combos1: seq<Combo> := [map["obj" := "apple", "goal" := "basket"], map["obj" := "orange", "goal" := "basket"]]
  const Combos2: seq<Combo> := [map["orange" := "that_one"], map["orange" := "this_one"]]

  /** Extending one binding over two values. */
  lemma ExtendTwo(v: Var, a: Value, b: Value, m: Combo)
    ensures Extend(v, [a, b], [m]) == [m[v := a], m[v := b]]
  {
    assert [a, b][1..] == [b];
    assert Extend(v, [b], [m]) == [m[v := b]];
  }

  lemma UpdateSwap(m: Combo, k1: Var, v1: Value, k2: Var, v2: Value)
    requires k1 != k2
    ensures m[k1 := v1][k2 := v2] == m[k2 := v2][k1 := v1]
  {
    var a, b := m[k1 := v1][k2 := v2], m[k2 := v2][k1 := v1];
    assert forall k :: k in a <==> k in b;
    assert forall k :: k in a ==> a[k] == b[k];
  }

  lemma Combos1Are()
    ensures Combos1 == [map["goal" := "basket"]["obj" := "apple"], map["goal" := "basket"]["obj" := "orange"]]
  {
    assert "obj" != "goal";
    UpdateSwap(map[], "obj", "apple", "goal", "basket");
    UpdateSwap(map[], "obj", "orange", "goal", "basket");
  }

  /** The bindings of a two-value variable followed by a one-value one: the
      first variable varies slowest. */
  lemma ProductOfTwo(v: Var, a: Value, b: Value, w: Var, g: Value, d: Domains)
    requires v in d && d[v] == [a, b] && w in d && d[w] == [g]
    ensures Product([v, w], d) == [map[w := g][v := a], map[w := g][v := b]]
  {
    var m: Combo := map[w := g];
    assert [v, w][1..] == [w] && [w][1..] == [];
    assert Extend(w, [g], [map[]]) == [m];
    assert Product([w], d) == [m];
    assert Product([v, w], d) == Extend(v, [a, b], [m]);
    ExtendTwo(v, a, b, m);
  }

  /** A template whose referenced variables all have domains, and whose
      edges name spec'd nodes, compiles to the product of those domains. */
  lemma CompileOk(t: Template, d: Domains, vars: seq<Var>, cs: seq<Combo>)
    requires Valid(t) && Closed(t) && RefVars(t) == vars
    requires forall v :: v in vars ==> v in d
    requires Product(vars, d) == cs
    ensures Compile(t, d).Ok? && Compile(t, d).value.combos == cs
  {
  }

  /** test1: two bindings, apple before orange, each with goal basket. */
  lemma Bindings1()
    ensures Compile(Template1, Domains1).Ok?
    ensures Compile(Template1, Domains1).value.combos == Combos1
  {
    RefVars1();
    Closed1();
    ProductOfTwo("obj", "apple", "orange", "goal", "basket", Domains1);
    Combos1Are();
    CompileOk(Template1, Domains1, ["obj", "goal"], Combos1);
  }

  /** The bindings of a single variable with a two-value domain. */
  lemma ProductOfOne(v: Var, a: Value, b: Value, d: Domains)
    requires v in d && d[v] == [a, b]
    ensures Product([v], d) == [map[v := a], map[v := b]]
  {
    assert [v][1..] == [];
    assert Product([v], d) == Extend(v, [a, b], [map[]]);
    ExtendTwo(v, a, b, map[]);
  }

  /** test2: the unreferenced `goal` domain adds no bindings. */
  lemma Bindings2()
    ensures Compile(Template2, Domains2).Ok?
    ensures Compile(Template2, Domains2).value.combos == Combos2
  {
    RefVars2();
    Closed2();
    Product2();
    assert "orange" in Domains2;
    CompileOk(Template2, Domains2, ["orange"], Combos2);
  }

  lemma Product2()
    ensures Product(["orange"], Domains2) == Combos2
  {
    ProductOfOne("orange", "that_one", "this_one", Domains2);
  }

  /** Registering four entries, one after another. */
  lemma RegisterFour(g: Graph, e0: Entry, e1: Entry, e2: Entry, e3: Entry)
    ensures RegisterAll(g, [e0, e1, e2, e3]) == Register(Register(Register(Register(g, e0), e1), e2), e3)
  {
    RegisterThree(Register(g, e0), e1, e2, e3);
    assert [e0, e1, e2, e3][1..] == [e1, e2, e3];
  }

  lemma RegisterThree(g: Graph, e0: Entry, e1: Entry, e2: Entry)
    ensures RegisterAll(g, [e0, e1, e2]) == Register(Register(Register(g, e0), e1), e2)
  {
    var g1, g2 := Register(g, e0), Register(Register(g, e0), e1);
    assert RegisterAll(g2, [e2]) == RegisterAll(Register(g2, e2), []);
    assert [e1, e2][1..] == [e2];
    assert RegisterAll(g1, [e1, e2]) == RegisterAll(g2, [e2]);
    assert [e0, e1, e2][1..] == [e1, e2];
  }

  /** The instance graph after the apple binding. */
  const Graph1a: Graph := Graph(
    [RootNode, PickNode("apple"), MoveNode("apple", "basket"), DropNode],
    map[RootNode := [PickNode("apple")],
        PickNode("apple") := [MoveNode("apple", "basket"), DropNode],
        MoveNode("apple", "basket") := [DropNode],
        DropNode := [PickNode("apple")]])

  /** The instance graph test1 leaves: ROOT and drop() were overwritten by
      the orange binding. */
  const Graph1: Graph := Graph(
    [RootNode, PickNode("apple"), MoveNode("apple", "basket"), DropNode,
     PickNode("orange"), MoveNode("orange", "basket")],
    map[RootNode := [PickNode("orange")],
        PickNode("apple") := [MoveNode("apple", "basket"), DropNode],
        MoveNode("apple", "basket") := [DropNode],
        DropNode := [PickNode("orange")],
        PickNode("orange") := [MoveNode("orange", "basket"), DropNode],
        MoveNode("orange", "basket") := [DropNode]])

  /** A registration of an instance not seen before appends it. */
  lemma RegisterNew(g: Graph, e: Entry)
    requires e.node !in g.children
    ensures Register(g, e) == Graph(g.order + [e.node], g.children[e.node := e.kids])
  {
  }

  /** A registration of a known instance replaces its child list only. */
  lemma RegisterKnown(g: Graph, e: Entry)
    requires e.node in g.children
    ensures Register(g, e) == Graph(g.order, g.children[e.node := e.kids])
  {
  }

  lemma Register1a()
    ensures RegisterAll(NoInstances, [Entry(RootNode, [PickNode("apple")]),
                                      Entry(PickNode("apple"), [MoveNode("apple", "basket"), DropNode]),
                                      Entry(MoveNode("apple", "basket"), [DropNode]),
                                      Entry(DropNode, [PickNode("apple")])]) == Graph1a
  {
    var PA, MA := PickNode("apple"), MoveNode("apple", "basket");
    var e0, e1, e2, e3 := Entry(RootNode, [PA]), Entry(PA, [MA, DropNode]), Entry(MA, [DropNode]), Entry(DropNode, [PA]);
    RegisterFour(NoInstances, e0, e1, e2, e3);
    var g1 := Graph([RootNode], map[RootNode := [PA]]);
    RegisterNew(NoInstances, e0);
    assert Register(NoInstances, e0) == g1;
    var g2 := Graph([RootNode, PA], map[RootNode := [PA], PA := [MA, DropNode]]);
    RegisterNew(g1, e1);
    assert Register(g1, e1) == g2;
    var g3 := Graph([RootNode, PA, MA], map[RootNode := [PA], PA := [MA, DropNode], MA := [DropNode]]);
    RegisterNew(g2, e2);
    assert Register(g2, e2) == g3;
    RegisterNew(g3, e3);
  }

  lemma Register1()
    ensures RegisterAll(Graph1a, [Entry(RootNode, [PickNode("orange")]),
                                  Entry(PickNode("orange"), [MoveNode("orange", "basket"), DropNode]),
                                  Entry(MoveNode("orange", "basket"), [DropNode]),
                                  Entry(DropNode, [PickNode("orange")])]) == Graph1
  {
    var PA, MA := PickNode("apple"), MoveNode("apple", "basket");
    var PO, MO := PickNode("orange"), MoveNode("orange", "basket");
    var e0, e1, e2, e3 := Entry(RootNode, [PO]), Entry(PO, [MO, DropNode]), Entry(MO, [DropNode]), Entry(DropNode, [PO]);
    RegisterFour(Graph1a, e0, e1, e2, e3);
    RegisterKnown(Graph1a, e0);
    var g1 := Register(Graph1a, e0);
    RegisterNew(g1, e1);
    var g2 := Register(g1, e1);
    RegisterNew(g2, e2);
    var g3 := Register(g2, e2);
    RegisterKnown(g3, e3);
    var g4 := Register(g3, e3);
    assert g4.order == Graph1.order;
    assert g4.children == Graph1a.children[RootNode := [PO]][PO := [MO, DropNode]][MO := [DropNode]][DropNode := [PO]];
    assert forall x :: x in g4.children <==> x in Graph1.children;
    assert forall x :: x in g4.children ==> g4.children[x] == Graph1.children[x];
  }

  /** Expanding two bindings registers the first one's entries, then the
      second one's. */
  lemma ExpandTwo(t: Template, c0: Combo, c1: Combo)
    requires Closed(t) && Covers(t, c0) && Covers(t, c1)
    ensures Expand(t, [c0, c1]) == RegisterAll(RegisterAll(NoInstances, EntriesOf(t, c0)), EntriesOf(t, c1))
  {
    var cs := [c0, c1];
    assert cs[..1] == [c0] && cs[..1][..0] == [];
    assert Expand(t, [c0]) == RegisterAll(NoInstances, EntriesOf(t, c0));
  }

  lemma Expand1()
    ensures Closed(Template1) && forall c :: c in Combos1 ==> Covers(Template1, c)
    ensures Expand(Template1, Combos1) == Graph1
  {
    var c0, c1 := Combos1[0], Combos1[1];
    assert Combos1 == [c0, c1];
    assert c0["obj"] == "apple" && c0["goal"] == "basket";
    assert c1["obj"] == "orange" && c1["goal"] == "basket";
    Entries1(c0);
    Entries1(c1);
    ExpandTwo(Template1, c0, c1);
    Register1a();
    Register1();
  }

  const Graph2a: Graph := Graph(
    [RootNode, Pick2Node("that_one"), DropNode],
    map[RootNode := [Pick2Node("that_one")],
        Pick2Node("that_one") := [DropNode],
        DropNode := [Pick2Node("that_one")]])

  /** The instance graph test2 leaves. */
  const Graph2: Graph := Graph(
    [RootNode, Pick2Node("that_one"), DropNode, Pick2Node("this_one")],
    map[RootNode := [Pick2Node("this_one")],
        Pick2Node("that_one") := [DropNode],
        DropNode := [Pick2Node("this_one")],
        Pick2Node("this_one") := [DropNode]])

  lemma Register2a()
    ensures RegisterAll(NoInstances, [Entry(RootNode, [Pick2Node("that_one")]),
                                      Entry(Pick2Node("that_one"), [DropNode]),
                                      Entry(DropNode, [Pick2Node("that_one")])]) == Graph2a
  {
    var P := Pick2Node("that_one");
    var e0, e1, e2 := Entry(RootNode, [P]), Entry(P, [DropNode]), Entry(DropNode, [P]);
    RegisterThree(NoInstances, e0, e1, e2);
    var g1 := Graph([RootNode], map[RootNode := [P]]);
    RegisterNew(NoInstances, e0);
    assert Register(NoInstances, e0) == g1;
    var g2 := Graph([RootNode, P], map[RootNode := [P], P := [DropNode]]);
    RegisterNew(g1, e1);
    assert Register(g1, e1) == g2;
    RegisterNew(g2, e2);
  }

  lemma Register2()
    ensures RegisterAll(Graph2a, [Entry(RootNode, [Pick2Node("this_one")]),
                                  Entry(Pick2Node("this_one"), [DropNode]),
                                  Entry(DropNode, [Pick2Node("this_one")])]) == Graph2
  {
    var P := Pick2Node("this_one");
    var e0, e1, e2 := Entry(RootNode, [P]), Entry(P, [DropNode]), Entry(DropNode, [P]);
    RegisterThree(Graph2a, e0, e1, e2);
    RegisterKnown(Graph2a, e0);
    var g1 := Register(Graph2a, e0);
    RegisterNew(g1, e1);
    var g2 := Register(g1, e1);
    RegisterKnown(g2, e2);
    var g3 := Register(g2, e2);
    assert g3.order == Graph2.order;
    assert g3.children == Graph2a.children[RootNode := [P]][P := [DropNode]][DropNode := [P]];
    assert forall x :: x in g3.children <==> x in Graph2.children;
    assert forall x :: x in g3.children ==> g3.children[x] == Graph2.children[x];
  }

  lemma Expand2()
    ensures Closed(Template2) && forall c :: c in Combos2 ==> Covers(Template2, c)
    ensures Expand(Template2, Combos2) == Graph2
  {
    var c0, c1 := Combos2[0], Combos2[1];
    assert Combos2 == [c0, c1];
    assert c0["orange"] == "that_one" && c1["orange"] == "this_one";
    Entries2(c0);
    Entries2(c1);
    ExpandTwo(Template2, c0, c1);
    Register2a();
    Register2();
  }

  // ----- the summaries -----

  lemma SigRoot()
    ensures Sig(RootNode) == "ROOT()"
  {
  }

  lemma SigDrop()
    ensures Sig(DropNode) == "drop()"
  {
  }

  lemma SigOneArg(n: Name, k: string, v: Value)
    requires Word(k) && Word(v)
    ensures Sig(Inst(n, [Binding(k, v)])) == n + "('" + k + "=" + v + "')"
  {
    var args := [Binding(k, v)];
    assert KeyValues(args) == [k + "=" + v];
    KeyValueRepr(k, v);
    assert ReprAll(KeyValues(args)) == ["'" + k + "=" + v + "'"];
  }

  lemma JoinTwo(x: string, y: string, sep: string)
    ensures Join([x, y], sep) == x + sep + y
  {
    assert [x, y][1..] == [y];
  }

  lemma ReprAllTwo(x: string, y: string)
    ensures ReprAll([x, y]) == [Repr(x), Repr(y)]
  {
    assert [x, y][1..] == [y];
  }

  lemma SigTwoArgs(n: Name, k1: string, v1: Value, k2: string, v2: Value)
    requires Word(k1) && Word(v1) && Word(k2) && Word(v2)
    ensures Sig(Inst(n, [Binding(k1, v1), Binding(k2, v2)])) ==
              n + "('" + k1 + "=" + v1 + "', '" + k2 + "=" + v2 + "')"
  {
    var args := [Binding(k1, v1), Binding(k2, v2)];
    assert args[1..] == [Binding(k2, v2)];
    var a, b := k1 + "=" + v1, k2 + "=" + v2;
    assert KeyValues(args) == [a, b];
    KeyValueRepr(k1, v1);
    KeyValueRepr(k2, v2);
    ReprAllTwo(a, b);
    var qa, qb := "'" + a + "'", "'" + b + "'";
    assert Repr(a) == qa && Repr(b) == qb;
    assert ReprAll(KeyValues(args)) == [qa, qb];
    JoinTwo(qa, qb, ListSep);
    assert NameOf(Inst(n, args)) == n && ArgsOf(Inst(n, args)) == args;
    assert Sig(Inst(n, args)) == n + "(" + (qa + ", " + qb) + ")";
    RegroupSig(n, "(", "'", k1, "=", v1, ", ", k2, v2, ")");
    QuotePieces();
  }

  lemma RegroupSig(n: string, o: string, q: string, k1: string, eq: string, v1: string,
                   sep: string, k2: string, v2: string, c: string)
    ensures n + o + ((q + (k1 + eq + v1) + q) + sep + (q + (k2 + eq + v2) + q)) + c ==
              n + (o + q) + k1 + eq + v1 + (q + sep + q) + k2 + eq + v2 + (q + c)
  {
  }

  lemma ListOne(a: string)
    ensures ListText([a]) == "[" + Repr(a) + "]"
  {
  }

  lemma ListTwo(a: string, b: string)
    ensures ListText([a, b]) == "[" + Repr(a) + ", " + Repr(b) + "]"
  {
    ReprAllTwo(a, b);
    JoinTwo(Repr(a), Repr(b), ListSep);
  }

  lemma LineParts(x: Node, kids: seq<Node>)
    ensures Line(x, kids) == Sig(x) + " --> " + ListText(Sigs(kids))
  {
  }

  lemma SigsOne(y: Node)
    ensures Sigs([y]) == [Sig(y)]
  {
  }

  lemma SigsTwo(y: Node, z: Node)
    ensures Sigs([y, z]) == [Sig(y), Sig(z)]
  {
    assert [y, z][1..] == [z];
  }

  /** A one-element list of a signature with arguments. */
  lemma ListOfArgSig(y: Node)
    requires WordNode(y) && y.Inst? && y.args != []
    ensures ListText([Sig(y)]) == "[\"" + Sig(y) + "\"]"
  {
    ListOne(Sig(y));
    WordSigRepr(y);
    Enclose(Sig(y), "[", "\"", "\"", "]");
    BracketPieces();
  }

  lemma Enclose(x: string, a: string, b: string, c: string, d: string)
    ensures a + (b + x + c) + d == (a + b) + x + (c + d)
  {
  }

  lemma ListOfDrop()
    ensures ListText([Sig(DropNode)]) == "['drop()']"
  {
    ListOne(Sig(DropNode));
    assert WordNode(DropNode);
    WordSigRepr(DropNode);
    SigDrop();
  }

  lemma ListOfMoveDrop(m: Node)
    requires WordNode(m) && m.Inst? && m.args != []
    ensures ListText([Sig(m), Sig(DropNode)]) == "[\"" + Sig(m) + "\", 'drop()']"
  {
    ListTwo(Sig(m), Sig(DropNode));
    WordSigRepr(m);
    assert WordNode(DropNode);
    WordSigRepr(DropNode);
    SigDrop();
    QuotedThenDrop(Sig(m));
  }

  lemma QuotedThenDrop(x: string)
    ensures "[" + ("\"" + x + "\"") + ", " + ("'" + "drop()" + "'") + "]" == "[\"" + x + "\", 'drop()']"
  {
    var tail := "\"" + ", " + ("'" + "drop()" + "'") + "]";
    assert tail == "\", 'drop()']";
    assert "[" + ("\"" + x + "\"") + ", " + ("'" + "drop()" + "'") + "]" == ("[" + "\"") + x + tail;
  }

  /** The rendered line of each kind of instance the tests produce. */
  lemma LineOneChild(x: Node, y: Node)
    requires WordNode(y) && y.Inst? && y.args != []
    ensures Line(x, [y]) == Sig(x) + " --> [\"" + Sig(y) + "\"]"
  {
    LineParts(x, [y]);
    SigsOne(y);
    ListOfArgSig(y);
    Glue(Sig(x), " --> ", "[\"", Sig(y), "\"]");
    ArrowPieces();
  }

  lemma LineToDrop(x: Node)
    ensures Line(x, [DropNode]) == Sig(x) + " --> ['drop()']"
  {
    LineParts(x, [DropNode]);
    SigsOne(DropNode);
    ListOfDrop();
    Assoc(Sig(x), " --> ", "['drop()']");
    ArrowPieces();
  }

  lemma LineMoveDrop(x: Node, m: Node)
    requires WordNode(m) && m.Inst? && m.args != []
    ensures Line(x, [m, DropNode]) == Sig(x) + " --> [\"" + Sig(m) + "\", 'drop()']"
  {
    LineParts(x, [m, DropNode]);
    SigsTwo(m, DropNode);
    ListOfMoveDrop(m);
    Glue(Sig(x), " --> ", "[\"", Sig(m), "\", 'drop()']");
    ArrowPieces();
  }

  lemma Glue(a: string, b: string, c: string, d: string, e: string)
    ensures a + b + (c + d + e) == a + (b + c) + d + e
  {
  }

  lemma LinePick(v: Value, g: Value)
    requires Word(v) && Word(g)
    ensures Line(PickNode(v), [MoveNode(v, g), DropNode]) ==
              Sig(PickNode(v)) + " --> [\"" + Sig(MoveNode(v, g)) + "\", 'drop()']"
  {
    assert Word("move") && Word("obj") && Word("goal");
    assert WordNode(MoveNode(v, g));
    LineMoveDrop(PickNode(v), MoveNode(v, g));
  }

  lemma Words1()
    ensures Word("pick") && Word("move") && Word("obj") && Word("goal")
    ensures Word("apple") && Word("orange") && Word("basket")
  {
  }

  lemma SigPick(v: Value)
    requires Word(v)
    ensures Sig(PickNode(v)) == "pick('obj=" + v + "')"
  {
    assert Word("obj");
    SigOneArg("pick", "obj", v);
  }

  lemma SigPick2(v: Value)
    requires Word(v)
    ensures Sig(Pick2Node(v)) == "pick2('obj=" + v + "')"
  {
    assert Word("obj");
    SigOneArg("pick2", "obj", v);
  }

  lemma SigMove(v: Value, g: Value)
    requires Word(v) && Word(g)
    ensures Sig(MoveNode(v, g)) == "move('obj=" + v + "', 'goal=" + g + "')"
  {
    assert Word("obj") && Word("goal");
    SigTwoArgs("move", "obj", v, "goal", g);
    RegroupTwoArgs("move", "('", "obj", "=", v, "', '", "goal", "=", g, "')");
    TextMoveKeys();
  }

  lemma RegroupTwoArgs(a: string, b: string, c: string, d: string, v: string,
                       e: string, f: string, h: string, w: string, z: string)
    ensures a + b + c + d + v + e + f + h + w + z == (a + b + c + d) + v + (e + f + h) + w + z
  {
  }

  lemma SigPickApple()
    ensures Sig(PickNode("apple")) == "pick('obj=apple')"
  {
    Words1();
    SigPick("apple");
  }

  lemma SigPickOrange()
    ensures Sig(PickNode("orange")) == "pick('obj=orange')"
  {
    Words1();
    SigPick("orange");
  }

  lemma SigMoveApple()
    ensures Sig(MoveNode("apple", "basket")) == "move('obj=apple', 'goal=basket')"
  {
    Words1();
    SigMove("apple", "basket");
    TextMoveSigApple();
  }

  lemma SigMoveOrange()
    ensures Sig(MoveNode("orange", "basket")) == "move('obj=orange', 'goal=basket')"
  {
    Words1();
    SigMove("orange", "basket");
    TextMoveSigOrange();
  }

  lemma SigPick2That()
    ensures Sig(Pick2Node("that_one")) == "pick2('obj=that_one')"
  {
    Words2();
    SigPick2("that_one");
  }

  lemma SigPick2This()
    ensures Sig(Pick2Node("this_one")) == "pick2('obj=this_one')"
  {
    Words2();
    SigPick2("this_one");
  }

  lemma Words2()
    ensures Word("pick2") && Word("obj") && Word("that_one") && Word("this_one")
  {
  }

  lemma Line1Root()
    ensures Line(RootNode, [PickNode("orange")]) == Test1Lines[3]
  {
    Words1();
    assert WordNode(PickNode("orange"));
    LineOneChild(RootNode, PickNode("orange"));
    SigRoot();
    SigPickOrange();
    TextRoot1();
  }

  lemma Line1PickApple()
    ensures Line(PickNode("apple"), [MoveNode("apple", "basket"), DropNode]) == Test1Lines[4]
  {
    Words1();
    LinePick("apple", "basket");
    SigPickApple();
    SigMoveApple();
    TextPickApple();
  }

  lemma Line1MoveApple()
    ensures Line(MoveNode("apple", "basket"), [DropNode]) == Test1Lines[5]
  {
    LineToDrop(MoveNode("apple", "basket"));
    SigMoveApple();
    TextMoveApple();
  }

  lemma Line1Drop()
    ensures Line(DropNode, [PickNode("orange")]) == Test1Lines[0]
  {
    Words1();
    assert WordNode(PickNode("orange"));
    LineOneChild(DropNode, PickNode("orange"));
    SigDrop();
    SigPickOrange();
    TextDrop1();
  }

  lemma Line1PickOrange()
    ensures Line(PickNode("orange"), [MoveNode("orange", "basket"), DropNode]) == Test1Lines[2]
  {
    Words1();
    LinePick("orange", "basket");
    SigPickOrange();
    SigMoveOrange();
    TextPickOrange();
  }

  lemma Line1MoveOrange()
    ensures Line(MoveNode("orange", "basket"), [DropNode]) == Test1Lines[1]
  {
    LineToDrop(MoveNode("orange", "basket"));
    SigMoveOrange();
    TextMoveOrange();
  }

  lemma Line2Root()
    ensures Line(RootNode, [Pick2Node("this_one")]) == Test2Lines[3]
  {
    Words2();
    assert WordNode(Pick2Node("this_one"));
    LineOneChild(RootNode, Pick2Node("this_one"));
    SigRoot();
    SigPick2This();
    TextRoot2();
  }

  lemma Line2PickThat()
    ensures Line(Pick2Node("that_one"), [DropNode]) == Test2Lines[1]
  {
    LineToDrop(Pick2Node("that_one"));
    SigPick2That();
    TextPick2That();
  }

  lemma Line2Drop()
    ensures Line(DropNode, [Pick2Node("this_one")]) == Test2Lines[0]
  {
    Words2();
    assert WordNode(Pick2Node("this_one"));
    LineOneChild(DropNode, Pick2Node("this_one"));
    SigDrop();
    SigPick2This();
    TextDrop2();
  }

  lemma Line2PickThis()
    ensures Line(Pick2Node("this_one"), [DropNode]) == Test2Lines[2]
  {
    LineToDrop(Pick2Node("this_one"));
    SigPick2This();
    TextPick2This();
  }

  lemma Graph1Lookups()
    ensures Graph1.children[RootNode] == [PickNode("orange")]
    ensures Graph1.children[PickNode("apple")] == [MoveNode("apple", "basket"), DropNode]
    ensures Graph1.children[MoveNode("apple", "basket")] == [DropNode]
    ensures Graph1.children[DropNode] == [PickNode("orange")]
    ensures Graph1.children[PickNode("orange")] == [MoveNode("orange", "basket"), DropNode]
    ensures Graph1.children[MoveNode("orange", "basket")] == [DropNode]
  {
  }

  lemma Graph2Lookups()
    ensures Graph2.children[RootNode] == [Pick2Node("this_one")]
    ensures Graph2.children[Pick2Node("that_one")] == [DropNode]
    ensures Graph2.children[DropNode] == [Pick2Node("this_one")]
    ensures Graph2.children[Pick2Node("this_one")] == [DropNode]
  {
  }

  lemma SixElements(s: seq<string>)
    requires |s| == 6
    ensures s == [s[0], s[1], s[2], s[3], s[4], s[5]]
  {
  }

  lemma FourElements(s: seq<string>)
    requires |s| == 4
    ensures s == [s[0], s[1], s[2], s[3]]
  {
  }

  lemma Lines1()
    ensures Registry(Graph1)
    ensures Lines(Graph1) == [Test1Lines[3], Test1Lines[4], Test1Lines[5], Test1Lines[0], Test1Lines[2], Test1Lines[1]]
  {
    Expand1();
    Graph1Lookups();
    var g := Graph1;
    var ls := Lines(g);
    SixElements(ls);
    Line1Root();
    assert ls[0] == Test1Lines[3];
    Line1PickApple();
    assert ls[1] == Test1Lines[4];
    Line1MoveApple();
    assert ls[2] == Test1Lines[5];
    Line1Drop();
    assert ls[3] == Test1Lines[0];
    Line1PickOrange();
    assert ls[4] == Test1Lines[2];
    Line1MoveOrange();
    assert ls[5] == Test1Lines[1];
  }

  lemma Lines2()
    ensures Registry(Graph2)
    ensures Lines(Graph2) == [Test2Lines[3], Test2Lines[1], Test2Lines[0], Test2Lines[2]]
  {
    Expand2();
    Graph2Lookups();
    var ls := Lines(Graph2);
    FourElements(ls);
    Line2Root();
    assert ls[0] == Test2Lines[3];
    Line2PickThat();
    assert ls[1] == Test2Lines[1];
    Line2Drop();
    assert ls[2] == Test2Lines[0];
    Line2PickThis();
    assert ls[3] == Test2Lines[2];
  }

  /** Exchanging two adjacent blocks keeps the multiset of elements. */
  lemma SwapBlocks<T>(x: seq<T>, p: seq<T>, q: seq<T>, y: seq<T>)
    ensures multiset(x + p + q + y) == multiset(x + q + p + y)
  {
    calc {
      multiset(x + p + q + y);
      multiset(x) + multiset(p) + multiset(q) + multiset(y);
      multiset(x) + multiset(q) + multiset(p) + multiset(y);
      multiset(x + q + p + y);
    }
  }

  lemma SplitSix<T>(a: T, b: T, c: T, d: T, e: T, f: T)
    ensures [d, e, f, a, c, b] == [] + [d, e, f] + [a, c, b] + []
    ensures [a, c, b, d, e, f] == [] + [a, c, b] + [d, e, f] + []
    ensures [a, c, b, d, e, f] == [a] + [c] + [b] + [d, e, f]
    ensures [a, b, c, d, e, f] == [a] + [b] + [c] + [d, e, f]
  {
  }

  lemma SplitFour<T>(a: T, b: T, c: T, d: T)
    ensures [d, b, a, c] == [] + [d] + [b, a, c] + []
    ensures [b, a, c, d] == [] + [b, a, c] + [d] + []
    ensures [b, a, c, d] == [] + [b] + [a] + [c, d]
    ensures [a, b, c, d] == [] + [a] + [b] + [c, d]
  {
  }

  /** The order test1's summary lists its lines in, against registration
      order, is a rearrangement. */
  lemma PermuteSix(s: seq<string>)
    requires |s| == 6
    ensures multiset([s[3], s[4], s[5], s[0], s[2], s[1]]) == multiset(s)
  {
    SixElements(s);
    var a, b, c, d, e, f := s[0], s[1], s[2], s[3], s[4], s[5];
    SplitSix(a, b, c, d, e, f);
    SwapBlocks([], [d, e, f], [a, c, b], []);
    SwapBlocks([a], [c], [b], [d, e, f]);
  }

  lemma PermuteFour(s: seq<string>)
    requires |s| == 4
    ensures multiset([s[3], s[1], s[0], s[2]]) == multiset(s)
  {
    FourElements(s);
    var a, b, c, d := s[0], s[1], s[2], s[3];
    SplitFour(a, b, c, d);
    SwapBlocks([], [d], [b, a, c], []);
    SwapBlocks([], [b], [a], [c, d]);
  }

  /** What compiling test1's template leaves: its two bindings and the
      instance graph they expand to. */
  lemma Compile1()
    ensures Compile(MakeTemplate(), Domains1) == Ok(Compiled(Combos1, Graph1))
  {
    MakeTemplateIs();
    Bindings1();
    Expand1();
  }

  lemma Compile2()
    ensures Compile(MakeTemplate2(), Domains2) == Ok(Compiled(Combos2, Graph2))
  {
    MakeTemplate2Is();
    Bindings2();
    Expand2();
  }

  /** `test1`: two bindings, `obj` running over apple then orange, each with
      `goal` basket. */
  lemma Test1Bindings()
    ensures Compile(MakeTemplate(), Domains1).Ok?
    ensures var cs := Compile(MakeTemplate(), Domains1).value.combos;
            |cs| == 2 &&
            cs[0] == map["obj" := "apple", "goal" := "basket"] &&
            cs[1] == map["obj" := "orange", "goal" := "basket"]
  {
    MakeTemplateIs();
    Bindings1();
  }

  /** `test1`: the summary holds exactly the six golden lines. */
  lemma Test1Summary()
    ensures Compile(MakeTemplate(), Domains1).Ok?
    ensures var g := Compile(MakeTemplate(), Domains1).value.graph;
            Registry(g) &&
            NodeSummary(g) == Unlines(Lines(g)) &&
            multiset(Lines(g)) == multiset(Test1Lines)
  {
    Compile1();
    Lines1();
    PermuteSix(Test1Lines);
    NodeSummaryLines(Graph1);
  }

  /** `test2`: the renamed argument shows as `obj`, the unused `goal` domain
      adds no binding, and the summary holds exactly the four golden lines. */
  lemma Test2()
    ensures Compile(MakeTemplate2(), Domains2).Ok?
    ensures Compile(MakeTemplate2(), Domains2).value.combos == Combos2
    ensures var g := Compile(MakeTemplate2(), Domains2).value.graph;
            Registry(g) &&
            NodeSummary(g) == Unlines(Lines(g)) &&
            multiset(Lines(g)) == multiset(Test2Lines)
  {
    Compile2();
    Lines2();
    PermuteFour(Test2Lines);
    NodeSummaryLines(Graph2);
  }
}

=== FILE: view_convert.dfy ===
/** `view_convert_dataset.py`: which files of a stacking dataset are shown
    and converted, under which name each is opened, and where the converted
    clip is written. Reading the HDF5 data, building clips, previews and the
    progress bar are not modelled. */
module ViewConvert {
  import opened Outcomes
  import opened Strings

  /** The command-line options the selection and naming depend on. */
  datatype Options = Options(path: string, convert: string,
                             ignoreError: bool, ignoreFailure: bool, ignoreSuccess: bool)

  /** Why a listed name is passed over. */
  datatype Skip = NotData | IgnoredError | IgnoredFailure | IgnoredSuccess

  /** Where a clip is written, and in which format. */
  datatype Write = NoWrite | WriteGif(target: string) | WriteVideo(target: string)

  /** What happens to one listed name: skipped, with the note the progress
      bar shows, or opened under `example` and converted. */
  datatype Step = Skipped(reason: Skip, note: Option<string>) | Processed(example: string, write: Write)

  const DataExtension: string := ".h5f"

  /** The names to go through: a path naming an `.h5f` file is the one
      file; otherwise the listing of the path's directory. */
  function Filenames(path: string, listing: seq<string>): (r: seq<string>)
    ensures Contains(path, DataExtension) ==> r == [path]
    ensures !Contains(path, DataExtension) ==> r == listing
  {
    if Contains(path, DataExtension) then [path] else listing
  }

  /** The skip rules, checked in order: hidden or non-`.h5` names, then
      errors, failures and successes when the matching option is set. */
  function Classify(o: Options, f: string): (r: Option<Skip>)
    ensures r.None? <==> Selected(o, f)
    ensures r == Some(NotData) <==> StartsWith(f, ".") || !Contains(f, ".h5")
    ensures r == Some(IgnoredError) ==> o.ignoreError && Contains(f, "error")
    ensures r == Some(IgnoredFailure) ==> o.ignoreFailure && Contains(f, "failure") && !(o.ignoreError && Contains(f, "error"))
    ensures r == Some(IgnoredSuccess) ==> o.ignoreSuccess && Contains(f, "success")
    ensures r == Some(IgnoredSuccess) ==> !(o.ignoreError && Contains(f, "error"))
    ensures r == Some(IgnoredSuccess) ==> !(o.ignoreFailure && Contains(f, "failure"))
  {
    if StartsWith(f, ".") || !Contains(f, ".h5") then Some(NotData)
    else if o.ignoreError && Contains(f, "error") then Some(IgnoredError)
    else if o.ignoreFailure && Contains(f, "failure") then Some(IgnoredFailure)
    else if o.ignoreSuccess && Contains(f, "success") then Some(IgnoredSuccess)
    else None
  }

  /** The names that are processed, stated as one condition. */
  predicate Selected(o: Options, f: string)
  {
    !StartsWith(f, ".") && Contains(f, ".h5") &&
    !(o.ignoreError && Contains(f, "error")) &&
    !(o.ignoreFailure && Contains(f, "failure")) &&
    !(o.ignoreSuccess && Contains(f, "success"))
  }

  /** The progress-bar note for a skip; hidden and non-data names pass
      silently. */
  function SkipNote(reason: Skip, f: string): (r: Option<string>)
    ensures r.None? <==> reason == NotData
    ensures r.Some? ==> Contains(r.value, f)
  {
    match reason
    case NotData => None
    case IgnoredError => Some(Note("Skipping example containing errors: ", f))
    case IgnoredFailure => Some(Note("Skipping example containing failure: ", f))
    case IgnoredSuccess => Some(Note("Skipping example containing success: ", f))
  }

  function Note(prefix: string, f: string): (r: string)
    ensures Contains(r, f)
  {
    ContainsSuffix(prefix, f);
    prefix + f
  }

  /** The name a file is opened under: kept when it already mentions the
      path, otherwise joined under it. */
  function ExampleName(path: string, f: string): string
  {
    if Contains(f, path) then f else PathJoin(path, f)
  }

  /** The opened name mentions both the path and the listed name, unless
      the listed name is absolute (then `os.path.join` drops the path). */
  lemma ExampleNameMentions(path: string, f: string)
    ensures Contains(ExampleName(path, f), f)
    ensures !StartsWith(f, "/") ==> Contains(ExampleName(path, f), path)
    ensures Contains(f, path) ==> ExampleName(path, f) == f
  {
    if !Contains(f, path) {
      if StartsWith(f, "/") {
        ContainsPrefix(f, "");
        assert f + "" == f;
      } else if |path| == 0 || path[|path| - 1] == '/' {
        ContainsSuffix(path, f);
        ContainsPrefix(path, f);
      } else {
        ContainsSuffix(path + "/", f);
        ContainsPrefix(path, "/" + f);
        assert path + "/" + f == path + ("/" + f);
      }
    } else {
      ContainsPrefix(f, "");
      assert f + "" == f;
    }
  }

  /** `example_filename.replace('.h5f', '.' + convert)` */
  function SaveName(example: string, convert: string): string
  {
    ReplaceAll(example, DataExtension, "." + convert)
  }

  /** A name ending in the one `.h5f` it holds gets the conversion's
      extension in its place. */
  lemma {:induction false} SaveNameSwapsExtension(stem: string, convert: string)
    requires !Contains(stem, DataExtension)
    ensures SaveName(stem + DataExtension, convert) == stem + "." + convert
    decreases |stem|
  {
    var s := stem + DataExtension;
    if |stem| == 0 {
      assert s == DataExtension;
      assert StartsWith(s, DataExtension);
      assert s[|DataExtension|..] == "";
    } else {
      assert !StartsWith(s, DataExtension) by {
        if |stem| >= 4 {
          assert s[..4] == stem[..4];
          assert !StartsWith(stem, DataExtension);
        } else {
          assert s[|stem|] == '.';
          assert DataExtension[|stem|] != '.';
        }
      }
      assert !Contains(stem[1..], DataExtension);
      SaveNameSwapsExtension(stem[1..], convert);
      assert s[1..] == stem[1..] + DataExtension;
      assert stem == [stem[0]] + stem[1..];
    }
  }

  /** A name without `.h5f` (one that passed the `.h5` test only) keeps its
      name, extension and all. */
  lemma SaveNameWithoutExtension(example: string, convert: string)
    requires !Contains(example, DataExtension)
    ensures SaveName(example, convert) == example
  {
    ReplaceAbsent(example, DataExtension, "." + convert);
  }

  /** What `main` writes, as written: a gif to the derived name when the
      conversion mentions `gif`, but a video for any other conversion to the
      bare listed name. */
  function MainWriteAsWritten(convert: string, f: string, example: string): (r: Write)
    ensures r.NoWrite? <==> convert == ""
    ensures r.WriteGif? <==> Contains(convert, "gif")
    ensures r.WriteGif? ==> r.target == SaveName(example, convert)
    ensures r.WriteVideo? ==> r.target == f
  {
    if Contains(convert, "gif") then WriteGif(SaveName(example, convert))
    else if convert != "" then WriteVideo(f)
    else NoWrite
  }

  /** What `main` writes, with the derived name used for both formats. */
  function MainWrite(convert: string, example: string): (r: Write)
    ensures r.NoWrite? <==> convert == ""
    ensures r.WriteGif? <==> Contains(convert, "gif")
    ensures !r.NoWrite? ==> r.target == SaveName(example, convert)
  {
    if Contains(convert, "gif") then WriteGif(SaveName(example, convert))
    else if convert != "" then WriteVideo(SaveName(example, convert))
    else NoWrite
  }

  /** The example `data/a.h5f`: listed as `a.h5f` in the directory `data`. */
  lemma ExampleOfListedName()
    ensures ExampleName("data", "a.h5f") == "data/a.h5f"
  {
    AbsentFirst("a.h5f", "data");
    assert "a.h5f"[..1] != "/" by { assert "a.h5f"[..1][0] == 'a'; }
    assert "data"[3] != '/';
    assert "data" + "/" + "a.h5f" == "data/a.h5f";
  }

  /** The as-written video target: converting `data/a.h5f` to mp4 writes
      to `a.h5f`, the name as listed, instead of `data/a.mp4`. */
  lemma VideoTargetIsListedName()
    ensures MainWriteAsWritten("mp4", "a.h5f", ExampleName("data", "a.h5f")) == WriteVideo("a.h5f")
  {
    AbsentFirst("mp4", "gif");
  }

  /** The derived target for the same file. */
  lemma VideoTargetIsDerivedName()
    ensures MainWrite("mp4", ExampleName("data", "a.h5f")) == WriteVideo("data/a.mp4")
  {
    AbsentFirst("mp4", "gif");
    ExampleOfListedName();
    AbsentFirst("data/a", DataExtension);
    SaveNameSwapsExtension("data/a", "mp4");
    assert "data/a" + DataExtension == "data/a.h5f";
    assert "data/a" + "." + "mp4" == "data/a.mp4";
  }

  /** With the derived name, a converted clip never lands on the file it
      was read from: `x.h5f` becomes `x.<convert>`. */
  lemma MainWriteNeverOverwrites(stem: string, convert: string)
    requires !Contains(stem, DataExtension)
    requires convert != "" && convert != "h5f"
    ensures MainWrite(convert, stem + DataExtension).target == stem + "." + convert
    ensures MainWrite(convert, stem + DataExtension).target != stem + DataExtension
  {
    SaveNameSwapsExtension(stem, convert);
    var a, b := stem + "." + convert, stem + DataExtension;
    if |a| == |b| {
      assert a[|stem|..] == "." + convert;
      assert b[|stem|..] == DataExtension;
      assert "." + convert != DataExtension by {
        assert ("." + convert)[1..] == convert;
        assert DataExtension[1..] == "h5f";
      }
    }
  }

  /** `npy_to_video`: only the exact conversion `gif` writes a gif. */
  function NpyToVideo(convert: string, f: string): (r: Write)
    ensures r.NoWrite? <==> convert == ""
    ensures r.WriteGif? <==> convert == "gif"
    ensures !r.NoWrite? ==> r.target == f
  {
    if convert == "gif" then WriteGif(f)
    else if convert != "" then WriteVideo(f)
    else NoWrite
  }

  /** The two format tests differ: a conversion mentioning `gif` without
      being `gif` makes `main` write a gif and `npy_to_video` a video. */
  lemma FormatTestsDiffer(convert: string, f: string, example: string)
    requires Contains(convert, "gif") && convert != "gif"
    ensures MainWrite(convert, example).WriteGif?
    ensures NpyToVideo(convert, f).WriteVideo?
  {
  }

  /** One listed name through `main`'s loop body, as written. */
  function StepFor(o: Options, f: string): (r: Step)
    ensures r.Processed? <==> Selected(o, f)
    ensures r.Processed? ==> r.example == ExampleName(o.path, f) && r.write == MainWriteAsWritten(o.convert, f, r.example)
    ensures r.Skipped? ==> r.reason == Classify(o, f).value && r.note == SkipNote(r.reason, f)
  {
    match Classify(o, f)
    case Some(reason) => Skipped(reason, SkipNote(reason, f))
    case None =>
      var example := ExampleName(o.path, f);
      Processed(example, MainWriteAsWritten(o.convert, f, example))
  }

  /** The same step with the derived save name used for both formats. */
  function IntendedStep(o: Options, f: string): (r: Step)
    ensures r.Processed? <==> Selected(o, f)
    ensures r.Processed? ==> r.example == ExampleName(o.path, f) && r.write == MainWrite(o.convert, r.example)
  {
    match Classify(o, f)
    case Some(reason) => Skipped(reason, SkipNote(reason, f))
    case None =>
      var example := ExampleName(o.path, f);
      Processed(example, MainWrite(o.convert, example))
  }

  /** The written and the intended step differ only in where a video goes:
      skips, opened names, gifs and the choice of format all agree. */
  lemma StepDiffersOnlyInVideoTarget(o: Options, f: string)
    ensures StepFor(o, f).Processed? <==> IntendedStep(o, f).Processed?
    ensures StepFor(o, f).Skipped? ==> StepFor(o, f) == IntendedStep(o, f)
    ensures StepFor(o, f).Processed? ==>
              StepFor(o, f).example == IntendedStep(o, f).example &&
              (StepFor(o, f).write.WriteVideo? <==> IntendedStep(o, f).write.WriteVideo?) &&
              (!StepFor(o, f).write.WriteVideo? ==> StepFor(o, f).write == IntendedStep(o, f).write)
    ensures StepFor(o, f).Processed? && StepFor(o, f).write.WriteVideo? ==>
              StepFor(o, f).write.target == f &&
              IntendedStep(o, f).write.target == SaveName(ExampleName(o.path, f), o.convert)
  {
  }

  /** `main(args)`: one step per name gone through, in order. */
  function Plan(o: Options, listing: seq<string>): (r: seq<Step>)
    ensures |r| == |Filenames(o.path, listing)|
    ensures forall i :: 0 <= i < |r| ==> r[i] == StepFor(o, Filenames(o.path, listing)[i])
  {
    var fs := Filenames(o.path, listing);
    seq(|fs|, i requires 0 <= i < |fs| => StepFor(o, fs[i]))
  }

  /** `main` over a directory `data` listing `a.h5f`, converting to mp4:
      the file is opened as `data/a.h5f` and the video written to `a.h5f`. */
  lemma MainPlanWritesListedName()
    ensures Plan(Options("data", "mp4", false, false, false), ["a.h5f"]) ==
              [Processed("data/a.h5f", WriteVideo("a.h5f"))]
  {
    var o := Options("data", "mp4", false, false, false);
    var f := "a.h5f";
    assert Selected(o, f) by {
      assert f[..1][0] == 'a';
      assert f[1..] == ".h5f" && ".h5f"[..3] == ".h5";
    }
    ExampleOfListedName();
    VideoTargetIsListedName();
    var p := Plan(o, [f]);
    assert !Contains(o.path, DataExtension) by { AbsentFirst("data", DataExtension); }
    assert |p| == 1 && p[0] == StepFor(o, f);
    assert p == [p[0]];
  }

  /** The names opened by a run of steps, in order. */
  function Examples(steps: seq<Step>): seq<string>
  {
    if |steps| == 0 then []
    else if steps[0].Processed? then [steps[0].example] + Examples(steps[1..])
    else Examples(steps[1..])
  }

  /** The selected names among `fs`, each under the name it is opened as:
      the reference the run is checked against. */
  function Opened(o: Options, fs: seq<string>): seq<string>
  {
    if |fs| == 0 then []
    else if Selected(o, fs[0]) then [ExampleName(o.path, fs[0])] + Opened(o, fs[1..])
    else Opened(o, fs[1..])
  }

  lemma {:induction false} StepsOpen(o: Options, fs: seq<string>, steps: seq<Step>)
    requires |steps| == |fs|
    requires forall i :: 0 <= i < |fs| ==> steps[i] == StepFor(o, fs[i])
    ensures Examples(steps) == Opened(o, fs)
    decreases |fs|
  {
    if |fs| > 0 {
      StepsOpen(o, fs[1..], steps[1..]);
    }
  }

  /** `main` opens exactly the selected names, in listing order, each under
      its example name; a path naming an `.h5f` file is the only name. */
  lemma PlanOpens(o: Options, listing: seq<string>)
    ensures Examples(Plan(o, listing)) == Opened(o, Filenames(o.path, listing))
    ensures Contains(o.path, DataExtension) ==> |Plan(o, listing)| == 1
  {
    StepsOpen(o, Filenames(o.path, listing), Plan(o, listing));
  }
}
